=== FILE: README.md ===
# A model of the exchange-student marketplace client

This project models the decision logic of a React client for a second-hand
marketplace and community board used by exchange students. The client signs
people in through an identity provider. A profile that needs more information
is sent straight to a completion step, where the visitor picks a country and a
school. Signed-in visitors can do the following:

- list and edit items;
- browse a paged feed;
- read and write board and meeting posts;
- use an admin table.

The source also holds a nickname step (`NicknamePage`), an inquiry form
(`ContactPage`) and a "my posts" list (`MyPosts`). They are modelled as
written, but App.tsx (lines 96-129) routes no path to them: `/auth/nickname`,
`/contact` and `/my/posts`, which the "my" page links to (my.tsx:89), fall
through to the not-found page.

Every page handler is a pure function from the page's state and its inputs to
a new state and a sequence of effects (`Effects.Effect`). An effect is a
navigation, a toast, a request the page sends (typed per page), or a sign-in.
The following are parameters:

- Local storage: a `map<string, string>`.
- The clock: an integer `now` in milliseconds.
- Server answers: datatypes such as `Nickname.CheckResponse`.
- Compressed images and the confirmation dialog.

The modules follow the source files:

| module | models |
|---|---|
| `Session` | the authentication provider and its storage |
| `Users` | the cached profile and its serialised form |
| `AppRouter` | the sign-in redirect and the bottom-bar predicates |
| `Nickname`, `CompleteRegistration` | the two onboarding steps |
| `Items` | item status, age text, location label and card click |
| `ItemDetail` | the carousel, swipes, the full-size image address and chat start |
| `ItemEdit`, `ItemImages` | the item edit page and its photo list edits |
| `Home` | feed de-duplication, paging, query parameters and filters |
| `MyPosts` | the merged "my posts" list |
| `PostForms` | the four post forms |
| `CommunityDetail` | comments and deletion on a post page |
| `AdminItems` | the admin item table |
| `Contact` | the inquiry form |
| `BottomNav` | the bottom navigation bar |

`Base` and `Strings` hold the option type and the string functions that
JavaScript provides: `trim`, `includes`, `startsWith`, `split` and
`toUpperCase`.

## Model

| member | source | states |
|---|---|---|
| Session.Init | client/src/hooks/use-auth.tsx:33-54 | The mount effect. It restores token and user exactly when both keys hold text. Otherwise it keeps the state. Either way it clears loading and installs the sign-out handler. A stored user that does not parse stops the effect and leaves the state unchanged. It never touches storage and it keeps token and user paired. |
| Session.Login | client/src/hooks/use-auth.tsx:56-77 | After `login(t, u)`, memory holds t and u. Storage holds exactly the two keys `token` and `user`, every other key is gone, and the pair is kept together. |
| Session.Logout | client/src/hooks/use-auth.tsx:24-31 | Token and user become null. Only the two session keys are removed and every other key keeps its value. The visitor is sent to `/auth/login`. |
| Session.UpdateUser | client/src/hooks/use-auth.tsx:79-82 | Replaces the user in memory and in storage, and the stored text reads back as that user. The token is unchanged and other keys are kept. The pairing survives exactly when a token exists. |
| Session.RequireAuth | client/src/hooks/use-auth.tsx:99-110 | Redirects to sign-in exactly when loading is over and there is no user. |
| Session.Apply | client/src/App.tsx:74-81 | A handler's effects change the session only through their sign-ins. Effects without a sign-in leave it as it was. |
| Session.ReloadAfterLogin | client/src/hooks/use-auth.tsx:33-63 | A page load after `login(t, u)` restores exactly t and u when t is non-empty. |
| Session.SecondLoginReplacesFirst | client/src/hooks/use-auth.tsx:56-63 | Two logins give the state of the second alone. A reload restores the second user, and no stored value reads back as the first user. |
| Session.ReloadAfterLogout | client/src/hooks/use-auth.tsx:24-54 | A page load after `logout` is anonymous and not loading, and `useRequireAuth` then redirects. |
| Session.NoSessionFromFragment | client/src/hooks/use-auth.tsx:33-48 | A token without a user, or a user without a token, is never restored. |
| Session.UpdateUserWithoutSession | client/src/hooks/use-auth.tsx:79-82 | `updateUser` with no session breaks the token/user pairing. |
| Users.DecodeEncode | client/src/hooks/use-auth.tsx:33-63 | The user text written at login reads back as the same profile. |
| Users.EncodeInjective | client/src/hooks/use-auth.tsx:56-63 | Different profiles are stored as different texts. |
| Users.EncodeUser | client/src/hooks/use-auth.tsx:60-62 | The stored user text is never empty, so it always passes the restore's truthiness test. |
| AppRouter.OAuthCallback | client/src/App.tsx:57-92 | It acts only with both parameters. A profile needing more information is forwarded with the same pair and no sign-in. Any other profile signs in exactly once and goes home. A payload that does not parse gives only an error toast. |
| AppRouter.CallbackSession | client/src/App.tsx:57-92 | The handler changes the session only by the login with the redirect's pair. A visitor forwarded to onboarding stays signed out. |
| AppRouter.NoBottomNavOnItemDetail | client/src/App.tsx:49-54 | For an item id that is not "create", has no slash and does not start with "edit", `/items/<id>` is a detail page and the bar is hidden. |
| AppRouter.BottomNavOnItemEdit | client/src/App.tsx:49-54 | The bar is drawn on `/items/<id>/edit`, whatever the id. |
| AppRouter.BottomNavOnEditLikeItemId | client/src/App.tsx:50 | An item id starting with "edit" is taken for an edit page, so the bar is drawn on its detail page. |
| Nickname.Arrive | client/src/pages/auth/nickname.tsx:22-58 | The mount effect never signs in and never sends a request. With both parameters it stores the token under `token` and keeps the pair. It prefills a chosen (non-"kakao_") name as available, and only such a name. A profile that does not parse, or no parameters and no stored token, sends the visitor to sign-in. Other storage keys are untouched. |
| Nickname.HandleUsernameChange | client/src/pages/auth/nickname.tsx:60-64 | Any edit resets availability to unknown and clears the message. Nothing else changes. |
| Nickname.PatternTestMeaning | client/src/pages/auth/nickname.tsx:74 | The regular expression accepts exactly names of 1 to 8 characters, each a Hangul syllable, an ASCII letter or a digit. |
| Nickname.MatchRepeatMeaning | client/src/pages/auth/nickname.tsx:74 | The bounded repetition `[class]{min,max}$` matches exactly the strings of allowed length made of class characters. |
| Nickname.ValidIsNotBlank | client/src/pages/auth/nickname.tsx:66-79 | A name that passes the format check is never blank. |
| Nickname.CheckAvailability | client/src/pages/auth/nickname.tsx:66-99 | A request is sent exactly for a valid name, and then the checking flag is raised. A blank or malformed name is marked unavailable with its own message and sends nothing. |
| Nickname.ApplyCheckResponse | client/src/pages/auth/nickname.tsx:83-98 | The name becomes available exactly for an ok answer saying so. A refusal shows its error or a fallback, and a failed fetch shows the error text. Checking ends. |
| Nickname.ApplyCheckResponseFor | client/src/pages/auth/nickname.tsx:83-98 | The corrected handler applies an answer only while the field still holds the name that was checked. It never marks another name available. |
| Nickname.Submit | client/src/pages/auth/nickname.tsx:101-161 | The update is sent exactly when the name is available, a token exists and the incoming profile does not already carry that name. The name unavailable gives a toast. No token gives a toast and sign-in. An unchanged chosen name forwards the same pair without a request. It never signs in. |
| Nickname.ApplyUpdateResponse | client/src/pages/auth/nickname.tsx:130-157 | Success forwards the token and the updated profile to the completion step. A failure shows a toast with a non-empty text. It never signs in. |
| Nickname.EditBlocksSubmit | client/src/pages/auth/nickname.tsx:60-109 | After any edit, the submit button is disabled and submitting sends nothing. |
| Nickname.PrefilledNameSkipsUpdate | client/src/pages/auth/nickname.tsx:27-44 | A chosen name from the provider is prefilled as available. Submitting it forwards the same pair with no update request. |
| Nickname.PlaceholderNameNeedsCheck | client/src/pages/auth/nickname.tsx:27-44 | A "kakao_" placeholder is not prefilled, so nothing can be sent before a check. |
| Nickname.Start | client/src/pages/auth/nickname.tsx:22-58 | The state after the mount effect is sound: only a confirmed name is shown as available. |
| Nickname.GuardedStepSound | client/src/pages/auth/nickname.tsx:60-99 | With the corrected handler, every edit, check and answer keeps the page sound. |
| Nickname.GuardedRunSound | client/src/pages/auth/nickname.tsx:60-99 | With the corrected handler, no sequence of edits, checks and answers shows an unconfirmed name as available. |
| Nickname.RunAppend | client/src/pages/auth/nickname.tsx:60-99 | Running a joined sequence of events is running the first part, then the second from the page it left. |
| Nickname.CheckPutsNameInFlight | client/src/pages/auth/nickname.tsx:66-83 | Pressing check with a valid name puts exactly that name in flight. |
| Nickname.SubmitSendsUpdate | client/src/pages/auth/nickname.tsx:101-146 | With an available name, a token and no incoming profile, submit sends the update for that name. |
| Nickname.StaleAnswerAccepted | client/src/pages/auth/nickname.tsx:83-98 | As written, an answer about "abc" that arrives after the field became "abd" marks "abd" available, and submit then sends "abd". |
| CompleteRegistration.Normalize | client/src/pages/auth/complete-registration.tsx:45-64 | An empty input gives "". Every output character is a Hangul syllable. |
| CompleteRegistration.Strip | client/src/pages/auth/complete-registration.tsx:49-50 | The result holds none of the removed characters. An input with none of them is kept, and one made only of them gives "". |
| CompleteRegistration.StripAppend | client/src/pages/auth/complete-registration.tsx:49-50 | Stripping distributes over concatenation. |
| CompleteRegistration.StripNoHangul | client/src/pages/auth/complete-registration.tsx:49-50 | Stripping adds no Hangul syllable. |
| CompleteRegistration.KeepHangul | client/src/pages/auth/complete-registration.tsx:61 | The result is all Hangul and no longer than the input. A Hangul input is kept and one without Hangul gives "". |
| CompleteRegistration.KeepHangulAppend | client/src/pages/auth/complete-registration.tsx:61 | The Hangul filter distributes over concatenation. |
| CompleteRegistration.FirstMatch | client/src/pages/auth/complete-registration.tsx:52-58 | There is no match exactly when no table key matches the input. |
| CompleteRegistration.FirstMatchAt | client/src/pages/auth/complete-registration.tsx:52-58 | The first matching entry of the table is the one used. |
| CompleteRegistration.KeyShape | client/src/pages/auth/complete-registration.tsx:17-42 | Each key is three or four Hangul syllables, or five or more Latin capitals. |
| CompleteRegistration.KeysAreUpper | client/src/pages/auth/complete-registration.tsx:17-42 | Every key is non-empty and `toUpperCase` leaves it unchanged. |
| CompleteRegistration.KeyMatchesUpper | client/src/pages/auth/complete-registration.tsx:52-58 | A key matches exactly the inputs whose `toUpperCase` is that key. |
| CompleteRegistration.FullNameIsHangul | client/src/pages/auth/complete-registration.tsx:17-42 | Every official name is all Hangul, at least five syllables. |
| CompleteRegistration.KeysDistinct | client/src/pages/auth/complete-registration.tsx:17-42 | No key is listed twice. |
| CompleteRegistration.FirstMatchOfKey | client/src/pages/auth/complete-registration.tsx:52-58 | An input that upper-cases to a key finds that key's entry. |
| CompleteRegistration.KeyGivesFullName | client/src/pages/auth/complete-registration.tsx:17-58 | An input that, once stripped, equals a key up to case gives that key's official name. |
| CompleteRegistration.LettersKept | client/src/pages/auth/complete-registration.tsx:49-50 | Letters, digits and Hangul survive stripping. |
| CompleteRegistration.StripPadded | client/src/pages/auth/complete-registration.tsx:49-50 | Removed characters before, between and after two kept parts disappear. |
| CompleteRegistration.StrippedKeyGivesFullName | client/src/pages/auth/complete-registration.tsx:17-58 | A key in any case, with white space or punctuation around or inside it, gives its official name. |
| CompleteRegistration.PaddedKeyGivesFullName | client/src/pages/auth/complete-registration.tsx:17-58 | A key with white space or punctuation around it gives its official name. |
| CompleteRegistration.GappedKeyGivesFullName | client/src/pages/auth/complete-registration.tsx:17-58 | A key with white space or punctuation inside it gives its official name. |
| CompleteRegistration.KaistParts | client/src/pages/auth/complete-registration.tsx:17-42 | "kaist" survives stripping and upper-cases to the KAIST key, whose name is 한국과학기술원. |
| CompleteRegistration.NormalizeKaist | client/src/pages/auth/complete-registration.tsx:17-58 | " kaist ", and "kaist" with any white space around it, gives 한국과학기술원. |
| CompleteRegistration.NormalizeDotlessKaist | client/src/pages/auth/complete-registration.tsx:45-64 | "kaıst", spelt with a dotless ı, also gives 한국과학기술원, because `toUpperCase` turns ı into I. |
| CompleteRegistration.SeoulParts | client/src/pages/auth/complete-registration.tsx:17-42 | "서울" and "대" survive stripping and together form the 서울대 key. |
| CompleteRegistration.NormalizeSpacedAbbreviation | client/src/pages/auth/complete-registration.tsx:17-58 | "서울 대", with any removed characters in the gap, gives 서울대학교. |
| CompleteRegistration.NoKeyKeepsHangul | client/src/pages/auth/complete-registration.tsx:49-61 | An input that is no key after stripping is only filtered to its Hangul syllables. |
| CompleteRegistration.HangulNonKeyIsFixed | client/src/pages/auth/complete-registration.tsx:49-61 | A pure-Hangul name that is not a key is returned unchanged. |
| CompleteRegistration.FullNamesAreFixed | client/src/pages/auth/complete-registration.tsx:17-61 | Every official name of the table is returned unchanged. |
| CompleteRegistration.NoHangulKeepsNothing | client/src/pages/auth/complete-registration.tsx:49-61 | An input without Hangul keeps nothing once filtered. |
| CompleteRegistration.NonKeyLatinIsDropped | client/src/pages/auth/complete-registration.tsx:49-61 | A Latin name that is no key normalises to "". |
| CompleteRegistration.SeoulLatinIsNoKey | client/src/pages/auth/complete-registration.tsx:17-58 | "서울대" plus a Latin letter survives stripping and matches no key. |
| CompleteRegistration.KeepHangulDropsLatin | client/src/pages/auth/complete-registration.tsx:61 | The Hangul filter turns "서울대" plus a Latin letter into "서울대". |
| CompleteRegistration.LatinSuffixHidesKey | client/src/pages/auth/complete-registration.tsx:45-64 | "서울대a" normalises to "서울대": the stray letter hides the key. |
| CompleteRegistration.NormalizeNotIdempotent | client/src/pages/auth/complete-registration.tsx:45-64 | Normalising "서울대a" twice gives 서울대학교 but once gives 서울대, so the normaliser is not idempotent. |
| CompleteRegistration.Matching | client/src/pages/auth/complete-registration.tsx:235-237 | Exactly the popular schools that contain the input, or whose first two characters occur in it, are kept. |
| CompleteRegistration.MatchingAppend | client/src/pages/auth/complete-registration.tsx:235-237 | The filter distributes over concatenation, so the source order is kept. |
| CompleteRegistration.Suggestions | client/src/pages/auth/complete-registration.tsx:233-238 | An empty input gives []. Otherwise there are at most five matching popular schools, taken as a prefix of the filtered list. Fewer than five means every match is there. |
| CompleteRegistration.StepIndex | client/src/pages/auth/complete-registration.tsx:99-101 | Each step sits at its index in the step order. |
| CompleteRegistration.Submit | client/src/pages/auth/complete-registration.tsx:181-213 | With no user nothing is sent. Otherwise the body carries the normalised school, `country \|\| ""` and the stored token. It never signs in. |
| CompleteRegistration.Next | client/src/pages/auth/complete-registration.tsx:151-171 | On the country step it stores only the country and advances one step. On the last step it stores the school and submits. It never signs in. |
| CompleteRegistration.Back | client/src/pages/auth/complete-registration.tsx:173-179 | It keeps the answers and goes one step back. From the first step it goes to sign-in. |
| CompleteRegistration.BackThenNext | client/src/pages/auth/complete-registration.tsx:151-179 | Going back and forward with the same country returns to the same state. |
| CompleteRegistration.WizardRun | client/src/pages/auth/complete-registration.tsx:151-213 | A full pass sends nothing before the last step, then one request with the country and the normalised school. |
| CompleteRegistration.ApplyCompletion | client/src/pages/auth/complete-registration.tsx:208-229 | It signs in exactly once, with the stored token and the returned profile, only after an ok answer, and then goes home. A failure shows a toast and does not sign in. |
| CompleteRegistration.Arrive | client/src/pages/auth/complete-registration.tsx:129-149 | Both parameters sign in at once. A profile that does not parse, or no parameters and no user, goes to sign-in. |
| CompleteRegistration.ArrivalSignsIn | client/src/pages/auth/complete-registration.tsx:129-149 | Arriving with a profile leaves the session equal to a login with that pair. |
| ItemImages.RemoveAt | client/src/pages/items/edit.tsx:197-201 | Drops exactly the element at the index, keeping the others in order. An index out of range drops nothing. |
| ItemImages.RemoveAtCount | client/src/pages/items/edit.tsx:197-201 | Removing in range shortens the list by one and loses exactly that element (multiset). |
| ItemImages.Insert | client/src/pages/items/edit.tsx:234-235 | `splice(i, 0, x)` puts x at i, and removing it again gives the list back. |
| ItemImages.InsertRemoved | client/src/pages/items/edit.tsx:223-240 | Putting a removed element back where it was restores the list. |
| ItemImages.MoveToFront | client/src/pages/items/edit.tsx:203-209 | The chosen photo becomes the first and the rest keep their order. The result is a permutation. |
| ItemImages.MoveToFrontOfFirst | client/src/pages/items/edit.tsx:203-209 | Making the cover photo the cover again changes nothing. |
| ItemImages.Drop | client/src/pages/items/edit.tsx:223-240 | With nothing dragged, or a drop on the same place, the list is unchanged. Otherwise the dragged photo lands at the drop index and the rest keep their order. The result is a permutation, and the dragged index is cleared. |
| ItemImages.DropUndone | client/src/pages/items/edit.tsx:223-240 | Dragging the photo back from where it was dropped restores the list. |
| ItemImages.DropOnFirstIsMoveToFront | client/src/pages/items/edit.tsx:203-240 | Dropping on the first place equals making the photo the cover. |
| ItemEdit.Blank | client/src/pages/items/edit.tsx:108-127 | Before the item loads, the form has no photos, no price and the "거래가능" status. Seller and location come from the visitor. |
| ItemEdit.CurrencyOf | client/src/pages/items/edit.tsx:81-82 | The item's currency when it is listed, else the first currency. |
| ItemEdit.Load | client/src/pages/items/edit.tsx:64-104 | A non-seller is told off and sent home, with the form untouched. The seller's form is filled from the item, with the stated fallbacks. |
| ItemEdit.UploadPhotos | client/src/pages/items/edit.tsx:171-195 | The loop as its `catch` intends it: only the photo list changes, by appending, and no request is sent. |
| ItemEdit.UploadAppendsCompressed | client/src/pages/items/edit.tsx:171-195 | In the intended loop, exactly the decoded image files of the batch are appended, in order. |
| ItemEdit.StallKeepsSubmitDisabled | client/src/pages/items/edit.tsx:129-195 | As written, an undecodable HEIC file followed by a good PNG adds no photo and leaves the submit button disabled. The intended loop adds the PNG. |
| ItemEdit.UploadPhotosAsWritten | client/src/pages/items/edit.tsx:129-195 | As written, only the photos before the first image that does not decode are appended, nothing else on the page changes, and the submit button is enabled again exactly when no such image is in the batch. |
| ItemEdit.ChooseDeliveryMethod | client/src/pages/items/edit.tsx:691-695 | Choosing any method but "기타" clears the free-text description. "기타" keeps it. |
| ItemEdit.Payload | client/src/pages/items/edit.tsx:310-328 | Seller, school and country come from the visitor. The location falls back to the school. A free-text description is sent only with "기타". |
| ItemEdit.Submit | client/src/pages/items/edit.tsx:300-334 | With zero photos there is only a warning. Otherwise one update request is sent, and it always carries photos. |
| ItemEdit.UntouchedEditWritesBack | client/src/pages/items/edit.tsx:64-334 | Loading and submitting untouched writes back the stored item, except for the fields the page takes from the visitor. |
| ItemEdit.OtherMethodOnly | client/src/pages/items/edit.tsx:321 | After choosing a method other than "기타", no free-text description is sent. |
| ItemEdit.Update | client/src/pages/items/edit.tsx:255-298 | No token gives its own failure. A saved item goes to its page. A failure that reads as an expired sign-in goes to sign-in, exactly for those messages. |
| ItemEdit.NoTokenIsNotAuthError | client/src/pages/items/edit.tsx:257-289 | The missing-token message is not read as an expired sign-in. |
| ItemDetail.NextImage | client/src/pages/items/detail.tsx:74-77 | One step forward modulo n, staying in range. Nothing moves without photos. |
| ItemDetail.PrevImage | client/src/pages/items/detail.tsx:79-82 | One step back, from 0 to n-1, staying in range. |
| ItemDetail.PrevUndoesNext | client/src/pages/items/detail.tsx:74-82 | Back undoes forward and forward undoes back. |
| ItemDetail.AdvanceWraps | client/src/pages/items/detail.tsx:74-77 | k presses forward move k places round the ring. |
| ItemDetail.FullCircle | client/src/pages/items/detail.tsx:74-77 | n presses come back to the same photo. |
| ItemDetail.Swipe | client/src/pages/items/detail.tsx:97-105 | Over 50 px goes forward and under -50 px goes back, only with more than one photo. Otherwise nothing moves. |
| ItemDetail.TouchEnd | client/src/pages/items/detail.tsx:93-109 | As written: a missing or zero position returns early with both positions kept. Otherwise the swipe applies and both positions are reset. |
| ItemDetail.SwipeThereAndBack | client/src/pages/items/detail.tsx:85-109 | A swipe one way and back returns to the starting photo. |
| ItemDetail.ShortGestureKeepsPhoto | client/src/pages/items/detail.tsx:85-109 | A gesture of at most 50 px moves no photo. |
| ItemDetail.TapAfterEdgeGestureTurnsPhoto | client/src/pages/items/detail.tsx:93-109 | As written: a gesture starting at x = 0 leaves its end position behind, and a later tap turns the photo. |
| ItemDetail.TouchEndIntended | client/src/pages/items/detail.tsx:93-109 | The corrected handler returns early only when a position is missing, and otherwise swipes and resets. |
| ItemDetail.TapNeverTurnsPhoto | client/src/pages/items/detail.tsx:85-109 | With the corrected handler, after any gesture a tap never turns the photo. |
| ItemDetail.HighResUrl | client/src/pages/items/detail.tsx:112-119 | An Unsplash address gets its query replaced by the fixed one, and any other address is kept. |
| ItemDetail.HighResIdempotent | client/src/pages/items/detail.tsx:112-119 | Applying it twice is applying it once. |
| ItemDetail.ChatStart | client/src/pages/items/detail.tsx:271-290 | No user goes to sign-in. One's own item is refused with a toast. Otherwise one room request is sent, exactly then. |
| ItemDetail.ChatStarted | client/src/pages/items/detail.tsx:174-194 | Success shows a toast and opens the new room. A failure only shows a toast. |
| ItemDetail.NoChatWithOneself | client/src/pages/items/detail.tsx:271-290 | A seller never sends a room request about their own item. |
| Items.StatusOf | client/src/pages/items/detail.tsx:147-161 | Completed exactly for "거래완료". Expired exactly for "기간만료", or for another stored text once `now` is past `availableTo`. Otherwise tradable. |
| Items.Inactive | client/src/components/items/item-card.tsx:51-68 | The card is inactive exactly when the derived status is not "거래가능". |
| Items.UnrecognisedStatusFallsThrough | client/src/components/items/item-card.tsx:51-65 | Any other stored text falls through to the date rule, like "거래가능". |
| Items.AdminExpiredOptionIsTradable | client/src/components/admin/items-management.tsx:429-437 | The admin dialog's "거래기간만료" option (line 436) is not a recognised status, so an item stored with it shows by date alone. The item edit page's `statusOptions` (items/edit.tsx:36-40) holds the same label but is never rendered. |
| Items.StatusIsPermanent | client/src/pages/items/detail.tsx:147-161 | Once expired or completed, an item stays so as time goes on. |
| Items.StatusOfLabel | client/src/components/items/item-card.tsx:51-65 | Storing the shown label and deriving again gives the same status. |
| Items.HoursBetween | client/src/pages/items/detail.tsx:42-44 | The whole hours elapsed, floored. |
| Items.AgoOf | client/src/pages/items/detail.tsx:42-50 | Under 1 h "방금 전", under 24 h hours, under 168 h days (h/24 floored), otherwise weeks (h/168 floored). A missing time gives the not-a-number text. |
| Items.AgoText | client/src/components/items/item-card.tsx:17-25 | Every bucket's text ends in "전". |
| Items.AgoIsLowerBound | client/src/components/items/item-card.tsx:17-25 | The text never over-states the age, and is off by less than one unit of its bucket. |
| Items.AgoNeverDecreases | client/src/components/items/item-card.tsx:17-25 | As time passes, the age shown never goes down. |
| Items.AgoTextInjective | client/src/components/items/item-card.tsx:17-25 | Different buckets read differently. |
| Items.CardAgo | client/src/components/items/item-card.tsx:144 | The grid card reads a falsy date (`undefined`, `null` or "") as "now". The row card (line 210) reads `undefined` as not-a-number and `null` as the epoch. Any other text is read as its parsed time, not-a-number when it does not parse. |
| Items.NullRowDateIsEpoch | client/src/components/items/item-card.tsx:210 | A row card whose date is `null` shows weeks, once a week has passed since 1970. |
| Items.LocationLabel | client/src/components/items/item-card.tsx:112 | "country, school" with a school, the country alone without one (line 178 too). |
| Items.LocationLabelInjective | client/src/components/items/item-card.tsx:112 | For one country, the label tells schools apart. |
| Items.CardClick | client/src/components/items/item-card.tsx:81-84 | The callback, when given, comes first, then the item's page. |
| Items.CardClickOpensDetail | client/src/components/items/item-card.tsx:81-84 | A card click lands on a page the router treats as item detail. |
| Home.FirstOccurrences | client/src/pages/home.tsx:63-69 | The reference de-duplication keeps every id once, and no id is lost. |
| Home.FirstOfKeyIff | client/src/pages/home.tsx:63-69 | An element is the first of its id exactly when no earlier element has that id. |
| Home.Dedup | client/src/pages/home.tsx:63-69 | The page's fold (`acc.some`, `push`) computes exactly the reference de-duplication. |
| Home.FirstOccurrencesOfUnique | client/src/pages/home.tsx:63-69 | A list with distinct ids passes unchanged. |
| Home.DedupIdempotent | client/src/pages/home.tsx:63-69 | De-duplicating twice is de-duplicating once. |
| Home.Feed | client/src/pages/home.tsx:63-69 | The feed shows each loaded id once, in first-loaded order. |
| Home.NextPageParam | client/src/pages/home.tsx:55-57 | There is a next page exactly when the last page holds 10 items, and its number is the count of pages loaded. |
| Home.Browse | client/src/pages/home.tsx:55-57 | Infinite scroll always holds at least the first page. |
| Home.BrowseInOrder | client/src/pages/home.tsx:55-57 | Pages are fetched in order, none twice or skipped. Fetching stops for good at the first page that is not full. |
| Home.ChangeFilter | client/src/pages/home.tsx:112-127 | The school filter with no user goes to sign-in and keeps the filter. With no school it shows the prompt and keeps the filter. Any other choice is taken and the prompt hidden. |
| Home.ChangeFilterConsistent | client/src/pages/home.tsx:112-127 | The school filter is never in force without a school. |
| Home.CountryDefault | client/src/pages/home.tsx:23-31 | The country filter preselects the visitor's country, or "all". |
| Home.NameTextInjective | client/src/pages/home.tsx:43-49 | No two parameters share a name. |
| Home.SearchParam | client/src/pages/home.tsx:47 | At most one search parameter, holding the trimmed text. |
| Home.Paging | client/src/pages/home.tsx:48-49 | Every request carries the page number and limit 10. |
| Home.Query | client/src/pages/home.tsx:43-49 | The query has 2 to 6 parameters and ends with page and limit. |
| Home.LookupAppend | client/src/pages/home.tsx:43-49 | Reading a parameter from a joined query takes the first part that has it. |
| Home.LookupParam | client/src/pages/home.tsx:43-49 | A conditional parameter reads back exactly when present. |
| Home.LookupFour | client/src/pages/home.tsx:43-49 | In four joined parts, the first part holding a name decides its value. |
| Home.PagingReadsBack | client/src/pages/home.tsx:48-49 | Page and limit read back as sent. |
| Home.LookupOptional | client/src/pages/home.tsx:44-47 | Each of the four conditional parameters reads back exactly under its condition. |
| Home.OptionalReadsBack | client/src/pages/home.tsx:44-47 | School only for the school filter with a school. Country only for the country filter when not "all". Search only when its trimmed text is non-empty. |
| Home.QueryReadsBack | client/src/pages/home.tsx:43-49 | What the server reads for every parameter is what the page intends. |
| Home.PageReadsBack | client/src/pages/home.tsx:48 | The page number read back parses to the page requested. |
| Home.CreatePost | client/src/pages/home.tsx:104-110 | No user goes to sign-in. Otherwise it goes to `/items/create`. |
| Home.CreatePostShowsBottomNav | client/src/pages/home.tsx:104-110 | The new-item form is not taken for a detail page, so the bar stays. |
| MyPosts.Tag | client/src/pages/my/posts.tsx:83-86 | Each post is tagged with its type and is otherwise unchanged. |
| MyPosts.InsertByTime | client/src/pages/my/posts.tsx:87-91 | Insertion adds exactly the post (multiset). |
| MyPosts.InsertKeepsNewest | client/src/pages/my/posts.tsx:87-91 | Insertion keeps a newest-first list newest first. |
| MyPosts.InsertOldest | client/src/pages/my/posts.tsx:87-91 | A post no newer than every post of the list is inserted at its end. |
| MyPosts.SortByTime | client/src/pages/my/posts.tsx:87-91 | The sort is a permutation. |
| MyPosts.SortIsNewest | client/src/pages/my/posts.tsx:87-91 | The sorted list is non-increasing in time, with a missing time as 0. |
| MyPosts.SortNewestUnchanged | client/src/pages/my/posts.tsx:87-91 | A list already newest first is left as it is. |
| MyPosts.SortIdempotent | client/src/pages/my/posts.tsx:87-91 | Sorting twice is sorting once. |
| MyPosts.AllPosts | client/src/pages/my/posts.tsx:83-91 | The merge is a permutation of the three tagged lists. |
| MyPosts.AllPostsSound | client/src/pages/my/posts.tsx:83-91 | The merge holds exactly the tagged posts, newest first. |
| MyPosts.CategoryColor | client/src/pages/my/posts.tsx:14-27 | 모임방 is blue, 자유게시판/이야기방 red, 물품 판매/물품 gray-200, anything else gray-100. |
| MyPosts.ItemBadge | client/src/pages/my/posts.tsx:180-181 | Every item wears the gray-200 badge. |
| MyPosts.PostRoute | client/src/pages/my/posts.tsx:40-47 | 모임방 posts go to `/meetings/{id}`, other community posts to `/community/post/{id}`, items to `/items/{id}` (line 170). |
| MyPosts.PostRouteInjective | client/src/pages/my/posts.tsx:40-47 | Two posts opening the same page are the same kind and id. |
| MyPosts.ScrollKey | client/src/pages/my/posts.tsx:41 | Items save their scroll position under the home page's key, and community posts under the board's key (line 169). |
| MyPosts.OpenPost | client/src/pages/my/posts.tsx:40-47 | A click stores the scroll position under the post's key, and the stored text reads back as that position. Every other stored key is kept. The one effect is a navigation to a route that names exactly this post (lines 165-171). |
| MyPosts.Render | client/src/pages/my/posts.tsx:93-94 | Loading is the OR of the three queries. The list shown is the merge. |
| MyPosts.ListOnlyWhenAllSucceed | client/src/pages/my/posts.tsx:93-94 | The list shows exactly when no query loads or failed. |
| PostForms.Defaults | client/src/pages/community-edit.tsx:62-74 | The empty form has the page's category, country "전체" and the visitor's school. |
| PostForms.Validate | client/src/pages/community-create.tsx:106-135 | Nothing is reported exactly when every field is filled. Otherwise the warning is that of the first blank field. |
| PostForms.ValidateStep | client/src/pages/community-create.tsx:106-135 | The checks run in order and the first blank field stops them. |
| PostForms.BoardChecksOrder | client/src/pages/community-create.tsx:106-135 | Board posts warn about a blank title, then content, then country. |
| PostForms.MeetingChecksOrder | client/src/pages/meeting-create.tsx:107-127 | Meeting posts warn about a blank title, then content. The country is optional. |
| PostForms.Submit | client/src/pages/community-create.tsx:106-135 | The request goes out exactly when all checks pass. |
| PostForms.BoardPayload | client/src/pages/community-create.tsx:56-66 | Category 자유게시판, no semester or chat link. An empty country or school falls back to the visitor's. |
| PostForms.EditedPayload | client/src/pages/community-edit.tsx:103-113 | Semester and chat link are sent exactly for 모임방. |
| PostForms.MeetingPayload | client/src/pages/meeting-create.tsx:57-67 | Category 모임방, no photos, country `\|\| ""`. |
| PostForms.SubmitBoardPost | client/src/pages/community-create.tsx:106-135 | It sends exactly when title, content and country are non-blank. |
| PostForms.SubmitEditedPost | client/src/pages/community-edit.tsx:144-172 | It sends exactly when title, content and country are non-blank. |
| PostForms.SubmitMeetingPost | client/src/pages/meeting-create.tsx:150-168 | An empty chat link fails the schema (lines 29-31): the header button shows the "입력 오류" toast with "필수 항목을 모두 입력해주세요." and sends nothing. Otherwise title and content are checked (lines 107-127) before the post is sent. |
| PostForms.SubmitEditedMeeting | client/src/pages/meeting-edit.tsx:141-161 | It sends exactly when title and content are non-blank, as an update with the meeting payload. |
| PostForms.NewMeetingHasChatLink | client/src/pages/meeting-create.tsx:29-31 | A sent new meeting post always carries a non-empty chat link. |
| PostForms.AddFiles | client/src/pages/community-create.tsx:192-219 | The loop as its `catch` intends it: it only appends photos, reports an image that does not decode, and sends no request. |
| PostForms.AddedAreCompressedImages | client/src/pages/community-create.tsx:192-219 | In the intended loop, the batch adds exactly its decoded image files, in order. |
| PostForms.StallAt | client/src/pages/community-create.tsx:137-176 | The position of the first image file that does not decode, or the batch length when every one does. |
| PostForms.AddFilesAsWritten | client/src/pages/community-create.tsx:137-219 | As written, the loop waits for good at an image that does not decode: it only appends photos, sends no request and never signs in. |
| PostForms.AsWrittenStopsAtStall | client/src/pages/community-create.tsx:137-219 | As written, the loop finishes exactly when no image fails to decode, and it adds the photos before the first one that fails. |
| PostForms.StallDropsLaterPhotos | client/src/pages/community-create.tsx:137-219 | As written, an undecodable HEIC file followed by a good PNG adds nothing, shows no toast and never finishes. The intended loop adds the PNG. |
| PostForms.UploadImages | client/src/pages/community-create.tsx:178-220 | A batch past five photos is refused whole with the limit toast. No element of the page calls this handler. |
| PostForms.UploadKeepsLimit | client/src/pages/community-edit.tsx:216-252 | With batches run one after another, starting from at most five photos, no upload or removal leaves more than five. No element of the page calls these handlers. |
| PostForms.AuthorGuard | client/src/pages/community-edit.tsx:76-86 | Anyone but the author is told off and sent to the post. |
| PostForms.LoadBoardPost | client/src/pages/community-edit.tsx:76-100 | The author's form is filled from the post. Anyone else leaves the form untouched. |
| PostForms.LoadMeetingPost | client/src/pages/meeting-edit.tsx:74-96 | The same guard sends others to `/meetings/{id}`. A missing country becomes "전체" and missing semester or chat link becomes "". |
| PostForms.UntouchedBoardEditWritesBack | client/src/pages/community-edit.tsx:76-113 | An untouched edit writes back the stored post, with semester and chat link exactly for 모임방. |
| PostForms.NonAuthorKeepsForm | client/src/pages/community-edit.tsx:76-86 | A non-author never reaches a filled-in form, on either edit page. |
| PostForms.PostErrorText | client/src/pages/community-create.tsx:86-96 | 401 means expired, 403 no permission, else the error text, else the page's fallback. |
| PostForms.ErrorTextShowsMessage | client/src/pages/community-edit.tsx:124-134 | The server's own text is shown exactly when it names neither code. Some text is always shown. |
| PostForms.AfterSave | client/src/pages/community-create.tsx:71-84 | Each successful request goes to its page: the board, the meetings, or the edited post. |
| CommunityDetail.SubmitComment | client/src/pages/community-detail.tsx:168-183 | No user goes to sign-in. Blank text gives only a toast. Otherwise the trimmed text is sent, exactly then. |
| CommunityDetail.SentCommentIsTrimmed | client/src/pages/community-detail.tsx:168-183 | A sent comment is non-blank and trimmed at both ends. Resending its text sends the same comment. |
| CommunityDetail.CommentSent | client/src/pages/community-detail.tsx:97-101 | After a comment is sent, the comment box is blank. |
| CommunityDetail.CommentFailed | client/src/pages/community-detail.tsx:102-108 | The server's text, or the fallback. |
| CommunityDetail.Deletable | client/src/pages/community-detail.tsx:374 | Exactly the comments whose author is the visitor, and none for a visitor who is not signed in. |
| CommunityDetail.DeletableAreOwn | client/src/pages/community-detail.tsx:374 | No comment is deletable by two different visitors. |
| CommunityDetail.CommentDeleteFailed | client/src/pages/community-detail.tsx:124-130 | A 403 says the comment is someone else's. |
| CommunityDetail.PostDeleteErrorText | client/src/pages/community-detail.tsx:149-164 | 403 gives the author-only message, else 500 or "Database" gives the server message, else the generic one, each exactly then. |
| CommunityDetail.PermissionWinsOverServerError | client/src/pages/community-detail.tsx:154-157 | A message naming both 403 and 500 reads as a permission failure. |
| CommunityDetail.HandleDeletePost | client/src/pages/community-detail.tsx:186-190 | The deletion is sent exactly when there is a post id. |
| CommunityDetail.PostDeleted | client/src/pages/community-detail.tsx:139-147 | Success shows a toast and goes to `/community`. |
| CommunityDetail.PostDeleteFailed | client/src/pages/community-detail.tsx:148-165 | A failed post deletion shows the failure title with the text its message selects. |
| CommunityDetail.FetchComments | client/src/pages/community-detail.tsx:80-86 | A 401 reads as no comments. Any other failure is raised. |
| CommunityDetail.CountryColor | client/src/pages/community-detail.tsx:212-228 | A listed country gets its colour, anything else grey. |
| CommunityDetail.GreyExactlyUnlisted | client/src/pages/community-detail.tsx:212-228 | Grey exactly for unlisted countries, "전체" among them. |
| AdminItems.ResetForm | client/src/components/admin/items-management.tsx:188-205 | The default form (EUR, 중고, 거래가능, empty texts) and no photos. The dialogs are untouched. |
| AdminItems.Payload | client/src/components/admin/items-management.tsx:259-265 | An empty price becomes "0" and empty dates become null. The uploaded photos are used. |
| AdminItems.DateOrNull | client/src/components/admin/items-management.tsx:262-263 | null exactly for an empty date. |
| AdminItems.HandleCreate | client/src/components/admin/items-management.tsx:249-266 | Refused exactly when the title or seller is empty. Otherwise the create request is sent. |
| AdminItems.DayOf | client/src/components/admin/items-management.tsx:281-282 | The day part of a stored date, "" when unset. |
| AdminItems.HandleEdit | client/src/components/admin/items-management.tsx:268-287 | The form is filled from the item with the EUR/중고/거래가능/"" fallbacks, and the edit dialog opens. |
| AdminItems.HandleUpdate | client/src/components/admin/items-management.tsx:289-302 | Nothing without an item being edited. Otherwise the update request for it. |
| AdminItems.EditThenUpdateWritesBack | client/src/components/admin/items-management.tsx:268-302 | Opening and saving an item untouched sends back its own fields, with the defaults applied. |
| AdminItems.CreateSucceeded | client/src/components/admin/items-management.tsx:112-120 | After a create: the form reset, the create dialog closed, the edit state untouched. |
| AdminItems.UpdateSucceeded | client/src/components/admin/items-management.tsx:143-152 | After an update: the form reset, the edit dialog closed, no item edited. |
| AdminItems.UpdateSucceededForgets | client/src/components/admin/items-management.tsx:143-152 | After an update no further update can be sent, and the form is the initial one. |
| AdminItems.AppendUploaded | client/src/components/admin/items-management.tsx:207-243 | Exactly the successful uploads are appended, in order, after the photos already there. |
| AdminItems.HandleDelete | client/src/components/admin/items-management.tsx:323-327 | The deletion is sent exactly when confirmed. |
| AdminItems.CategoryColor | client/src/components/admin/items-management.tsx:304-313 | A known category gets its colour, anything else grey. |
| AdminItems.ColouredExactlyKnown | client/src/components/admin/items-management.tsx:304-313 | Coloured exactly for the five known categories. The new form's empty category is grey. |
| Contact.HandleSubmit | client/src/pages/contact.tsx:43-64 | A blank subject or message is rejected with a toast, exactly then. Otherwise the inquiry has trimmed texts, status "pending", and the visitor's id or null and e-mail or "". |
| Contact.EnabledExactlyWhenSending | client/src/pages/contact.tsx:133 | When nothing is pending, the button is enabled exactly when pressing it sends an inquiry. |
| Contact.InquiryIsTrimmed | client/src/pages/contact.tsx:43-61 | A sent subject and message are non-empty and already trimmed. |
| Contact.Submitted | client/src/pages/contact.tsx:25-33 | Success clears both fields, which disables the button, and goes to `/settings`. |
| Contact.Failed | client/src/pages/contact.tsx:34-40 | The server's text, or the fallback. |
| BottomNav.ActiveItems | client/src/components/layout/bottom-nav.tsx:8-20 | At most one entry is lit, and it is the active one. |
| BottomNav.AtMostOneActive | client/src/components/layout/bottom-nav.tsx:8-20 | No location lights two entries. |
| BottomNav.BoardLitOnCreateForm | client/src/components/layout/bottom-nav.tsx:15-20 | "/community" is lit on "/community-create", by prefix. |
| BottomNav.Tap | client/src/components/layout/bottom-nav.tsx:33 | A tap is one navigation and no request, and the location it opens lights exactly the tapped entry. |
| BottomNav.TapLightsEntry | client/src/components/layout/bottom-nav.tsx:8-33 | Tapping an entry lights exactly that entry. |
| Strings.Trim | client/src/pages/contact.tsx:43-53 | The trimmed text is a slice of the input with only white space before and after it. It is empty exactly for an all-space input, and otherwise starts and ends with a non-space. |
| Strings.TrimIdempotent | client/src/pages/contact.tsx:43-61 | Trimming twice is trimming once, and a non-blank trimmed text starts and ends with a non-space. |
| Strings.DecimalRoundTrip | client/src/pages/home.tsx:48 | The page number's decimal text reads back as the number. |
| Strings.DecimalInjective | client/src/pages/home.tsx:48 | Different page numbers have different decimal texts. |
| Strings.UpperOf | client/src/pages/auth/complete-registration.tsx:52 | `toUpperCase` of one character: an ASCII lower-case letter becomes its capital, ı, ſ, ß and the Latin ligatures ﬀ to ﬆ become their ASCII capitals, and a character that does not change case is kept. |
| Strings.UpperCaseAppend | client/src/pages/auth/complete-registration.tsx:52 | Upper-casing distributes over concatenation. |
| Strings.UpperCaseFixed | client/src/pages/auth/complete-registration.tsx:52 | A text with no character that changes case is its own upper case. |
| Strings.BeforeFirst | client/src/pages/items/detail.tsx:114 | `split(c)[0]` is a prefix without c. |
| Effects.LoginCount | client/src/App.tsx:74-81 | The number of sign-ins is zero exactly when an effect list signs in nowhere. |
| Effects.Requests | client/src/pages/auth/nickname.tsx:83-146 | The requests of an effect list are empty exactly when it sends none. |

## Left out

- Network, React rendering, query caching, refetches and invalidations are not modelled. Requests are effect values and their answers are inputs.
- Image compression (`compressImage`) is canvas work with a floating-point quality loop. The compressed image is a field of `PostForms.Upload`, `None` for an image that does not decode.
- Price display and currency conversion are floating point with locale formatting. The currency list is a parameter of `ItemEdit`.
- The websocket hook, the analytics wrapper (its calls inside `login` and init have no effect on the session), the service worker and the debounced search bar are not modelled.
- Presentational pages and the query-string pages (privacy, terms, notifications, debug, header, settings, my, my/commented, my/my-items, community, meetings, search) are not modelled.
- Dates are integer milliseconds. Parsing a date text is not modelled: its result is an input (`Items.Stamp`), `None` for an invalid date.
- `JSON.stringify`/`JSON.parse` of the cached user is replaced by a length-prefixed encoding with a proved round trip. URI decoding of parameters is abstract (`Users.UserParam`).
- Strings.Trim: a `char` is a Unicode scalar value, while JavaScript strings count UTF-16 code units. The two agree for every character in the Basic Multilingual Plane. A character outside it, such as an emoji, is one `char` here and two units in JavaScript, so lengths and slices (the school match's `substring(0, 2)`) differ for it. Such characters are not modelled.
- Strings.UpperOf: is `toUpperCase` exactly for every character whose upper case is made of ASCII capitals, and for Hangul, digits and ASCII. Any other character is kept, where JavaScript may change it (é to É). That difference never decides a match, because each school key is all ASCII capitals or all Hangul.
- The home feed's filter is a datatype with the two values the page tests plus an "other". `onlyAvailable` is a flag.
- The admin image upload's network call is an input per file. The confirmation dialog's answer is a parameter of `AdminItems.HandleDelete`.
- The contact form's Enter-key path goes through the same `handleSubmit` and is not modelled separately.
- The community edit and create pages draw nothing without a visitor, so their submits take a plain `User`.
- MyPosts.SortByTime: only "newest first", the permutation and idempotence are proved. Stability among equal times is built into the insertion but not stated.
- MyPosts.SortByTime: a date that is present but does not parse is not modelled. `getTime()` gives `NaN`, so the comparator returns `NaN`, which `sort` reads as equal. The comparator is then inconsistent and the order is left to the engine. `createdAt` is the parsed time, or `None` for a missing date, which the page counts as 0.
- CompleteRegistration.ApplyCompletion: requires a stored token. The page reads it with TypeScript's `!`, which is removed at compile time and checks nothing, so a missing token would reach `login(null, …)`. That case is not modelled. The page is reached after a login, which stores the token, so the call sites the model covers have one.
- ItemImages.Drop: requires valid indices, because the page only passes indices of drawn photos; so does ItemImages.MoveToFront.
- Home.Browse: the server is a function from page number to page, so a page that changes between fetches is not modelled.
- PostForms.AddFiles: models the loop as its `catch` intends it, reporting and skipping an image that does not decode. As written, the loop waits for good at such an image (see Findings and PostForms.AddFilesAsWritten).
- PostForms.AddedAreCompressedImages: states the intended loop. For the loop as written, PostForms.AsWrittenStopsAtStall gives the photos added before the first image that does not decode.
- ItemEdit.UploadPhotos: the intended loop, as for PostForms.AddFiles. ItemEdit.UploadPhotosAsWritten is the page as written, where the loading flag stays set after such an image.
- ItemEdit.UploadAppendsCompressed: the intended loop. As written, only the photos before the first image that does not decode are added (ItemEdit.UploadPhotosAsWritten).
- PostForms.UploadKeepsLimit: holds for batches run one after another. The check reads the photo count captured when a batch starts, and the file input stays enabled while a batch uploads. Two overlapping batches can each pass the check and together exceed five. Concurrency is not modelled.
- ItemEdit.Submit: the form's schema check runs before `onSubmit` (`zodResolver(insertItemSchema)`, items/edit.tsx:108-109) and is not modelled. The shared schema is not part of this model, so the handler is modelled for every form, including ones the schema would stop.
- PostForms.Submit: on all four post forms the header button runs the schema check first, and any failure shows the same "입력 오류" toast with "필수 항목을 모두 입력해주세요." and sends nothing (community-create.tsx:254-262, community-edit.tsx:286-294, meeting-edit.tsx:199-207, meeting-create.tsx:150-168). Only the meeting form's chat-link rule (meeting-create.tsx:29-31) is modelled, as that toast. The other rules of `createPostSchema` (community-create.tsx:19-29 and 41-42, which allows at most five `images`) are not modelled, and the shared base schema is not part of this model.
- PostForms.UploadImages: the board pages define `handleImageUpload` and `removeImage` (community-create.tsx:178-224, community-edit.tsx:216-252), but no element of either page calls them: there is no file input. The five-photo cap, the stall and the removal (PostForms.UploadKeepsLimit, PostForms.AddFiles, PostForms.AddFilesAsWritten) are modelled as the handlers are written, though no visitor reaches them. The meeting forms always send no photos (meeting-create.tsx:64). The item edit page is the one that wires an upload (items/edit.tsx:511-524).
- AdminItems.AppendUploaded: the page appends to the photo list captured when the batch started (items-management.tsx:237). A photo removed while a batch uploads comes back when the batch ends. Concurrency is not modelled: `images` is one list, with no removal between the start and the end of a batch.
- AdminItems.DayOf: the page writes `new Date(x).toISOString().split('T')[0]` (items-management.tsx:281-282), which re-writes the date in UTC. A stored date with a time-zone offset, or a bare date read as local time, can come out as the day before or after. Date parsing and time zones are not modelled: the model takes the stored text before the first 'T'.
- AdminItems.HandleEdit: a stored date that does not parse makes `toISOString` throw a `RangeError` before `setIsEditDialogOpen(true)` runs, so the dialog does not open. That path is not modelled.
- AdminItems.CategoryColor: the colour tables are JavaScript objects, and a lookup also finds inherited names such as "constructor". The model looks up own keys only. The categories and countries come from fixed select lists, so such a name does not arise; the same holds for CommunityDetail.CountryColor.
- MyPosts.OpenPost: `window.scrollY` is a whole number of pixels here. A fractional offset, which `toString` writes with a decimal point, is not modelled. The home page's restoring of the saved position (home.tsx:72-81) is not modelled either.
- The drag state of the photo list beyond the dragged index (drag-over and drag-end events) has no effect on the list and is not modelled.

## Findings

| source | as written | input that shows it | evidently intended | confidence | as-written member | corrected member |
|---|---|---|---|---|---|---|
| client/src/pages/auth/nickname.tsx:83-98 | The availability answer is applied to whatever name is in the field when it arrives. The field stays editable while the check is in flight. | Check "abc", edit the field to "abd" before the answer, then the answer "available" arrives: "abd" is shown as available and submit sends "abd". | An answer marks a name available only while the field still holds the name that was checked. | not executed | Nickname.StaleAnswerAccepted | Nickname.GuardedRunSound |
| client/src/pages/items/detail.tsx:93-109 | `handleTouchEnd` returns early on `!touchStartX.current`, which is also true at position 0. It does so without clearing the positions. | A gesture starting at x = 0 and ending at x = 200 is ignored, and its end position 200 stays. A later tap at x = 300 with no movement is read as a swipe of 100 px and turns the photo. | Return early only when no position was recorded (`== null`), so that every gesture clears its positions. | not executed | ItemDetail.TapAfterEdgeGestureTurnsPhoto | ItemDetail.TapNeverTurnsPhoto |
| client/src/pages/items/edit.tsx:129-195 | `compressImage` settles its promise only in `img.onload` and has no `onerror` or `reject`. Awaiting an image that does not decode never returns, so later files are never read, the uploading flag is never cleared and the `catch` toast cannot show. The page's file input (lines 511-524) reaches this loop. The same code is in community-create.tsx:137-224 and community-edit.tsx:175-252, where no element calls the upload handler. | On the item edit page, a batch of an `image/heic` file the browser cannot decode followed by a good PNG: no photo is added, the PNG is never read and the submit button stays disabled. | A failed decode rejects the promise, the `catch` reports the file, and the loop goes on to the next file. | not executed | ItemEdit.StallKeepsSubmitDisabled | ItemEdit.UploadAppendsCompressed |

=== FILE: admin_items.dfy ===
/**
  The administrator's item table (`/admin`, items tab): one form shared by the
  create and edit dialogs, its reset, the create and update requests it sends,
  the uploaded photo list, deletion after a confirmation, and the category
  badge. A stored date reaches the form as its ISO 8601 text; the form keeps
  the day part, the text before `T`.
*/
module AdminItems {
  import opened Base
  import opened Strings
  import opened Effects
  import ItemImages

  /** The dialog's form; every field is text, and an unset date is "". */
  datatype AdminForm = AdminForm(
    title: string,
    description: string,
    price: string,
    currency: string,
    category: string,
    condition: string,
    country: string,
    school: string,
    sellerId: string,
    openChatLink: string,
    availableFrom: string,
    availableTo: string,
    status: string)

  /** The form `resetForm` restores and the page starts with. */
  const EmptyForm: AdminForm :=
    AdminForm("", "", "", "EUR", "", "중고", "", "", "", "", "", "", "거래가능")

  /** An item as the administrator's list returns it. */
  datatype StoredItem = StoredItem(
    id: string,
    title: string,
    sellerId: string,
    description: Option<string>,
    price: Option<string>,
    currency: Option<string>,
    category: Option<string>,
    condition: Option<string>,
    country: Option<string>,
    school: Option<string>,
    openChatLink: Option<string>,
    availableFrom: Option<string>,
    availableTo: Option<string>,
    status: Option<string>,
    images: Option<seq<string>>)

  /** The body of a create or update request: the form, with the price and dates
      filled in and the uploaded photos. A `None` date is sent as `null`. */
  datatype AdminPayload = AdminPayload(
    title: string,
    description: string,
    price: string,
    currency: string,
    category: string,
    condition: string,
    country: string,
    school: string,
    sellerId: string,
    openChatLink: string,
    availableFrom: Option<string>,
    availableTo: Option<string>,
    status: string,
    images: seq<string>)

  datatype AdminRequest =
    | CreateItem(payload: AdminPayload)
    | UpdateItem(id: string, payload: AdminPayload)
    | DeleteItem(id: string)

  /** The panel: the form, the uploaded photos, the item being edited and the two dialogs. */
  datatype AdminPage = AdminPage(
    form: AdminForm,
    images: seq<string>,
    editing: Option<StoredItem>,
    createOpen: bool,
    editOpen: bool)

  const InitialPage: AdminPage := AdminPage(EmptyForm, [], None, false, false)

  /** `resetForm`: the default form and no photos; the dialogs and the edited
      item are left to the caller. */
  function ResetForm(p: AdminPage): (r: AdminPage)
    ensures r.form == EmptyForm && r.images == []
    ensures r.editing == p.editing && r.createOpen == p.createOpen && r.editOpen == p.editOpen
  {
    p.(form := EmptyForm, images := [])
  }

  /** A date field as sent: `null` for an empty one. */
  function DateOrNull(d: string): (r: Option<string>)
    ensures r.None? <==> d == ""
    ensures r.Some? ==> r.value == d
  {
    if d == "" then None else Some(d)
  }

  /** `{ ...formData, price: price || "0", images, availableFrom: … || null, … }`. */
  function Payload(f: AdminForm, images: seq<string>): (p: AdminPayload)
    ensures p.price == (if f.price == "" then "0" else f.price) && p.price != ""
    ensures p.availableFrom == DateOrNull(f.availableFrom) && p.availableTo == DateOrNull(f.availableTo)
    ensures p.images == images
    ensures p.title == f.title && p.sellerId == f.sellerId && p.status == f.status && p.currency == f.currency
  {
    AdminPayload(f.title, f.description, OrElse(f.price, "0"), f.currency, f.category, f.condition,
                 f.country, f.school, f.sellerId, f.openChatLink,
                 DateOrNull(f.availableFrom), DateOrNull(f.availableTo), f.status, images)
  }

  /** `handleCreateItem`: a title and a seller are required. */
  function HandleCreate(p: AdminPage): (r: seq<Effect<AdminRequest>>)
    ensures |r| == 1 && NoLogin(r)
    ensures NoRequest(r) <==> p.form.title == "" || p.form.sellerId == ""
    ensures NoRequest(r) ==> r == [Toast("오류", "제목과 판매자를 입력해주세요.")]
    ensures !NoRequest(r) ==> r == [Send(CreateItem(Payload(p.form, p.images)))]
  {
    if p.form.title == "" || p.form.sellerId == "" then [Toast("오류", "제목과 판매자를 입력해주세요.")]
    else
      var r := [Send(CreateItem(Payload(p.form, p.images)))];
      assert r[0].Send?;
      r
  }

  /** A stored date as the form shows it: its day, or "" when unset. */
  function DayOf(d: Option<string>): (r: string)
    ensures d.None? || d.value == "" ==> r == ""
    ensures r <= d.GetOr("") && 'T' !in r
  {
    if d.Some? && d.value != "" then BeforeFirst(d.value, 'T') else ""
  }

  /** `handleEditItem`: the item becomes the edited one, the form is filled from
      it with the defaults for its missing fields, and the edit dialog opens. */
  function HandleEdit(p: AdminPage, item: StoredItem): (r: AdminPage)
    ensures r.editing == Some(item) && r.editOpen && r.createOpen == p.createOpen
    ensures r.images == item.images.GetOr([])
    ensures r.form.title == item.title && r.form.sellerId == item.sellerId
    ensures r.form.currency == OrElse(item.currency.GetOr(""), "EUR")
    ensures r.form.condition == OrElse(item.condition.GetOr(""), "중고")
    ensures r.form.status == OrElse(item.status.GetOr(""), "거래가능")
    ensures r.form.price == item.price.GetOr("")
    ensures r.form.availableFrom == DayOf(item.availableFrom) && r.form.availableTo == DayOf(item.availableTo)
  {
    var form := AdminForm(
      item.title,
      item.description.GetOr(""),
      item.price.GetOr(""),
      OrElse(item.currency.GetOr(""), "EUR"),
      item.category.GetOr(""),
      OrElse(item.condition.GetOr(""), "중고"),
      item.country.GetOr(""),
      item.school.GetOr(""),
      item.sellerId,
      item.openChatLink.GetOr(""),
      DayOf(item.availableFrom),
      DayOf(item.availableTo),
      OrElse(item.status.GetOr(""), "거래가능"));
    p.(form := form, images := item.images.GetOr([]), editing := Some(item), editOpen := true)
  }

  /** `handleUpdateItem`: nothing without an item being edited. */
  function HandleUpdate(p: AdminPage): (r: seq<Effect<AdminRequest>>)
    ensures p.editing.None? <==> r == []
    ensures p.editing.Some? ==> r == [Send(UpdateItem(p.editing.value.id, Payload(p.form, p.images)))]
  {
    if p.editing.None? then [] else [Send(UpdateItem(p.editing.value.id, Payload(p.form, p.images)))]
  }

  /** Opening an item and saving it untouched sends back the item's own fields,
      with the form's defaults where the item had none, "0" for a missing price,
      and its dates cut to the day. */
  lemma EditThenUpdateWritesBack(p: AdminPage, item: StoredItem)
    ensures var r := HandleUpdate(HandleEdit(p, item));
      && r == [Send(UpdateItem(item.id, Payload(HandleEdit(p, item).form, item.images.GetOr([]))))]
      && var q := r[0].request.payload;
      && q.title == item.title && q.sellerId == item.sellerId
      && q.images == item.images.GetOr([])
      && q.price == OrElse(item.price.GetOr(""), "0")
      && q.currency == OrElse(item.currency.GetOr(""), "EUR")
      && q.status == OrElse(item.status.GetOr(""), "거래가능")
      && (item.availableFrom.None? ==> q.availableFrom.None?)
      && (item.availableTo.None? ==> q.availableTo.None?)
  {
  }

  /** What a successful create or update does to the panel: both close their
      dialog, the update also forgets the edited item, and the form is reset. */
  function CreateSucceeded(p: AdminPage): (r: (AdminPage, seq<Effect<AdminRequest>>))
    ensures r.0.form == EmptyForm && r.0.images == [] && !r.0.createOpen
    ensures r.0.editing == p.editing && r.0.editOpen == p.editOpen
    ensures r.1 == [Toast("성공", "상품이 등록되었습니다.")]
  {
    (ResetForm(p.(createOpen := false)), [Toast("성공", "상품이 등록되었습니다.")])
  }

  function UpdateSucceeded(p: AdminPage): (r: (AdminPage, seq<Effect<AdminRequest>>))
    ensures r.0.form == EmptyForm && r.0.images == [] && !r.0.editOpen && r.0.editing.None?
    ensures r.0.createOpen == p.createOpen
    ensures r.1 == [Toast("성공", "상품이 수정되었습니다.")]
  {
    (ResetForm(p.(editOpen := false, editing := None)), [Toast("성공", "상품이 수정되었습니다.")])
  }

  /** After a successful update the panel can send no further update until an
      item is opened again, and its form is the one a fresh panel starts with. */
  lemma UpdateSucceededForgets(p: AdminPage)
    ensures var q := UpdateSucceeded(p).0;
      HandleUpdate(q) == [] && q.form == InitialPage.form && q.images == InitialPage.images
  {
  }

  /** The addresses of the uploads that succeeded, in order. */
  function Uploaded(results: seq<Option<string>>): seq<string> {
    if results == [] then []
    else (if results[0].Some? then [results[0].value] else []) + Uploaded(results[1..])
  }

  /** `handleImageUpload`: each file is uploaded in turn; the address of every
      upload that succeeded (`Some`) is appended, in order, and a failed one is
      skipped. */
  function AppendUploaded(images: seq<string>, results: seq<Option<string>>): (r: seq<string>)
    ensures r == images + Uploaded(results)
    ensures |r| <= |images| + |results|
    ensures forall x :: x in r[|images|..] ==> Some(x) in results
    decreases |results|
  {
    if results == [] then images
    else
      var head := if results[0].Some? then [results[0].value] else [];
      var now := images + head;
      var r := AppendUploaded(now, results[1..]);
      assert r == images + (head + Uploaded(results[1..]));
      assert forall x :: x in r[|images|..] ==> x in r[|now|..] || x in now[|images|..];
      r
  }

  /** `handleDeleteItem`: the deletion is sent only once the administrator confirms. */
  function HandleDelete(itemId: string, confirmed: bool): (r: seq<Effect<AdminRequest>>)
    ensures confirmed <==> r == [Send(DeleteItem(itemId))]
    ensures !confirmed ==> r == []
  {
    if confirmed then [Send(DeleteItem(itemId))] else []
  }

  const DefaultColor: string := "bg-gray-100 text-gray-800"

  /** The category colours the table knows. */
  const CategoryColors: map<string, string> := map[
    "전자기기" := "bg-blue-100 text-blue-800",
    "도서" := "bg-green-100 text-green-800",
    "가구" := "bg-purple-100 text-purple-800",
    "가전" := "bg-orange-100 text-orange-800",
    "운동/레저" := "bg-indigo-100 text-indigo-800"]

  /** `getCategoryColor`: the table's colour, or the default grey. */
  function CategoryColor(category: string): (r: string)
    ensures category in CategoryColors ==> r == CategoryColors[category]
    ensures category !in CategoryColors ==> r == DefaultColor
  {
    if category in CategoryColors then OrElse(CategoryColors[category], DefaultColor) else DefaultColor
  }

  /** Only the five known categories are coloured; anything else, including the
      empty category of a new form, is grey. */
  lemma ColouredExactlyKnown(category: string)
    ensures CategoryColor(category) != DefaultColor <==> category in CategoryColors
    ensures CategoryColor(EmptyForm.category) == DefaultColor
  {
    if category in CategoryColors {
      var c := CategoryColors[category];
      assert c[3] != DefaultColor[3] || c[5] != DefaultColor[5];
    }
  }
}

=== FILE: app_router.dfy ===
/**
  The application router: the sign-in redirect handler that runs on every page
  load, and the location predicates that decide whether the bottom navigation
  bar is drawn.
*/
module AppRouter {
  import opened Strings
  import opened Users
  import opened Effects
  import opened Session

  /** The handler for a provider redirect carrying `token` and `user` query
      parameters (an empty `token` is a missing one). A profile flagged as needing
      more information is forwarded, unchanged and without signing in, to the
      completion step; any other profile signs in and goes home; a payload that
      does not parse only shows an error. */
  function OAuthCallback(token: string, param: UserParam): (r: seq<Effect<()>>)
    ensures token == "" || param.Absent? ==> r == []
    ensures NoRequest(r)
    ensures LoginCount(r) == (if token != "" && param.Parsed? && !param.user.needsAdditionalInfo then 1 else 0)
    ensures param.Malformed? && token != "" ==> |r| == 1 && r[0].Toast?
    ensures token != "" && param.Parsed? && param.user.needsAdditionalInfo ==>
      r == [Navigate(WithCredentials(CompleteRegistrationPage, token, param.user))]
    ensures token != "" && param.Parsed? && !param.user.needsAdditionalInfo ==>
      r == [LogIn(token, param.user), Navigate(Path(HomePage))]
  {
    if token == "" || param.Absent? then []
    else
      match param
      case Malformed => [Toast("로그인 오류", "소셜 로그인 처리 중 오류가 발생했습니다.")]
      case Parsed(u) =>
        if u.needsAdditionalInfo then [Navigate(WithCredentials(CompleteRegistrationPage, token, u))]
        else [LogIn(token, u), Navigate(Path(HomePage))]
  }

  /** The redirect handler changes the session only by one sign-in with exactly the
      redirect's pair, and only for a profile that needs nothing more; a visitor
      sent to the completion step stays signed out. */
  lemma CallbackSession(s: AuthState, token: string, param: UserParam)
    ensures var r := Apply(s, OAuthCallback(token, param));
      if token != "" && param.Parsed? && !param.user.needsAdditionalInfo
      then r == Login(s, token, param.user)
      else r == s
    ensures s.user.None? && token != "" && param.Parsed? && param.user.needsAdditionalInfo ==>
      Apply(s, OAuthCallback(token, param)).user.None? &&
      RequireAuth(Apply(s, OAuthCallback(token, param))) == RequireAuth(s)
  {
    var es := OAuthCallback(token, param);
    if token != "" && param.Parsed? && !param.user.needsAdditionalInfo {
      var s1 := Login(s, token, param.user);
      assert es[1..] == [Navigate(Path(HomePage))];
      assert NoLogin(es[1..]);
    }
  }

  predicate IsAuthPage(location: string) {
    StartsWith(location, "/auth")
  }

  predicate IsItemDetailPage(location: string) {
    StartsWith(location, "/items/") && location != "/items/create" && !Contains(location, "/edit")
  }

  predicate IsSearchPage(location: string) {
    location == "/search" || StartsWith(location, "/search/")
  }

  predicate IsProfilePage(location: string) {
    location == "/profile"
  }

  predicate IsNotificationsPage(location: string) {
    location == "/notifications"
  }

  predicate IsAdminPage(location: string) {
    StartsWith(location, "/admin")
  }

  /** Whether the router draws the bottom navigation bar. */
  predicate ShowsBottomNav(location: string) {
    && !IsAuthPage(location)
    && !IsItemDetailPage(location)
    && !IsSearchPage(location)
    && !IsProfilePage(location)
    && !IsNotificationsPage(location)
    && !IsAdminPage(location)
  }

  /** The bar is hidden on an item's detail page, for any item id that is not
      "create", holds no slash and does not begin with "edit". */
  lemma {:induction false} NoBottomNavOnItemDetail(id: string)
    requires id != "" && id != "create" && '/' !in id && !StartsWith(id, "edit")
    ensures IsItemDetailPage("/items/" + id)
    ensures !ShowsBottomNav("/items/" + id)
  {
    var loc := "/items/" + id;
    assert StartsWith(loc, "/items/");
    assert loc[7..] == id;
    assert ("/items/create")[7..] == "create";
    forall i | 0 <= i <= |loc| - 5
      ensures !OccursAt(loc, "/edit", i)
    {
      var w := loc[i..i + 5];
      if i == 0 {
        assert w[1] == loc[1] == 'i';
      } else if i < 6 {
        assert w[0] == loc[i] != '/';
      } else if i == 6 {
        assert id[..4] != "edit";
        assert w == ['/'] + id[..4];
        assert w[1..] == id[..4];
      } else {
        assert w[0] == loc[i] == id[i - 7] && id[i - 7] in id;
      }
    }
    assert !StartsWith(loc, "/auth") by { assert loc[1] == 'i'; }
    assert !StartsWith(loc, "/admin") by { assert loc[1] == 'i'; }
  }

  /** The bar is drawn on an item's edit page, whatever the item id. */
  lemma BottomNavOnItemEdit(id: string)
    ensures ShowsBottomNav("/items/" + id + "/edit")
  {
    var loc := "/items/" + id + "/edit";
    assert OccursAt(loc, "/edit", |loc| - 5);
    assert !StartsWith(loc, "/auth") by { assert loc[1] == 'i'; }
    assert !StartsWith(loc, "/admin") by { assert loc[1] == 'i'; }
    assert !StartsWith(loc, "/search/") by { assert loc[1] == 'i'; }
  }

  /** The detail page of an item whose id begins with "edit" is taken for an edit
      page, so the bar is drawn there. */
  lemma BottomNavOnEditLikeItemId()
    ensures !IsItemDetailPage("/items/editor") && ShowsBottomNav("/items/editor")
  {
    var loc := "/items/editor";
    assert OccursAt(loc, "/edit", 6);
    assert !StartsWith(loc, "/auth") by { assert loc[1] == 'i'; }
    assert !StartsWith(loc, "/admin") by { assert loc[1] == 'i'; }
    assert !StartsWith(loc, "/search/") by { assert loc[1] == 'i'; }
  }
}

=== FILE: base.dfy ===
/** Small shared datatypes used by every page model. */
module Base {

  /** A value that may be absent: JavaScript's `null`/`undefined` on a field of known type. */
  datatype Option<+T> = None | Some(value: T) {

    /** The value, or `default` when absent (JavaScript's `x ?? default`). */
    function GetOr(default: T): T {
      match this
      case Some(v) => v
      case None => default
    }
  }

  /** The head and tail of a concatenation whose first part is not empty. */
  lemma ConsAppend<T>(a: seq<T>, b: seq<T>)
    requires a != []
    ensures (a + b)[0] == a[0] && (a + b)[1..] == a[1..] + b
  {
  }
}

=== FILE: bottom_nav.dfy ===
/**
  The bottom navigation bar: four fixed entries and the rule that highlights
  the entry for the current location.
*/
module BottomNav {
  import opened Strings
  import opened Effects

  datatype NavItem = NavItem(path: string, caption: string)

  /** The entries, left to right. */
  const NavItems: seq<NavItem> := [
    NavItem("/", "홈"),
    NavItem("/community", "자유게시판"),
    NavItem("/meetings", "모임방"),
    NavItem("/my", "MY")]

  /** `isActivePath`: home only on "/" itself, any other entry on every location
      that starts with its path. */
  predicate IsActivePath(location: string, path: string) {
    if path == "/" then location == "/" else StartsWith(location, path)
  }

  /** The indices of the highlighted entries. */
  function ActiveItems(location: string): (r: seq<nat>)
    ensures |r| <= 1
    ensures forall k :: 0 <= k < |r| ==> r[k] < |NavItems| && IsActivePath(location, NavItems[r[k]].path)
    ensures forall i :: 0 <= i < |NavItems| && IsActivePath(location, NavItems[i].path) ==> r == [i]
  {
    var home, community, meetings, my := "/", "/community", "/meetings", "/my";
    if location == "/" then
      assert !StartsWith(location, community) && !StartsWith(location, meetings) && !StartsWith(location, my);
      [0]
    else if StartsWith(location, community) then
      assert location[1] == 'c';
      [1]
    else if StartsWith(location, meetings) then
      assert location[1] == 'm' && location[2] == 'e';
      [2]
    else if StartsWith(location, my) then [3]
    else []
  }

  /** At most one entry is highlighted, whatever the location. */
  lemma AtMostOneActive(location: string, i: nat, j: nat)
    requires i < |NavItems| && j < |NavItems|
    requires IsActivePath(location, NavItems[i].path) && IsActivePath(location, NavItems[j].path)
    ensures i == j
  {
    assert ActiveItems(location) == [i];
  }

  /** A longer address under an entry's path still highlights it: the board
      entry is lit on the new-post form. */
  lemma BoardLitOnCreateForm()
    ensures ActiveItems("/community-create") == [1]
  {
    assert StartsWith("/community-create", "/community");
  }

  /** A tap on an entry opens a location where that entry, and only it, is lit. */
  function Tap(item: NavItem): (r: seq<Effect<()>>)
    ensures |r| == 1 && NoRequest(r) && NoLogin(r) && r[0].Navigate? && r[0].route.Path?
    ensures forall i :: 0 <= i < |NavItems| && NavItems[i] == item ==> ActiveItems(r[0].route.path) == [i]
  {
    assert StartsWith(item.path, item.path);
    [Navigate(Path(item.path))]
  }

  /** Tapping an entry, then reading the bar at the location opened, lights that entry. */
  lemma TapLightsEntry(i: nat)
    requires i < |NavItems|
    ensures ActiveItems(Tap(NavItems[i])[0].route.path) == [i]
  {
  }
}

=== FILE: community_detail.dfy ===
/**
  A board post's page (`/community/post/:id`): the comment box, who may edit
  the post or delete a comment, what a failed deletion says, how the comment
  list reads a refused request, and the country badge.
*/
module CommunityDetail {
  import opened Base
  import opened Strings
  import opened Users
  import opened Effects

  /** The requests the page sends. */
  datatype DetailRequest =
    | CreateComment(postId: string, content: string)
    | DeleteComment(commentId: string)
    | DeletePost(postId: string)

  datatype Comment = Comment(id: string, authorId: string, content: string)

  /** `handleSubmitComment`: a visitor must sign in first; a blank comment only
      warns; otherwise the trimmed text is sent. */
  function SubmitComment(user: Option<User>, text: string, postId: string): (r: seq<Effect<DetailRequest>>)
    ensures |r| == 1 && NoLogin(r)
    ensures user.None? ==> r == [Navigate(Path(LoginPage))]
    ensures user.Some? && IsBlank(text) ==> r == [Toast("댓글 내용을 입력해주세요", "")]
    ensures !NoRequest(r) <==> user.Some? && !IsBlank(text)
    ensures !NoRequest(r) ==> r == [Send(CreateComment(postId, Trim(text)))]
  {
    if user.None? then [Navigate(Path(LoginPage))]
    else if IsBlank(text) then [Toast("댓글 내용을 입력해주세요", "")]
    else
      var r := [Send(CreateComment(postId, Trim(text)))];
      assert r[0].Send?;
      r
  }

  /** A sent comment is never blank, starts and ends with a non-space, and
      sending its own text again sends the very same comment. */
  lemma SentCommentIsTrimmed(u: User, text: string, postId: string)
    requires !IsBlank(text)
    ensures var c := SubmitComment(Some(u), text, postId)[0].request.content;
      && c != [] && !IsSpace(c[0]) && !IsSpace(c[|c| - 1])
      && SubmitComment(Some(u), c, postId) == SubmitComment(Some(u), text, postId)
  {
    TrimIdempotent(text);
  }

  /** After a sent comment the box is emptied; a failed one shows the server's
      text or a fallback, and keeps the box. */
  function CommentSent(): (text: string)
    ensures IsBlank(text)
  {
    ""
  }

  function CommentFailed(message: string): (r: Effect<DetailRequest>)
    ensures r.Toast? && r.title == "댓글 작성 실패"
    ensures message != "" ==> r.description == message
    ensures message == "" ==> r.description == "댓글을 작성하는데 실패했습니다."
  {
    Toast("댓글 작성 실패", OrElse(message, "댓글을 작성하는데 실패했습니다."))
  }

  /** The author's controls appear for the visitor whose id is the post's author. */
  predicate IsAuthor(user: Option<User>, authorId: string) {
    user.Some? && user.value.id == authorId
  }

  /** The delete button of a comment appears for its own author only. */
  predicate CanDelete(user: Option<User>, c: Comment) {
    user.Some? && user.value.id == c.authorId
  }

  /** The comments a visitor may delete. */
  function Deletable(user: Option<User>, comments: seq<Comment>): (r: seq<Comment>)
    ensures |r| <= |comments|
    ensures forall c :: c in r <==> c in comments && CanDelete(user, c)
    ensures user.None? ==> r == []
  {
    if comments == [] then []
    else (if CanDelete(user, comments[0]) then [comments[0]] else []) + Deletable(user, comments[1..])
  }

  /** A comment is deletable by one visitor id at most: two visitors never
      share one. */
  lemma DeletableAreOwn(user: Option<User>, other: User, comments: seq<Comment>)
    ensures user.Some? && user.value.id != other.id ==>
      forall c :: c in Deletable(user, comments) ==> c !in Deletable(Some(other), comments)
  {
  }

  /** The comment-deletion failure: a 403 means someone else's comment. */
  function CommentDeleteFailed(message: string): (r: Effect<DetailRequest>)
    ensures r.Toast? && r.title == "댓글 삭제 실패"
    ensures r.description == (if Contains(message, "403") then "본인의 댓글만 삭제할 수 있습니다." else "댓글을 삭제하는데 실패했습니다.")
  {
    Toast("댓글 삭제 실패",
          if Contains(message, "403") then "본인의 댓글만 삭제할 수 있습니다." else "댓글을 삭제하는데 실패했습니다.")
  }

  const AuthorOnlyText: string := "작성자만 게시글을 삭제할 수 있습니다."
  const ServerErrorText: string := "게시글 삭제 중 서버 오류가 발생했습니다. 잠시 후 다시 시도해 주세요."
  const GenericDeleteText: string := "게시글 삭제에 실패했습니다. (서버 오류)"

  /** The post-deletion failure's text: 403 first, then 500 or a database error. */
  function PostDeleteErrorText(message: string): (t: string)
    ensures t == AuthorOnlyText <==> Contains(message, "403")
    ensures t == ServerErrorText <==> !Contains(message, "403") && (Contains(message, "500") || Contains(message, "Database"))
    ensures t == GenericDeleteText <==> !Contains(message, "403") && !Contains(message, "500") && !Contains(message, "Database")
  {
    assert AuthorOnlyText[0] != ServerErrorText[0] && AuthorOnlyText[0] != GenericDeleteText[0];
    assert ServerErrorText[6] != GenericDeleteText[6];
    if Contains(message, "403") then AuthorOnlyText
    else if Contains(message, "500") || Contains(message, "Database") then ServerErrorText
    else GenericDeleteText
  }

  /** A message naming both 403 and 500 is read as a permission failure. */
  lemma PermissionWinsOverServerError(message: string)
    requires Contains(message, "403") && Contains(message, "500")
    ensures PostDeleteErrorText(message) == AuthorOnlyText
  {
  }

  /** `handleDeletePost`: only with a post id in the address. */
  function HandleDeletePost(postId: string): (r: seq<Effect<DetailRequest>>)
    ensures postId == "" <==> r == []
    ensures postId != "" ==> r == [Send(DeletePost(postId))]
  {
    if postId == "" then [] else [Send(DeletePost(postId))]
  }

  function PostDeleted(): (r: seq<Effect<DetailRequest>>)
    ensures |r| == 2 && NoRequest(r) && NoLogin(r) && r[1] == Navigate(Path("/community"))
  {
    [Toast("게시글 삭제 완료", "게시글이 성공적으로 삭제되었습니다."), Navigate(Path("/community"))]
  }

  function PostDeleteFailed(message: string): (r: Effect<DetailRequest>)
    ensures r == Toast("게시글 삭제 실패", PostDeleteErrorText(message))
  {
    Toast("게시글 삭제 실패", PostDeleteErrorText(message))
  }

  /** The comment list's answer: the comments, or a failure the page raises. */
  datatype CommentsResult = Comments(list: seq<Comment>) | FetchFailed

  /** The comments query: a refused request (401) reads as no comments at all;
      any other failure is raised. */
  function FetchComments(ok: bool, status: int, body: seq<Comment>): (r: CommentsResult)
    ensures ok ==> r == Comments(body)
    ensures !ok ==> (r.Comments? <==> status == 401)
    ensures r.Comments? && !ok ==> r.list == []
  {
    if ok then Comments(body) else if status == 401 then Comments([]) else FetchFailed
  }

  const DefaultCountryColor: string := "bg-gray-100 text-gray-800 border-gray-200"

  /** The country badge colours. */
  const CountryColors: map<string, string> := map[
    "대한민국" := "bg-red-100 text-red-800 border-red-200",
    "일본" := "bg-blue-100 text-blue-800 border-blue-200",
    "중국" := "bg-yellow-100 text-yellow-800 border-yellow-200",
    "미국" := "bg-purple-100 text-purple-800 border-purple-200",
    "캐나다" := "bg-green-100 text-green-800 border-green-200",
    "호주" := "bg-orange-100 text-orange-800 border-orange-200",
    "영국" := "bg-teal-100 text-teal-800 border-teal-200",
    "독일" := "bg-indigo-100 text-indigo-800 border-indigo-200",
    "프랑스" := "bg-pink-100 text-pink-800 border-pink-200",
    "싱가포르" := "bg-cyan-100 text-cyan-800 border-cyan-200",
    "이탈리아" := "bg-lime-100 text-lime-800 border-lime-200"]

  /** `getCountryColor`: the listed colour, or grey. */
  function CountryColor(country: string): (r: string)
    ensures country in CountryColors ==> r == CountryColors[country]
    ensures country !in CountryColors ==> r == DefaultCountryColor
  {
    if country in CountryColors then OrElse(CountryColors[country], DefaultCountryColor) else DefaultCountryColor
  }

  /** A badge is grey exactly for an unlisted country, "전체" among them. */
  lemma GreyExactlyUnlisted(country: string)
    ensures CountryColor(country) == DefaultCountryColor <==> country !in CountryColors
    ensures CountryColor("전체") == DefaultCountryColor
  {
    if country in CountryColors {
      var c := CountryColors[country];
      assert c[3] != DefaultCountryColor[3] || c[5] != DefaultCountryColor[5];
    }
  }
}

=== FILE: complete_registration.dfy ===
/**
  The completion step of sign-up (`/auth/complete-registration`): a two-step
  wizard that asks for the country and then the exchange school, normalises the
  school name against a table of abbreviations, and signs the visitor in once
  the server accepts the profile.
*/
module CompleteRegistration {
  import opened Base
  import opened Strings
  import opened Users
  import opened Effects
  import opened Session

  /** Abbreviation → official name, in the order the source lists them. */
  const SchoolNames: seq<(string, string)> := [
    ("서울대", "서울대학교"),
    ("연세대", "연세대학교"),
    ("고려대", "고려대학교"),
    ("성균관대", "성균관대학교"),
    ("경희대", "경희대학교"),
    ("중앙대", "중앙대학교"),
    ("한양대", "한양대학교"),
    ("이화여대", "이화여자대학교"),
    ("홍익대", "홍익대학교"),
    ("건국대", "건국대학교"),
    ("동국대", "동국대학교"),
    ("국민대", "국민대학교"),
    ("숙명여대", "숙명여자대학교"),
    ("서강대", "서강대학교"),
    ("카이스트", "한국과학기술원"),
    ("KAIST", "한국과학기술원"),
    ("포스텍", "포항공과대학교"),
    ("POSTECH", "포항공과대학교"),
    ("도쿄대", "도쿄대학교"),
    ("교토대", "교토대학교"),
    ("와세다대", "와세다대학교"),
    ("게이오대", "게이오대학교"),
    ("베이징대", "베이징대학교"),
    ("칭화대", "칭화대학교")
  ]

  predicate IsKey(s: string) {
    exists i | 0 <= i < |SchoolNames| :: SchoolNames[i].0 == s
  }

  /** The punctuation removed besides white space: `-_.,;:!?()[]{}'"`. */
  const Punctuation: string := "-_.,;:!?()[]{}'\""

  predicate IsStripped(c: char) {
    IsSpace(c) || c in Punctuation
  }

  /** `s.replace(/[\s\-_.,;:!?()[\]{}'"]/g, "")`. */
  function Strip(s: string): (r: string)
    ensures |r| <= |s|
    ensures forall i :: 0 <= i < |r| ==> !IsStripped(r[i])
    ensures (forall i :: 0 <= i < |s| ==> !IsStripped(s[i])) ==> r == s
    ensures (forall i :: 0 <= i < |s| ==> IsStripped(s[i])) ==> r == []
  {
    if s == [] then []
    else (if IsStripped(s[0]) then [] else [s[0]]) + Strip(s[1..])
  }

  lemma {:induction false} StripNoHangul(s: string)
    requires forall i :: 0 <= i < |s| ==> !IsHangul(s[i])
    ensures forall i :: 0 <= i < |Strip(s)| ==> !IsHangul(Strip(s)[i])
    decreases |s|
  {
    if s != [] {
      StripNoHangul(s[1..]);
    }
  }

  lemma {:induction false} StripAppend(a: string, b: string)
    ensures Strip(a + b) == Strip(a) + Strip(b)
    decreases |a|
  {
    if a != [] {
      var h := if IsStripped(a[0]) then [] else [a[0]];
      ConsAppend(a, b);
      assert Strip(a + b) == h + Strip(a[1..] + b);
      StripAppend(a[1..], b);
      assert Strip(a) == h + Strip(a[1..]);
    } else {
      assert a + b == b;
    }
  }

  /** `s.replace(/[^가-힣]/g, "")`. */
  function KeepHangul(s: string): (r: string)
    ensures |r| <= |s| && AllHangul(r)
    ensures AllHangul(s) ==> r == s
    ensures (forall i :: 0 <= i < |s| ==> !IsHangul(s[i])) ==> r == []
  {
    if s == [] then []
    else (if IsHangul(s[0]) then [s[0]] else []) + KeepHangul(s[1..])
  }

  lemma {:induction false} KeepHangulAppend(a: string, b: string)
    ensures KeepHangul(a + b) == KeepHangul(a) + KeepHangul(b)
    decreases |a|
  {
    if a != [] {
      var h := if IsHangul(a[0]) then [a[0]] else [];
      ConsAppend(a, b);
      assert KeepHangul(a + b) == h + KeepHangul(a[1..] + b);
      KeepHangulAppend(a[1..], b);
      assert KeepHangul(a) == h + KeepHangul(a[1..]);
    } else {
      assert a + b == b;
    }
  }

  /** The comparison of a table key with the stripped input. */
  predicate KeyMatches(key: string, n: string) {
    UpperCase(key) == UpperCase(n) || key == n
  }

  /** The official name of the first entry whose key matches `n`. */
  function FirstMatch(table: seq<(string, string)>, n: string): (r: Option<string>)
    ensures r.None? <==> forall i :: 0 <= i < |table| ==> !KeyMatches(table[i].0, n)
  {
    if table == [] then None
    else if KeyMatches(table[0].0, n) then Some(table[0].1)
    else FirstMatch(table[1..], n)
  }

  /** `normalizeSchoolName`: drop white space and punctuation, replace an
      abbreviation by its official name, then keep only Hangul syllables. */
  function Normalize(input: string): (r: string)
    ensures input == "" ==> r == ""
    ensures AllHangul(r)
  {
    if input == "" then ""
    else
      var n := Strip(input);
      KeepHangul(FirstMatch(SchoolNames, n).GetOr(n))
  }

  lemma {:induction false} FirstMatchAt(table: seq<(string, string)>, n: string, k: int)
    requires 0 <= k < |table| && KeyMatches(table[k].0, n)
    requires forall j :: 0 <= j < k ==> !KeyMatches(table[j].0, n)
    ensures FirstMatch(table, n) == Some(table[k].1)
    decreases k
  {
    if k > 0 {
      FirstMatchAt(table[1..], n, k - 1);
    }
  }

  /** The keys are abbreviations of three or four Hangul syllables, or Latin
      capitals of five letters or more. */
  lemma KeyShape(i: int)
    requires 0 <= i < |SchoolNames|
    ensures var k := SchoolNames[i].0;
      || (3 <= |k| <= 4 && AllHangul(k))
      || (|k| >= 5 && forall j :: 0 <= j < |k| ==> IsAsciiUpper(k[j]))
  {
    var k := SchoolNames[i].0;
    if i == 15 || i == 17 {
      assert forall j :: 0 <= j < |k| ==> IsAsciiUpper(k[j]);
    } else {
      assert forall j :: 0 <= j < |k| ==> IsHangul(k[j]);
    }
  }

  /** Every key is already upper-case, so a key matches exactly the stripped
      inputs that upper-case to it. */
  lemma KeysAreUpper(i: int)
    requires 0 <= i < |SchoolNames|
    ensures UpperCase(SchoolNames[i].0) == SchoolNames[i].0 && SchoolNames[i].0 != ""
  {
    var k := SchoolNames[i].0;
    KeyShape(i);
    assert forall j :: 0 <= j < |k| ==> !ChangesCase(k[j]);
    UpperCaseFixed(k);
  }

  lemma KeyMatchesUpper(i: int, n: string)
    requires 0 <= i < |SchoolNames|
    ensures KeyMatches(SchoolNames[i].0, n) <==> SchoolNames[i].0 == UpperCase(n)
  {
    KeysAreUpper(i);
    if SchoolNames[i].0 == n {
      assert UpperCase(n) == UpperCase(SchoolNames[i].0);
    }
  }

  lemma FullNameIsHangul(k: int)
    requires 0 <= k < |SchoolNames|
    ensures AllHangul(SchoolNames[k].1) && |SchoolNames[k].1| >= 5
  {
    var v := SchoolNames[k].1;
    assert forall j :: 0 <= j < |v| ==> IsHangul(v[j]);
  }

  /** No key is listed twice. */
  lemma KeysDistinct(i: int, j: int)
    requires 0 <= i < j < |SchoolNames|
    ensures SchoolNames[i].0 != SchoolNames[j].0
  {
  }

  /** A stripped input that upper-cases to a key finds that key's entry first. */
  lemma FirstMatchOfKey(n: string, k: int)
    requires 0 <= k < |SchoolNames|
    requires UpperCase(n) == SchoolNames[k].0
    ensures FirstMatch(SchoolNames, n) == Some(SchoolNames[k].1)
  {
    KeyMatchesUpper(k, n);
    forall j | 0 <= j < k
      ensures !KeyMatches(SchoolNames[j].0, n)
    {
      KeyMatchesUpper(j, n);
      KeysDistinct(j, k);
    }
    FirstMatchAt(SchoolNames, n, k);
  }

  /** An input that, once stripped, equals a key up to case gives that key's
      official name. */
  lemma KeyGivesFullName(input: string, k: int)
    requires 0 <= k < |SchoolNames|
    requires UpperCase(Strip(input)) == UpperCase(SchoolNames[k].0)
    ensures Normalize(input) == SchoolNames[k].1
  {
    var n := Strip(input);
    var v := SchoolNames[k].1;
    KeysAreUpper(k);
    assert input != "" by {
      assert UpperCase(n) != [];
    }
    assert FirstMatch(SchoolNames, n) == Some(v) by {
      FirstMatchOfKey(n, k);
    }
    assert KeepHangul(v) == v by {
      FullNameIsHangul(k);
    }
  }

  /** The characters of keys survive stripping. */
  lemma LettersKept(c: char)
    requires IsAsciiLower(c) || IsAsciiUpper(c) || IsHangul(c) || IsDigit(c)
    ensures !IsStripped(c)
  {
  }

  lemma StripPadded(pre: string, a: string, gap: string, b: string, post: string)
    requires forall i :: 0 <= i < |pre| ==> IsStripped(pre[i])
    requires forall i :: 0 <= i < |gap| ==> IsStripped(gap[i])
    requires forall i :: 0 <= i < |post| ==> IsStripped(post[i])
    requires forall i :: 0 <= i < |a| ==> !IsStripped(a[i])
    requires forall i :: 0 <= i < |b| ==> !IsStripped(b[i])
    ensures Strip(pre + a + gap + b + post) == a + b
  {
    assert Strip(pre) == [] && Strip(gap) == [] && Strip(post) == [];
    assert Strip(a) == a && Strip(b) == b;
    var s1 := pre + a;
    StripAppend(pre, a);
    assert Strip(s1) == a;
    var s2 := s1 + gap;
    StripAppend(s1, gap);
    assert Strip(s2) == a;
    var s3 := s2 + b;
    StripAppend(s2, b);
    assert Strip(s3) == a + b;
    StripAppend(s3, post);
  }

  /** A key written in any case, with white space or punctuation before, after
      or inside it, gives the key's official name. */
  lemma StrippedKeyGivesFullName(pre: string, a: string, gap: string, b: string, post: string, k: int)
    requires 0 <= k < |SchoolNames|
    requires forall i :: 0 <= i < |pre| ==> IsStripped(pre[i])
    requires forall i :: 0 <= i < |gap| ==> IsStripped(gap[i])
    requires forall i :: 0 <= i < |post| ==> IsStripped(post[i])
    requires forall i :: 0 <= i < |a| ==> !IsStripped(a[i])
    requires forall i :: 0 <= i < |b| ==> !IsStripped(b[i])
    requires UpperCase(a + b) == SchoolNames[k].0
    ensures Normalize(pre + a + gap + b + post) == SchoolNames[k].1
  {
    StripPadded(pre, a, gap, b, post);
    KeysAreUpper(k);
    KeyGivesFullName(pre + a + gap + b + post, k);
  }

  lemma DropEmpty(x: string, y: string, z: string)
    ensures x + y + [] + [] + z == x + y + z
    ensures [] + x + y + z + [] == x + y + z
  {
  }

  /** A key with white space or punctuation around it. */
  lemma PaddedKeyGivesFullName(pre: string, a: string, post: string, k: int)
    requires 0 <= k < |SchoolNames|
    requires forall i :: 0 <= i < |pre| ==> IsStripped(pre[i])
    requires forall i :: 0 <= i < |post| ==> IsStripped(post[i])
    requires forall i :: 0 <= i < |a| ==> !IsStripped(a[i])
    requires UpperCase(a + []) == SchoolNames[k].0
    ensures Normalize(pre + a + post) == SchoolNames[k].1
  {
    StripPadded(pre, a, [], [], post);
    DropEmpty(pre, a, post);
    assert Strip(pre + a + post) == a + [];
    KeysAreUpper(k);
    KeyGivesFullName(pre + a + post, k);
  }

  /** A key with white space or punctuation inside it. */
  lemma GappedKeyGivesFullName(a: string, gap: string, b: string, k: int)
    requires 0 <= k < |SchoolNames|
    requires forall i :: 0 <= i < |gap| ==> IsStripped(gap[i])
    requires forall i :: 0 <= i < |a| ==> !IsStripped(a[i])
    requires forall i :: 0 <= i < |b| ==> !IsStripped(b[i])
    requires UpperCase(a + b) == SchoolNames[k].0
    ensures Normalize(a + gap + b) == SchoolNames[k].1
  {
    StrippedKeyGivesFullName([], a, gap, b, [], k);
    DropEmpty(a, gap, b);
  }

  /** The pieces of "kaist": letters kept by stripping, upper-casing to the key. */
  lemma KaistParts()
    ensures forall i :: 0 <= i < |"kaist"| ==> !IsStripped("kaist"[i])
    ensures UpperCase("kaist" + []) == SchoolNames[15].0 && SchoolNames[15].1 == "한국과학기술원"
  {
    assert SchoolNames[15] == ("KAIST", "한국과학기술원");
    forall i | 0 <= i < |"kaist"| ensures !IsStripped("kaist"[i]) {
      LettersKept("kaist"[i]);
    }
    assert "kaist" + [] == "kaist";
    assert UpperCase("kaist") == "KAIST";
  }

  /** " kaist " gives "한국과학기술원", and so does "kaist" with any white space around it. */
  lemma NormalizeKaist(pre: string, post: string)
    requires AllSpace(pre) && AllSpace(post)
    ensures Normalize(pre + "kaist" + post) == "한국과학기술원"
  {
    KaistParts();
    PaddedKeyGivesFullName(pre, "kaist", post, 15);
  }

  /** JavaScript upper-cases the dotless ı to I, so "kaıst" is the KAIST key too. */
  lemma NormalizeDotlessKaist()
    ensures Normalize("ka\U{0131}st") == "한국과학기술원"
  {
    var s := "ka\U{0131}st";
    DotlessKaistKept();
    DotlessKaistUpper();
    assert SchoolNames[15] == ("KAIST", "한국과학기술원");
    assert Strip(s) == s;
    KeysAreUpper(15);
    KeyGivesFullName(s, 15);
  }

  /** Every character of "kaıst" is kept by stripping. */
  lemma DotlessKaistKept()
    ensures forall i :: 0 <= i < |"ka\U{0131}st"| ==> !IsStripped("ka\U{0131}st"[i])
  {
    var s := "ka\U{0131}st";
    forall i | 0 <= i < |s| ensures !IsStripped(s[i]) {
      if i != 2 {
        LettersKept(s[i]);
      }
    }
  }

  /** "kaıst" upper-cases to "KAIST". */
  lemma DotlessKaistUpper()
    ensures UpperCase("ka\U{0131}st") == "KAIST"
  {
    var s := "ka\U{0131}st";
    assert UpperCase(s[2..]) == "I" + UpperCase(s[3..]);
  }

  /** The two pieces of "서울대" around a gap: kept by stripping, and together the key. */
  lemma SeoulParts()
    ensures forall i :: 0 <= i < |"서울"| ==> !IsStripped("서울"[i])
    ensures forall i :: 0 <= i < |"대"| ==> !IsStripped("대"[i])
    ensures UpperCase("서울" + "대") == SchoolNames[0].0 && SchoolNames[0].1 == "서울대학교"
  {
    assert SchoolNames[0] == ("서울대", "서울대학교");
    forall i | 0 <= i < |"서울"| ensures !IsStripped("서울"[i]) {
      LettersKept("서울"[i]);
    }
    LettersKept("대"[0]);
    KeysAreUpper(0);
    assert "서울" + "대" == SchoolNames[0].0;
  }

  /** "서울 대" gives "서울대학교": white space or punctuation inside an
      abbreviation is dropped before the table is consulted. */
  lemma NormalizeSpacedAbbreviation(gap: string)
    requires forall i :: 0 <= i < |gap| ==> IsStripped(gap[i])
    ensures Normalize("서울" + gap + "대") == "서울대학교"
  {
    SeoulParts();
    GappedKeyGivesFullName("서울", gap, "대", 0);
  }

  /** A stripped input that is no key, up to case, is only filtered down to its
      Hangul syllables. */
  lemma NoKeyKeepsHangul(input: string)
    requires input != "" && !IsKey(UpperCase(Strip(input)))
    ensures Normalize(input) == KeepHangul(Strip(input))
  {
    var n := Strip(input);
    forall j | 0 <= j < |SchoolNames|
      ensures !KeyMatches(SchoolNames[j].0, n)
    {
      KeyMatchesUpper(j, n);
    }
  }

  /** A Hangul name that is not an abbreviation in the table is kept as it is. */
  lemma HangulNonKeyIsFixed(s: string)
    requires s != "" && AllHangul(s) && !IsKey(s)
    ensures Normalize(s) == s
  {
    assert forall i :: 0 <= i < |s| ==> !IsStripped(s[i]);
    assert forall i :: 0 <= i < |s| ==> !ChangesCase(s[i]);
    UpperCaseFixed(s);
    NoKeyKeepsHangul(s);
  }

  /** Normalising an official name of the table gives it back. */
  lemma FullNamesAreFixed(k: int)
    requires 0 <= k < |SchoolNames|
    ensures Normalize(SchoolNames[k].1) == SchoolNames[k].1
  {
    var v := SchoolNames[k].1;
    FullNameIsHangul(k);
    assert !IsKey(v) by {
      forall i | 0 <= i < |SchoolNames|
        ensures SchoolNames[i].0 != v
      {
        KeyShape(i);
        if |SchoolNames[i].0| >= 5 {
          assert !IsHangul(SchoolNames[i].0[0]);
        }
      }
    }
    HangulNonKeyIsFixed(v);
  }

  lemma NoHangulKeepsNothing(input: string)
    requires forall i :: 0 <= i < |input| ==> !IsHangul(input[i])
    ensures KeepHangul(Strip(input)) == []
  {
    StripNoHangul(input);
  }

  /** A name with no Hangul syllable that is no key gives the empty name. */
  lemma NonKeyLatinIsDropped(input: string)
    requires input != "" && !IsKey(UpperCase(Strip(input)))
    requires forall i :: 0 <= i < |input| ==> !IsHangul(input[i])
    ensures Normalize(input) == ""
  {
    NoHangulKeepsNothing(input);
    NoKeyKeepsHangul(input);
  }

  lemma UpperSeoulLatin(c: char)
    requires IsAsciiLower(c) || IsAsciiUpper(c)
    ensures UpperCase("서울대" + [c]) == "서울대" + UpperOf(c)
  {
    UpperCaseAppend("서울대", [c]);
    assert forall i :: 0 <= i < |"서울대"| ==> !ChangesCase("서울대"[i]);
    UpperCaseFixed("서울대");
    assert [c][1..] == [];
    assert UpperCase([c]) == UpperOf(c) + UpperCase([]);
  }

  /** "서울대" followed by a Latin letter survives stripping and is no key. */
  lemma SeoulLatinIsNoKey(c: char)
    requires IsAsciiLower(c) || IsAsciiUpper(c)
    ensures Strip("서울대" + [c]) == "서울대" + [c]
    ensures !IsKey(UpperCase("서울대" + [c]))
  {
    var s := "서울대" + [c];
    forall i | 0 <= i < |s| ensures !IsStripped(s[i]) {
      LettersKept(s[i]);
    }
    var u := UpperCase(s);
    UpperSeoulLatin(c);
    assert |u| == 4 && IsAsciiUpper(u[3]);
    forall i | 0 <= i < |SchoolNames|
      ensures SchoolNames[i].0 != u
    {
      KeyShape(i);
      if |SchoolNames[i].0| == 4 {
        assert IsHangul(SchoolNames[i].0[3]);
      }
    }
  }

  lemma KeepHangulDropsLatin(c: char)
    requires IsAsciiLower(c) || IsAsciiUpper(c)
    ensures KeepHangul("서울대" + [c]) == "서울대"
  {
    KeepHangulAppend("서울대", [c]);
    assert AllHangul("서울대");
    assert KeepHangul([c]) == [];
  }

  /** A stray Latin letter after an abbreviation hides it from the table, and
      only the Hangul part is kept. */
  lemma LatinSuffixHidesKey(c: char)
    requires IsAsciiLower(c) || IsAsciiUpper(c)
    ensures Normalize("서울대" + [c]) == "서울대"
  {
    SeoulLatinIsNoKey(c);
    NoKeyKeepsHangul("서울대" + [c]);
    KeepHangulDropsLatin(c);
  }

  /** Normalising is not idempotent: "서울대a" gives "서울대", and normalising
      that again gives "서울대학교". */
  lemma NormalizeNotIdempotent(c: char)
    requires IsAsciiLower(c) || IsAsciiUpper(c)
    ensures Normalize("서울대" + [c]) == "서울대"
    ensures Normalize(Normalize("서울대" + [c])) == "서울대학교"
  {
    LatinSuffixHidesKey(c);
    NormalizeSpacedAbbreviation([]);
    assert "서울" + [] + "대" == "서울대";
  }

  /** `school.includes(input) || input.includes(school.substring(0, 2))`. */
  predicate SuggestionMatch(input: string, school: string) {
    Contains(school, input) || Contains(input, school[..if |school| < 2 then |school| else 2])
  }

  /** The popular schools that match `input`, in their order. */
  function Matching(input: string, popular: seq<string>): (r: seq<string>)
    ensures |r| <= |popular|
    ensures forall i :: 0 <= i < |r| ==> r[i] in popular && SuggestionMatch(input, r[i])
    ensures forall s :: s in popular && SuggestionMatch(input, s) ==> s in r
  {
    if popular == [] then []
    else (if SuggestionMatch(input, popular[0]) then [popular[0]] else []) + Matching(input, popular[1..])
  }

  /** Filtering keeps the order of the list: it distributes over concatenation. */
  lemma {:induction false} MatchingAppend(input: string, a: seq<string>, b: seq<string>)
    ensures Matching(input, a + b) == Matching(input, a) + Matching(input, b)
    decreases |a|
  {
    if a != [] {
      var h := if SuggestionMatch(input, a[0]) then [a[0]] else [];
      ConsAppend(a, b);
      assert Matching(input, a + b) == h + Matching(input, a[1..] + b);
      MatchingAppend(input, a[1..], b);
      assert Matching(input, a) == h + Matching(input, a[1..]);
    } else {
      assert a + b == b;
    }
  }

  /** `getFilteredSuggestions`: at most five matching popular schools, the first
      ones in list order; none for an empty input. */
  function Suggestions(input: string, popular: seq<string>): (r: seq<string>)
    ensures input == "" ==> r == []
    ensures |r| <= 5
    ensures forall i :: 0 <= i < |r| ==> r[i] in popular && SuggestionMatch(input, r[i])
    ensures input != "" ==> r <= Matching(input, popular)
    ensures input != "" && |r| < 5 ==> forall s :: s in popular && SuggestionMatch(input, s) ==> s in r
  {
    if input == "" then []
    else
      var m := Matching(input, popular);
      if |m| <= 5 then m else m[..5]
  }

  /** The wizard's steps, in order. */
  datatype Step = CountryStep | SchoolStep

  const StepOrder: seq<Step> := [CountryStep, SchoolStep]

  function StepIndex(s: Step): (i: nat)
    ensures i < |StepOrder| && StepOrder[i] == s
  {
    if s.CountryStep? then 0 else 1
  }

  datatype FormData = FormData(country: Option<string>, school: Option<string>)

  datatype Wizard = Wizard(step: Step, form: FormData)

  const Start: Wizard := Wizard(CountryStep, FormData(None, None))

  /** The body of the completion request, with the token read from storage. */
  datatype CompletionRequest = CompleteProfile(token: Option<string>, school: string, country: string)

  function StoredToken(storage: map<string, string>): Option<string> {
    if TokenKey in storage then Some(storage[TokenKey]) else None
  }

  /** `handleSubmit(data)`. */
  function Submit(signedIn: bool, data: FormData, storage: map<string, string>): (r: seq<Effect<CompletionRequest>>)
    ensures NoLogin(r) && |r| == 1
    ensures Requests(r) != [] <==> signedIn
    ensures signedIn ==>
      && r[0].request.school == Normalize(data.school.GetOr(""))
      && r[0].request.country == data.country.GetOr("")
      && r[0].request.token == StoredToken(storage)
  {
    if !signedIn then [Toast("오류", "사용자 정보를 찾을 수 없습니다.")]
    else
      var school := if data.school.GetOr("") != "" then Normalize(data.school.value) else "";
      [Send(CompleteProfile(StoredToken(storage), school, OrElse(data.country.GetOr(""), "")))]
  }

  /** `handleNext(value)` after the step's form accepted `value` (an empty value
      fails the form's minimum-length rule and does nothing): store only the
      current step's field, then advance, or submit from the last step. */
  function Next(w: Wizard, value: string, signedIn: bool, storage: map<string, string>): (r: (Wizard, seq<Effect<CompletionRequest>>))
    ensures NoLogin(r.1)
    ensures value == "" ==> r == (w, [])
    ensures value != "" && w.step.CountryStep? ==>
      r.0 == Wizard(SchoolStep, w.form.(country := Some(value))) && r.1 == []
    ensures value != "" && w.step.SchoolStep? ==>
      r.0 == Wizard(SchoolStep, w.form.(school := Some(value))) && r.1 == Submit(signedIn, r.0.form, storage)
    ensures value != "" && w.step.CountryStep? ==> StepIndex(r.0.step) == StepIndex(w.step) + 1
  {
    if value == "" then (w, [])
    else
      var form := match w.step
        case SchoolStep => w.form.(school := Some(value))
        case CountryStep => w.form.(country := Some(value));
      if StepIndex(w.step) == |StepOrder| - 1 then (w.(form := form), Submit(signedIn, form, storage))
      else (Wizard(StepOrder[StepIndex(w.step) + 1], form), [])
  }

  /** `handleBack`: one step back with the answers kept; from the first step, sign-in. */
  function Back(w: Wizard): (r: (Wizard, seq<Effect<CompletionRequest>>))
    ensures r.0.form == w.form
    ensures w.step.SchoolStep? ==> r == (Wizard(CountryStep, w.form), [])
    ensures w.step.CountryStep? ==> r == (w, [Navigate(Path(LoginPage))])
  {
    var i := StepIndex(w.step);
    if i > 0 then (w.(step := StepOrder[i - 1]), []) else (w, [Navigate(Path(LoginPage))])
  }

  /** Going back from the school step and forward again with the same country
      returns to the school step with the same answers. */
  lemma BackThenNext(w: Wizard)
    requires w.step.SchoolStep? && w.form.country.Some? && w.form.country.value != ""
    ensures Next(Back(w).0, w.form.country.value, false, map[]).0 == w
  {
  }

  /** A full pass through the wizard sends the chosen country and the normalised
      school, and nothing before the last step. */
  lemma WizardRun(country: string, school: string, storage: map<string, string>)
    requires country != "" && school != ""
    ensures var (w1, e1) := Next(Start, country, true, storage);
      e1 == [] && w1.step.SchoolStep? &&
      Requests(Next(w1, school, true, storage).1) == [CompleteProfile(StoredToken(storage), Normalize(school), country)]
  {
    var w1 := Next(Start, country, true, storage).0;
    var r := Next(w1, school, true, storage).1;
    assert r == [Send(CompleteProfile(StoredToken(storage), Normalize(school), country))];
    assert Requests(r) == [CompleteProfile(StoredToken(storage), Normalize(school), country)] by {
      assert r[1..] == [];
    }
  }

  /** The answer to the completion request. */
  datatype CompletionResponse = Completed(user: User) | CompletionRefused(error: string) | CompletionFailed(reason: string)

  /** The end of `handleSubmit`: sign in with the stored token and the returned
      profile and go home, or report the failure without signing in. */
  function ApplyCompletion(storage: map<string, string>, resp: CompletionResponse): (r: seq<Effect<CompletionRequest>>)
    requires TokenKey in storage
    ensures NoRequest(r)
    ensures LoginCount(r) == (if resp.Completed? then 1 else 0)
    ensures resp.Completed? ==> r == [LogIn(storage[TokenKey], resp.user), Navigate(Path(HomePage))]
    ensures !resp.Completed? ==> |r| == 1 && r[0].Toast? && r[0].title == "회원가입 완료 실패" && r[0].description != ""
  {
    match resp
    case Completed(u) => [LogIn(storage[TokenKey], u), Navigate(Path(HomePage))]
    case CompletionRefused(error) => [Toast("회원가입 완료 실패", OrElse(error, "회원가입 완료에 실패했습니다."))]
    case CompletionFailed(reason) => [Toast("회원가입 완료 실패", OrElse(reason, "다시 시도해주세요."))]
  }

  /** The arrival effect: a redirect carrying a profile signs in at once; a
      profile that does not parse, or no parameters and nobody signed in, goes
      to sign-in. */
  function Arrive(token: string, param: UserParam, signedIn: bool): (r: seq<Effect<CompletionRequest>>)
    ensures NoRequest(r) && |r| <= 1
    ensures LoginCount(r) == (if token != "" && param.Parsed? then 1 else 0)
    ensures token != "" && param.Parsed? ==> r == [LogIn(token, param.user)]
    ensures r == [Navigate(Path(LoginPage))] <==>
      (token != "" && param.Malformed?) || ((token == "" || param.Absent?) && !signedIn)
  {
    if token != "" && !param.Absent? then
      match param
      case Malformed => [Navigate(Path(LoginPage))]
      case Parsed(u) => [LogIn(token, u)]
    else if !signedIn then [Navigate(Path(LoginPage))]
    else []
  }

  /** Arriving with a profile leaves the visitor signed in with exactly that pair. */
  lemma ArrivalSignsIn(s: AuthState, token: string, u: User)
    requires token != ""
    ensures Apply(s, Arrive(token, Parsed(u), s.user.Some?)) == Login(s, token, u)
  {
    var es := Arrive(token, Parsed(u), s.user.Some?);
    assert NoLogin(es[1..]);
  }
}

=== FILE: contact.dfy ===
/**
  The contact page, written for `/contact`, a path the router does not serve
  (App.tsx routes no path to this page): a subject and a message, both required, sent
  as an inquiry on behalf of the signed-in visitor or of an anonymous one.
*/
module Contact {
  import opened Base
  import opened Strings
  import opened Users
  import opened Effects

  /** The inquiry the page sends; `userId` is `null` for an anonymous visitor. */
  datatype Inquiry = Inquiry(userId: Option<string>, email: string, subject: string, content: string, status: string)

  /** The two fields, and whether a submission is under way. */
  datatype ContactPage = ContactPage(subject: string, content: string, pending: bool)

  /** The submit button is enabled when nothing is pending and neither field is blank. */
  predicate SubmitEnabled(p: ContactPage) {
    !p.pending && !IsBlank(p.subject) && !IsBlank(p.content)
  }

  /** `handleSubmit`: a blank subject or message only warns; otherwise the
      trimmed texts are sent as a pending inquiry, with the visitor's id (or
      `null`) and e-mail (or ""). */
  function HandleSubmit(p: ContactPage, user: Option<User>): (r: seq<Effect<Inquiry>>)
    ensures |r| == 1 && !r[0].LogIn?
    ensures !r[0].Send? <==> IsBlank(p.subject) || IsBlank(p.content)
    ensures !r[0].Send? ==> r == [Toast("입력 오류", "제목과 내용을 모두 입력해주세요.")]
    ensures r[0].Send? ==>
      var q := r[0].request;
      && q.subject == Trim(p.subject) && q.content == Trim(p.content) && q.status == "pending"
      && (q.userId.Some? <==> user.Some? && user.value.id != "")
      && (q.userId.Some? ==> q.userId.value == user.value.id)
      && q.email == (if user.Some? then user.value.email else "")
  {
    if IsBlank(p.subject) || IsBlank(p.content) then [Toast("입력 오류", "제목과 내용을 모두 입력해주세요.")]
    else
      var id := if user.Some? && user.value.id != "" then Some(user.value.id) else None;
      var email := if user.Some? then OrElse(user.value.email, "") else "";
      var r := [Send(Inquiry(id, email, Trim(p.subject), Trim(p.content), "pending"))];
      assert r[0].Send?;
      r
  }

  /** Whenever the button can be pressed, pressing it sends an inquiry, and a
      press that would send finds the button enabled unless a submission is
      still pending. */
  lemma EnabledExactlyWhenSending(p: ContactPage, user: Option<User>)
    ensures SubmitEnabled(p) ==> !NoRequest(HandleSubmit(p, user))
    ensures !p.pending ==> (SubmitEnabled(p) <==> !NoRequest(HandleSubmit(p, user)))
  {
  }

  /** An inquiry never carries a blank subject or message, and both are already
      trimmed: trimming them again changes nothing. */
  lemma InquiryIsTrimmed(p: ContactPage, user: Option<User>)
    ensures var r := HandleSubmit(p, user);
      r[0].Send? ==>
        var q := r[0].request;
        q.subject != [] && Trim(q.subject) == q.subject && q.content != [] && Trim(q.content) == q.content
  {
    TrimIdempotent(p.subject);
    TrimIdempotent(p.content);
  }

  /** A received inquiry: the fields are cleared and the visitor goes to the settings. */
  function Submitted(p: ContactPage): (r: (ContactPage, seq<Effect<Inquiry>>))
    ensures r.0.subject == "" && r.0.content == "" && !SubmitEnabled(r.0)
    ensures |r.1| == 2 && r.1[1] == Navigate(Path("/settings")) && NoRequest(r.1)
  {
    (p.(subject := "", content := ""),
     [Toast("문의가 접수되었습니다", "빠른 시일 내에 답변드리겠습니다."), Navigate(Path("/settings"))])
  }

  /** A failed inquiry keeps the fields and shows the server's text or a fallback. */
  function Failed(message: string): (r: Effect<Inquiry>)
    ensures r.Toast? && (message != "" ==> r.description == message)
    ensures message == "" ==> r.description == "문의 접수에 실패했습니다. 다시 시도해주세요."
  {
    Toast("문의 접수 실패", OrElse(message, "문의 접수에 실패했습니다. 다시 시도해주세요."))
  }
}

=== FILE: effects.dfy ===
/**
  What a page handler asks the outside world to do. Handlers are pure functions
  returning a list of effects in the order the source performs them; the
  network request itself, the toast widget and the router are not modelled.
*/
module Effects {
  import opened Users

  /** A navigation target. `WithCredentials` is a page opened with `token` and
      `user` query parameters, the way the sign-in flow forwards a pending
      account from one step to the next. */
  datatype Route =
    | Path(path: string)
    | WithCredentials(path: string, token: string, user: User)

  /** `R` is the page's own request type. */
  datatype Effect<+R> =
    | Navigate(route: Route)
    | Toast(title: string, description: string)
    | Send(request: R)
    | LogIn(token: string, user: User)

  const LoginPage: string := "/auth/login"
  const CompleteRegistrationPage: string := "/auth/complete-registration"
  const HomePage: string := "/"

  predicate NoLogin<R>(es: seq<Effect<R>>) {
    forall i :: 0 <= i < |es| ==> !es[i].LogIn?
  }

  predicate NoRequest<R>(es: seq<Effect<R>>) {
    forall i :: 0 <= i < |es| ==> !es[i].Send?
  }

  /** How many sign-ins `es` performs. */
  function LoginCount<R>(es: seq<Effect<R>>): (n: nat)
    ensures n <= |es|
    ensures n == 0 <==> NoLogin(es)
  {
    if es == [] then 0 else (if es[0].LogIn? then 1 else 0) + LoginCount(es[1..])
  }

  /** The requests among `es`, in order. */
  function Requests<R>(es: seq<Effect<R>>): (rs: seq<R>)
    ensures |rs| <= |es|
    ensures rs == [] <==> NoRequest(es)
  {
    if es == [] then []
    else (if es[0].Send? then [es[0].request] else []) + Requests(es[1..])
  }
}

=== FILE: home.dfy ===
/**
  The home feed (`/`): the item list loaded page by page, the filter bar, the
  query each page request carries, and the "new item" button.
*/
module Home {
  import opened Base
  import opened Strings
  import opened Users
  import opened Effects
  import AppRouter

  // ---- De-duplication of the loaded pages ----

  /** The keys that occur in `xs`. */
  function KeySet<T, K>(xs: seq<T>, key: T -> K): set<K> {
    set i | 0 <= i < |xs| :: key(xs[i])
  }

  predicate UniqueKeys<T, K(==)>(xs: seq<T>, key: T -> K) {
    forall i, j :: 0 <= i < j < |xs| ==> key(xs[i]) != key(xs[j])
  }

  /** `xs[i]` is the first element of `xs` with its key. */
  predicate FirstOfKey<T, K(==)>(xs: seq<T>, i: int, key: T -> K)
    requires 0 <= i < |xs|
  {
    forall j :: 0 <= j < i ==> key(xs[j]) != key(xs[i])
  }

  lemma KeySetSnoc<T, K>(xs: seq<T>, x: T, key: T -> K)
    ensures KeySet(xs + [x], key) == KeySet(xs, key) + {key(x)}
  {
    var ys := xs + [x];
    assert forall i :: 0 <= i < |xs| ==> ys[i] == xs[i];
    assert ys[|xs|] == x;
  }

  lemma FirstOfKeyIff<T, K>(xs: seq<T>, i: int, key: T -> K)
    requires 0 <= i < |xs|
    ensures FirstOfKey(xs, i, key) <==> key(xs[i]) !in KeySet(xs[..i], key)
  {
    if !FirstOfKey(xs, i, key) {
      var j :| 0 <= j < i && key(xs[j]) == key(xs[i]);
      assert xs[..i][j] == xs[j];
    }
  }

  /** The reference definition: the elements that are the first of their key, in
      their original order. */
  function FirstOccurrences<T, K(==)>(xs: seq<T>, key: T -> K): (r: seq<T>)
    ensures KeySet(r, key) == KeySet(xs, key)
    ensures UniqueKeys(r, key)
    ensures |r| <= |xs|
    decreases |xs|
  {
    if xs == [] then []
    else
      var init, x := xs[..|xs| - 1], xs[|xs| - 1];
      assert xs == init + [x];
      KeySetSnoc(init, x, key);
      FirstOfKeyIff(xs, |xs| - 1, key);
      var r0 := FirstOccurrences(init, key);
      if FirstOfKey(xs, |xs| - 1, key) then
        KeySetSnoc(r0, x, key);
        assert forall i :: 0 <= i < |r0| ==> key(r0[i]) in KeySet(r0, key);
        r0 + [x]
      else r0
  }

  /** The fold over the flattened pages: an element is appended when no element
      already kept has its id. */
  method Dedup<T, K(==)>(xs: seq<T>, key: T -> K) returns (acc: seq<T>)
    ensures acc == FirstOccurrences(xs, key)
    ensures UniqueKeys(acc, key) && KeySet(acc, key) == KeySet(xs, key)
  {
    acc := [];
    for i := 0 to |xs|
      invariant acc == FirstOccurrences(xs[..i], key)
    {
      var seen := exists j :: 0 <= j < |acc| && key(acc[j]) == key(xs[i]);
      assert xs[..i + 1][..i] == xs[..i] && xs[..i + 1][i] == xs[i];
      FirstOfKeyIff(xs[..i + 1], i, key);
      assert seen <==> key(xs[i]) in KeySet(acc, key);
      if !seen {
        acc := acc + [xs[i]];
      }
    }
    assert xs[..|xs|] == xs;
  }

  /** A list whose ids are already distinct passes through unchanged, so
      de-duplicating twice is de-duplicating once. */
  lemma {:induction false} FirstOccurrencesOfUnique<T, K>(xs: seq<T>, key: T -> K)
    requires UniqueKeys(xs, key)
    ensures FirstOccurrences(xs, key) == xs
    decreases |xs|
  {
    if xs != [] {
      var init := xs[..|xs| - 1];
      assert UniqueKeys(init, key);
      FirstOccurrencesOfUnique(init, key);
      assert FirstOfKey(xs, |xs| - 1, key);
      assert init + [xs[|xs| - 1]] == xs;
    }
  }

  lemma DedupIdempotent<T, K>(xs: seq<T>, key: T -> K)
    ensures FirstOccurrences(FirstOccurrences(xs, key), key) == FirstOccurrences(xs, key)
  {
    FirstOccurrencesOfUnique(FirstOccurrences(xs, key), key);
  }

  /** `data.pages.flat()`. */
  function Flatten<T>(pages: seq<seq<T>>): seq<T>
    decreases |pages|
  {
    if pages == [] then [] else Flatten(pages[..|pages| - 1]) + pages[|pages| - 1]
  }

  /** The items the feed shows: one per id, in the order first loaded. */
  method Feed<T, K(==)>(pages: seq<seq<T>>, key: T -> K) returns (items: seq<T>)
    ensures UniqueKeys(items, key) && KeySet(items, key) == KeySet(Flatten(pages), key)
    ensures items == FirstOccurrences(Flatten(pages), key)
  {
    items := Dedup(Flatten(pages), key);
  }

  // ---- Paging ----

  /** Items per page. */
  const PageSize: nat := 10

  /** `getNextPageParam`: a full last page means there may be more, and the next
      page's number is the number of pages loaded. */
  function NextPageParam<T>(pages: seq<seq<T>>): (r: Option<nat>)
    requires pages != []
    ensures r.Some? <==> |pages[|pages| - 1]| == PageSize
    ensures r.Some? ==> r.value == |pages|
  {
    if |pages[|pages| - 1]| == PageSize then Some(|pages|) else None
  }

  /** One trigger of infinite scroll: fetch the next page, if there is one, from a
      server that answers page `p` with `server(p)`. */
  function Scroll<T>(pages: seq<seq<T>>, server: nat -> seq<T>): (r: seq<seq<T>>)
    requires pages != []
  {
    match NextPageParam(pages)
    case Some(p) => pages + [server(p)]
    case None => pages
  }

  /** The pages held after the first load and `k` scroll triggers. */
  function Browse<T>(server: nat -> seq<T>, k: nat): (r: seq<seq<T>>)
    ensures r != []
  {
    if k == 0 then [server(0)] else Scroll(Browse(server, k - 1), server)
  }

  /** Pages are fetched in order, none twice and none skipped; fetching stops for
      good at the first page that is not full. */
  lemma {:induction false} BrowseInOrder<T>(server: nat -> seq<T>, k: nat)
    ensures var r := Browse(server, k);
      && 1 <= |r| <= k + 1
      && (forall i :: 0 <= i < |r| ==> r[i] == server(i))
      && (forall i :: 0 <= i < |r| - 1 ==> |server(i)| == PageSize)
    ensures |Browse(server, k)| < k + 1 ==> |server(|Browse(server, k)| - 1)| != PageSize
  {
    if k > 0 {
      BrowseInOrder(server, k - 1);
      var prev := Browse(server, k - 1);
      if |prev[|prev| - 1]| == PageSize {
        assert Browse(server, k) == prev + [server(|prev|)];
      } else {
        assert Browse(server, k) == prev;
      }
    }
  }

  // ---- Filters and the query ----

  /** The filter bar's choice. The page tests only for "school" and "country";
      `AllItems` is its initial "all", and `OtherFilter` any other value. */
  datatype Filter = AllItems | BySchool | ByCountry | OtherFilter(name: string)

  datatype HomeState = HomeState(
    filter: Filter,
    selectedCountry: string,
    onlyAvailable: bool,
    searchText: string,
    showSchoolPrompt: bool)

  const Initial: HomeState := HomeState(AllItems, "all", false, "", false)

  /** Whether the school filter has a school to filter by. */
  predicate Consistent(st: HomeState, user: Option<User>) {
    st.filter == BySchool ==> user.Some? && user.value.school != ""
  }

  /** `handleFilterChange`: the school filter needs a signed-in visitor with a
      school; otherwise it sends to sign-in or asks for the school, and keeps the
      filter. Any other filter is taken at once and the prompt is hidden. */
  function ChangeFilter(st: HomeState, user: Option<User>, newFilter: Filter): (r: (HomeState, seq<Effect<()>>))
    ensures NoLogin(r.1) && NoRequest(r.1)
    ensures r.1 != [] <==> newFilter == BySchool && user.None?
    ensures r.1 != [] ==> r.1 == [Navigate(Path(LoginPage))] && r.0 == st
    ensures newFilter == BySchool && user.Some? && user.value.school == "" ==> r.0 == st.(showSchoolPrompt := true)
    ensures !(newFilter == BySchool && (user.None? || user.value.school == "")) ==>
      r.0 == st.(filter := newFilter, showSchoolPrompt := false)
  {
    if newFilter == BySchool && user.None? then (st, [Navigate(Path(LoginPage))])
    else if newFilter == BySchool && user.value.school == "" then (st.(showSchoolPrompt := true), [])
    else (st.(filter := newFilter, showSchoolPrompt := false), [])
  }

  /** The school filter is never in force without a school: every filter change
      keeps `Consistent`. */
  lemma ChangeFilterConsistent(st: HomeState, user: Option<User>, newFilter: Filter)
    requires Consistent(st, user)
    ensures Consistent(ChangeFilter(st, user, newFilter).0, user)
  {
  }

  /** The effect that runs when the filter becomes "country": it preselects the
      visitor's country, or "all". */
  function CountryDefault(st: HomeState, user: Option<User>): (r: HomeState)
    ensures st.filter != ByCountry ==> r == st
    ensures st.filter == ByCountry ==> r == st.(selectedCountry :=
      if user.Some? && user.value.country != "" then user.value.country else "all")
  {
    if st.filter != ByCountry then st
    else if user.Some? && user.value.country != "" then st.(selectedCountry := user.value.country)
    else st.(selectedCountry := "all")
  }

  /** The names of the query parameters a page request may carry. */
  datatype ParamName = School | Country | OnlyAvailable | Search | Page | Limit

  /** The name as it appears in the query string. */
  function NameText(n: ParamName): string {
    match n
    case School => "school"
    case Country => "country"
    case OnlyAvailable => "onlyAvailable"
    case Search => "search"
    case Page => "page"
    case Limit => "limit"
  }

  /** No two parameters share a name in the query string. */
  lemma NameTextInjective(a: ParamName, b: ParamName)
    requires NameText(a) == NameText(b)
    ensures a == b
  {
    assert NameText(a)[0] == NameText(b)[0];
    if NameText(a)[0] == 's' {
      assert NameText(a)[1] == NameText(b)[1];
    }
  }

  /** One optional query parameter. */
  function Param(present: bool, name: ParamName, value: string): seq<(ParamName, string)> {
    if present then [(name, value)] else []
  }

  /** The search parameter: the trimmed text, unless it is blank. */
  function SearchParam(text: string): (r: seq<(ParamName, string)>)
    ensures |r| <= 1
  {
    Param(!IsBlank(text), Search, Trim(text))
  }

  /** The parameters the page adds only under a condition, in the order it adds them. */
  function Optional(st: HomeState, user: Option<User>): (r: seq<(ParamName, string)>)
    ensures |r| <= 4
  {
    var school := if user.Some? then user.value.school else "";
    Param(st.filter == BySchool && school != "", School, school)
    + Param(st.filter == ByCountry && st.selectedCountry != "all", Country, st.selectedCountry)
    + Param(st.onlyAvailable, OnlyAvailable, "true")
    + SearchParam(st.searchText)
  }

  /** The two parameters every page request carries. */
  function Paging(page: nat): (r: seq<(ParamName, string)>)
    ensures |r| == 2 && r[0] == (Page, NatToDecimal(page)) && r[1] == (Limit, "10")
  {
    [(Page, NatToDecimal(page)), (Limit, "10")]
  }

  /** The query string of a page request, as name/value pairs in the order the
      page appends them. */
  function Query(st: HomeState, user: Option<User>, page: nat): (q: seq<(ParamName, string)>)
    ensures 2 <= |q| <= 6 && q[|q| - 2] == (Page, NatToDecimal(page)) && q[|q| - 1] == (Limit, "10")
  {
    var o := Optional(st, user);
    var t := Paging(page);
    assert (o + t)[|o| + 1] == t[1];
    o + t
  }

  /** `URLSearchParams.get`: the value of the first parameter called `name`. */
  function Lookup(q: seq<(ParamName, string)>, name: ParamName): Option<string> {
    if q == [] then None else if q[0].0 == name then Some(q[0].1) else Lookup(q[1..], name)
  }

  lemma {:induction false} LookupAppend(a: seq<(ParamName, string)>, b: seq<(ParamName, string)>, name: ParamName)
    ensures Lookup(a + b, name) == if Lookup(a, name).Some? then Lookup(a, name) else Lookup(b, name)
    decreases |a|
  {
    if a != [] {
      ConsAppend(a, b);
      LookupAppend(a[1..], b, name);
    } else {
      assert a + b == b;
    }
  }

  lemma LookupParam(present: bool, n: ParamName, value: string, name: ParamName)
    ensures Lookup(Param(present, n, value), name) == if present && n == name then Some(value) else None
  {
  }

  /** The first of four parts that holds `name` decides its value. */
  lemma LookupFour(p1: seq<(ParamName, string)>, p2: seq<(ParamName, string)>, p3: seq<(ParamName, string)>,
                   p4: seq<(ParamName, string)>, name: ParamName)
    ensures Lookup(p1 + p2 + p3 + p4, name) ==
      if Lookup(p1, name).Some? then Lookup(p1, name)
      else if Lookup(p2, name).Some? then Lookup(p2, name)
      else if Lookup(p3, name).Some? then Lookup(p3, name)
      else Lookup(p4, name)
  {
    LookupAppend(p1 + p2 + p3, p4, name);
    LookupAppend(p1 + p2, p3, name);
    LookupAppend(p1, p2, name);
  }

  lemma PagingReadsBack(page: nat, name: ParamName)
    ensures Lookup(Paging(page), name) ==
      if name == Page then Some(NatToDecimal(page)) else if name == Limit then Some("10") else None
  {
    var t := Paging(page);
    assert t[1..][1..] == [];
    assert Lookup(t[1..], name) == if name == Limit then Some("10") else None;
  }

  /** The value the page means the server to read for `name`: the school only
      under the school filter, the country only when one is picked, the trimmed
      search text only when it is not blank, and always the page number and the
      page size. */
  function Intended(st: HomeState, user: Option<User>, page: nat, name: ParamName): Option<string> {
    var school := if user.Some? then user.value.school else "";
    match name
    case School => if st.filter == BySchool && school != "" then Some(school) else None
    case Country => if st.filter == ByCountry && st.selectedCountry != "all" then Some(st.selectedCountry) else None
    case OnlyAvailable => if st.onlyAvailable then Some("true") else None
    case Search => if !IsBlank(st.searchText) then Some(Trim(st.searchText)) else None
    case Page => Some(NatToDecimal(page))
    case Limit => Some("10")
  }

  /** Reading back the four optional parameters, whatever their values. */
  lemma LookupOptional(b1: bool, v1: string, b2: bool, v2: string, b3: bool, v3: string, b4: bool, v4: string, name: ParamName)
    ensures Lookup(Param(b1, School, v1) + Param(b2, Country, v2) + Param(b3, OnlyAvailable, v3) + Param(b4, Search, v4), name) ==
      match name
      case School => if b1 then Some(v1) else None
      case Country => if b2 then Some(v2) else None
      case OnlyAvailable => if b3 then Some(v3) else None
      case Search => if b4 then Some(v4) else None
      case _ => None
  {
    LookupFour(Param(b1, School, v1), Param(b2, Country, v2), Param(b3, OnlyAvailable, v3), Param(b4, Search, v4), name);
    LookupParam(b1, School, v1, name);
    LookupParam(b2, Country, v2, name);
    LookupParam(b3, OnlyAvailable, v3, name);
    LookupParam(b4, Search, v4, name);
  }

  lemma OptionalReadsBack(st: HomeState, user: Option<User>, page: nat, name: ParamName)
    ensures Lookup(Optional(st, user), name) == if name == Page || name == Limit then None else Intended(st, user, page, name)
  {
    var school := if user.Some? then user.value.school else "";
    var b1, b2, b4 := st.filter == BySchool && school != "", st.filter == ByCountry && st.selectedCountry != "all", !IsBlank(st.searchText);
    assert Optional(st, user) ==
      Param(b1, School, school) + Param(b2, Country, st.selectedCountry)
      + Param(st.onlyAvailable, OnlyAvailable, "true") + Param(b4, Search, Trim(st.searchText));
    LookupOptional(b1, school, b2, st.selectedCountry, st.onlyAvailable, "true", b4, Trim(st.searchText), name);
    var v := Lookup(Optional(st, user), name);
    match name {
      case School => assert v == (if b1 then Some(school) else None) == Intended(st, user, page, name);
      case Country => assert v == (if b2 then Some(st.selectedCountry) else None) == Intended(st, user, page, name);
      case OnlyAvailable => assert v == (if st.onlyAvailable then Some("true") else None) == Intended(st, user, page, name);
      case Search => assert v == (if b4 then Some(Trim(st.searchText)) else None) == Intended(st, user, page, name);
      case Page => assert v == None;
      case Limit => assert v == None;
    }
  }

  /** What the server reads back from a page request is what the page means it to read. */
  lemma QueryReadsBack(st: HomeState, user: Option<User>, page: nat, name: ParamName)
    ensures Lookup(Query(st, user, page), name) == Intended(st, user, page, name)
  {
    LookupAppend(Optional(st, user), Paging(page), name);
    OptionalReadsBack(st, user, page, name);
    PagingReadsBack(page, name);
  }

  /** The page number the server reads is the one requested. */
  lemma PageReadsBack(st: HomeState, user: Option<User>, page: nat)
    ensures var v := Lookup(Query(st, user, page), Page);
      v == Some(NatToDecimal(page)) && DecimalValue(v.value) == page
  {
    QueryReadsBack(st, user, page, Page);
    DecimalRoundTrip(page);
  }

  /** `handleCreatePost`: only a signed-in visitor reaches the new-item form. */
  function CreatePost(user: Option<User>): (r: seq<Effect<()>>)
    ensures |r| == 1 && r[0].Navigate?
    ensures r[0].route == Path(if user.None? then LoginPage else "/items/create")
  {
    if user.None? then [Navigate(Path(LoginPage))] else [Navigate(Path("/items/create"))]
  }

  /** The new-item form is not taken for an item's detail page, so the bottom bar
      stays. */
  lemma CreatePostShowsBottomNav(u: User)
    ensures var r := CreatePost(Some(u));
      !AppRouter.IsItemDetailPage(r[0].route.path) && AppRouter.ShowsBottomNav(r[0].route.path)
  {
    var loc := "/items/create";
    assert !StartsWith(loc, "/auth") by { assert loc[1] == 'i'; }
    assert !StartsWith(loc, "/admin") by { assert loc[1] == 'i'; }
    assert !StartsWith(loc, "/search/") by { assert loc[1] == 'i'; }
  }
}

=== FILE: item_detail.dfy ===
/**
  The item detail page (`/items/:id`): the photo carousel with its buttons and
  swipe gestures, the full-size photo address, and the "start a chat" button.
*/
module ItemDetail {
  import opened Base
  import opened Strings
  import opened Users
  import opened Effects

  /** `nextImage` on a carousel of `n` photos: one step forward, wrapping to the
      first photo; without photos nothing moves. */
  function NextImage(index: nat, n: nat): (r: nat)
    ensures n == 0 ==> r == index
    ensures n > 0 ==> r < n
    ensures n > 0 && index + 1 < n ==> r == index + 1
  {
    if n == 0 then index else (index + 1) % n
  }

  /** `prevImage`: one step back, wrapping from the first photo to the last. */
  function PrevImage(index: nat, n: nat): (r: nat)
    ensures n == 0 ==> r == index
    ensures n > 0 && index < n ==> r < n
    ensures n > 0 && 0 < index ==> r == index - 1
  {
    if n == 0 then index else if index == 0 then n - 1 else index - 1
  }

  /** Back undoes forward and forward undoes back. */
  lemma PrevUndoesNext(index: nat, n: nat)
    requires index < n
    ensures PrevImage(NextImage(index, n), n) == index
    ensures NextImage(PrevImage(index, n), n) == index
  {
  }

  /** `k` presses of the forward button. */
  function Advance(index: nat, n: nat, k: nat): nat {
    if k == 0 then index else NextImage(Advance(index, n, k - 1), n)
  }

  /** Division by a positive number has one quotient and one remainder. */
  lemma ModUnique(x: int, n: int, q: int, s: int)
    requires n > 0 && x == q * n + s && 0 <= s < n
    ensures x % n == s
  {
    var d := q - x / n;
    assert d * n == x % n - s;
  }

  lemma ModStep(a: nat, n: nat)
    requires n > 0
    ensures (a % n + 1) % n == (a + 1) % n
  {
    var q, r := a / n, a % n;
    if r + 1 < n {
      ModUnique(a + 1, n, q, r + 1);
      ModUnique(r + 1, n, 0, r + 1);
    } else {
      ModUnique(a + 1, n, q + 1, 0);
      ModUnique(r + 1, n, 1, 0);
    }
  }

  /** Pressing forward `k` times moves `k` places round the ring of photos; in
      particular `n` presses come back to the same photo. */
  lemma {:induction false} AdvanceWraps(index: nat, n: nat, k: nat)
    requires index < n
    ensures Advance(index, n, k) == (index + k) % n
    decreases k
  {
    if k > 0 {
      AdvanceWraps(index, n, k - 1);
      ModStep(index + k - 1, n);
    }
  }

  lemma FullCircle(index: nat, n: nat)
    requires index < n
    ensures Advance(index, n, n) == index
  {
    AdvanceWraps(index, n, n);
    ModUnique(index + n, n, 1, index);
  }

  /** The two touch positions the page keeps between events (`null` is `None`). */
  datatype Touch = Touch(start: Option<int>, end: Option<int>)

  datatype Carousel = Carousel(index: nat, touch: Touch)

  const Untouched: Touch := Touch(None, None)

  /** A swipe must travel further than this many pixels. */
  const SwipeThreshold: int := 50

  function TouchStart(c: Carousel, x: int): Carousel {
    c.(touch := c.touch.(start := Some(x)))
  }

  function TouchMove(c: Carousel, x: int): Carousel {
    c.(touch := c.touch.(end := Some(x)))
  }

  /** A touch position passes the page's `if (!x)` test: present and not 0. */
  predicate Truthy(x: Option<int>) {
    x.Some? && x.value != 0
  }

  /** The move a finished swipe makes. */
  function Swipe(index: nat, distance: int, n: nat): (r: nat)
    ensures -SwipeThreshold <= distance <= SwipeThreshold || n <= 1 ==> r == index
    ensures distance > SwipeThreshold && n > 1 ==> r == NextImage(index, n)
    ensures distance < -SwipeThreshold && n > 1 ==> r == PrevImage(index, n)
  {
    if distance > SwipeThreshold && n > 1 then NextImage(index, n)
    else if distance < -SwipeThreshold && n > 1 then PrevImage(index, n)
    else index
  }

  /** `handleTouchEnd` as written: a missing or zero position ends the handler at
      once, keeping both positions; otherwise the swipe is applied and both
      positions are cleared. */
  function TouchEnd(c: Carousel, n: nat): (r: Carousel)
    ensures !(Truthy(c.touch.start) && Truthy(c.touch.end)) ==> r == c
    ensures Truthy(c.touch.start) && Truthy(c.touch.end) ==>
      r == Carousel(Swipe(c.index, c.touch.start.value - c.touch.end.value, n), Untouched)
  {
    if !Truthy(c.touch.start) || !Truthy(c.touch.end) then c
    else Carousel(Swipe(c.index, c.touch.start.value - c.touch.end.value, n), Untouched)
  }

  /** A gesture: finger down at `from`, moved to `to`, lifted. */
  function Gesture(c: Carousel, from: int, to: int, n: nat): Carousel {
    TouchEnd(TouchMove(TouchStart(c, from), to), n)
  }

  /** A swipe one way and back the other way returns to the photo it started on. */
  lemma SwipeThereAndBack(c: Carousel, from: int, to: int, n: nat)
    requires c.index < n && from != 0 && to != 0 && from - to > SwipeThreshold
    ensures Gesture(Gesture(c, from, to, n), to, from, n).index == c.index
  {
  }

  /** A gesture too short to count moves no photo. */
  lemma ShortGestureKeepsPhoto(c: Carousel, from: int, to: int, n: nat)
    requires -SwipeThreshold <= from - to <= SwipeThreshold
    ensures Gesture(c, from, to, n).index == c.index
  {
  }

  /** A gesture that begins at the left screen edge (position 0) is ignored but
      leaves its end position behind, so a later tap, with no movement at all,
      is taken for a swipe and turns the photo. */
  lemma TapAfterEdgeGestureTurnsPhoto(n: nat)
    requires n > 1
    ensures var ignored := Gesture(Carousel(0, Untouched), 0, 200, n);
      && ignored.index == 0
      && TouchEnd(TouchStart(ignored, 300), n).index == 1
  {
  }

  /** `handleTouchEnd` with the test the early return evidently means, "no
      position recorded" (`== null`), in place of the falsy test that also
      rejects position 0. */
  function TouchEndIntended(c: Carousel, n: nat): (r: Carousel)
    ensures c.touch.start.None? || c.touch.end.None? ==> r == c
    ensures c.touch.start.Some? && c.touch.end.Some? ==>
      r == Carousel(Swipe(c.index, c.touch.start.value - c.touch.end.value, n), Untouched)
  {
    if c.touch.start.None? || c.touch.end.None? then c
    else Carousel(Swipe(c.index, c.touch.start.value - c.touch.end.value, n), Untouched)
  }

  /** With the intended test no end position outlives its gesture: after any
      gesture, a tap never turns the photo. */
  lemma TapNeverTurnsPhoto(c: Carousel, from: int, to: int, tap: int, n: nat)
    ensures var g := TouchEndIntended(TouchMove(TouchStart(c, from), to), n);
      TouchEndIntended(TouchStart(g, tap), n).index == g.index
  {
  }

  const HighResQuery: string := "?w=1200&h=1200&fit=crop&q=80"

  /** `getHighResImageUrl`: an Unsplash address has its query replaced by a fixed
      full-size query; any other address is used as it is. */
  function HighResUrl(url: string): (r: string)
    ensures !Contains(url, "unsplash.com") ==> r == url
    ensures Contains(url, "unsplash.com") ==>
      r == BeforeFirst(url, '?') + HighResQuery && '?' !in BeforeFirst(url, '?')
  {
    if Contains(url, "unsplash.com") then BeforeFirst(url, '?') + HighResQuery else url
  }

  lemma {:induction false} BeforeFirstOfJoin(b: string, q: string, c: char)
    requires c !in b && q != [] && q[0] == c
    ensures BeforeFirst(b + q, c) == b
    decreases |b|
  {
    if b != [] {
      assert (b + q)[1..] == b[1..] + q;
      BeforeFirstOfJoin(b[1..], q, c);
    } else {
      assert b + q == q;
    }
  }

  /** Asking for the full-size address of a full-size address changes nothing. */
  lemma HighResIdempotent(url: string)
    ensures HighResUrl(HighResUrl(url)) == HighResUrl(url)
  {
    if Contains(url, "unsplash.com") {
      BeforeFirstOfJoin(BeforeFirst(url, '?'), HighResQuery, '?');
    }
  }

  /** The one request this page's chat button sends. */
  datatype ChatRequest = CreateChatRoom(itemId: string)

  /** The answer to the room request: the new room's id, or a failure. */
  datatype ChatResponse = RoomCreated(roomId: string) | RoomFailed

  const OwnItemText: string := "자신의 상품에는 채팅을 시작할 수 없습니다."

  /** `handleChatStart`. `sellerId` is the loaded item's seller (`None` while the
      item is still loading) and `itemId` the id in the address. */
  function ChatStart(user: Option<User>, sellerId: Option<string>, itemId: string): (r: seq<Effect<ChatRequest>>)
    ensures NoLogin(r) && |r| <= 1
    ensures user.None? ==> r == [Navigate(Path(LoginPage))]
    ensures Requests(r) != [] <==> user.Some? && sellerId.Some? && sellerId.value != user.value.id
    ensures Requests(r) != [] ==> r == [Send(CreateChatRoom(itemId))]
    ensures user.Some? && sellerId.Some? && sellerId.value == user.value.id ==> r == [Toast("알림", OwnItemText)]
  {
    if user.None? then [Navigate(Path(LoginPage))]
    else if sellerId.None? then []
    else if sellerId.value == user.value.id then [Toast("알림", OwnItemText)]
    else [Send(CreateChatRoom(itemId))]
  }

  /** What the page does with the answer: on success it opens the new room. */
  function ChatStarted(resp: ChatResponse): (r: seq<Effect<ChatRequest>>)
    ensures NoLogin(r) && NoRequest(r) && r != [] && r[0].Toast?
    ensures resp.RoomCreated? <==> |r| == 2
    ensures resp.RoomCreated? ==> r[1] == Navigate(Path("/chat/" + resp.roomId))
  {
    match resp
    case RoomCreated(id) =>
      [Toast("채팅방 생성됨", "판매자와의 채팅방이 생성되었습니다."), Navigate(Path("/chat/" + id))]
    case RoomFailed => [Toast("채팅방 생성 실패", "채팅방을 생성할 수 없습니다. 다시 시도해주세요.")]
  }

  /** A seller never opens a chat about their own item, whoever else is looking. */
  lemma NoChatWithOneself(u: User, itemId: string)
    ensures Requests(ChatStart(Some(u), Some(u.id), itemId)) == []
  {
  }
}

=== FILE: item_edit.dfy ===
/**
  The item edit page (`/items/:id/edit`): the seller-only guard that fills the
  form from the stored item, the photo upload, the delivery-method choice, and
  the update request the form submits. The photo list edits are in `ItemImages`.
*/
module ItemEdit {
  import opened Base
  import opened Strings
  import opened Users
  import opened Effects
  import opened Session
  import Items
  import PostForms

  /** An item as the server stores it. A text field the server leaves out is "". */
  datatype Listing = Listing(
    sellerId: string,
    title: string,
    description: string,
    price: string,
    images: seq<string>,
    school: string,
    country: string,
    location: string,
    deliveryMethod: string,
    customDeliveryMethod: string,
    openChatLink: string,
    availableFrom: Option<int>,
    availableTo: Option<int>,
    status: string,
    isAvailable: Option<bool>,
    currency: string)

  /** The form fields that the page does not keep in a state of its own. */
  datatype ItemForm = ItemForm(
    title: string,
    description: string,
    sellerId: string,
    school: string,
    country: string,
    location: string,
    deliveryMethod: string,
    customDeliveryMethod: string,
    openChatLink: string,
    availableFrom: Option<int>,
    availableTo: Option<int>,
    isAvailable: bool)

  /** The page: the form, and the photo list, price, status and currency it keeps apart. */
  datatype EditPage = EditPage(form: ItemForm, images: seq<string>, price: string, status: string, currency: string)

  /** The body of the update request. */
  datatype ItemPayload = ItemPayload(
    title: string,
    description: string,
    sellerId: string,
    images: seq<string>,
    price: string,
    school: string,
    country: string,
    location: string,
    deliveryMethod: string,
    customDeliveryMethod: string,
    openChatLink: string,
    availableFrom: Option<int>,
    availableTo: Option<int>,
    isAvailable: bool,
    currency: string,
    status: string)

  datatype EditRequest = UpdateItem(itemId: string, payload: ItemPayload)

  /** "Other": the one delivery method that comes with a free-text description. */
  const OtherMethod: string := "기타"

  /** The page before the item arrives: the visitor's own id, school and country,
      and the first of the known currencies. */
  function Blank(user: Option<User>, currencies: seq<string>): (r: EditPage)
    requires |currencies| > 0
    ensures r.images == [] && r.price == "" && r.status == Items.TradableLabel
    ensures user.Some? ==> r.form.sellerId == user.value.id && r.form.location == user.value.school
  {
    var u := if user.Some? then user.value else User("", "", "", "", "", "", false);
    EditPage(ItemForm("", "", u.id, u.school, u.country, u.school, "", "", "", None, None, true),
             [], "", Items.TradableLabel, currencies[0])
  }

  /** The currency list entry matching `code`, or the first entry. */
  function CurrencyOf(code: string, currencies: seq<string>): (r: string)
    requires |currencies| > 0
    ensures r in currencies
    ensures code in currencies <==> r == code
  {
    if code in currencies then code else currencies[0]
  }

  /** The effect that runs once both the item and the visitor are known. Anyone
      but the seller is told off and sent home, and the form stays as it was;
      the seller gets the form filled from the stored item. */
  function Load(page: EditPage, item: Option<Listing>, user: Option<User>, currencies: seq<string>): (r: (EditPage, seq<Effect<EditRequest>>))
    requires |currencies| > 0
    ensures NoRequest(r.1) && NoLogin(r.1)
    ensures item.None? || user.None? ==> r == (page, [])
    ensures item.Some? && user.Some? && item.value.sellerId != user.value.id ==>
      r.0 == page && r.1 == [Toast("권한 없음", "이 상품을 수정할 권한이 없습니다."), Navigate(Path(HomePage))]
    ensures item.Some? && user.Some? && item.value.sellerId == user.value.id ==>
      var it := item.value;
      && r.1 == []
      && r.0.images == it.images && r.0.price == it.price
      && r.0.status == OrElse(it.status, Items.TradableLabel)
      && r.0.currency == CurrencyOf(it.currency, currencies)
      && r.0.form.title == it.title && r.0.form.description == it.description
      && r.0.form.sellerId == it.sellerId && r.0.form.location == it.location
      && r.0.form.deliveryMethod == it.deliveryMethod
      && r.0.form.customDeliveryMethod == it.customDeliveryMethod
      && r.0.form.availableTo == it.availableTo
      && r.0.form.isAvailable == it.isAvailable.GetOr(true)
  {
    if item.None? || user.None? then (page, [])
    else
      var it := item.value;
      if it.sellerId != user.value.id then
        (page, [Toast("권한 없음", "이 상품을 수정할 권한이 없습니다."), Navigate(Path(HomePage))])
      else
        var form := ItemForm(it.title, it.description, it.sellerId, it.school, it.country, it.location,
                             it.deliveryMethod, it.customDeliveryMethod, it.openChatLink,
                             it.availableFrom, it.availableTo, it.isAvailable.GetOr(true));
        (EditPage(form, it.images, it.price, OrElse(it.status, Items.TradableLabel), CurrencyOf(it.currency, currencies)), [])
  }

  /** `handleImageUpload` as its `catch` intends it: the per-file loop of the
      post forms, with no limit on the number of photos and no announcement of
      each file; only the photo list changes. */
  function UploadPhotos(page: EditPage, files: seq<PostForms.Upload>): (r: (EditPage, seq<Effect<EditRequest>>))
    ensures r.0 == page.(images := r.0.images)
    ensures page.images <= r.0.images
    ensures NoRequest(r.1) && NoLogin(r.1)
  {
    var added := PostForms.AddFiles<EditRequest>(page.images, files, false);
    (page.(images := added.0), added.1)
  }

  /** The upload appends exactly the compressed image files of the batch, in
      order, after the photos already there. */
  lemma UploadAppendsCompressed(page: EditPage, files: seq<PostForms.Upload>)
    ensures UploadPhotos(page, files).0.images == page.images + PostForms.Compressed(files)
  {
    var all := PostForms.AddFiles<EditRequest>(page.images, files, false).0;
    PostForms.AddedAreCompressedImages<EditRequest>(page.images, files, false);
    assert all == page.images + all[|page.images|..];
  }

  /** The upload as written: the loop waits for good at the first photo that
      does not decode, so `setIsLoading(false)` never runs and the submit
      button, disabled while `isLoading`, stays disabled. The flag is whether
      the button is enabled again. */
  function UploadPhotosAsWritten(page: EditPage, files: seq<PostForms.Upload>): (r: (EditPage, bool))
    ensures r.0 == page.(images := r.0.images)
    ensures r.1 <==> PostForms.StallAt(files) == |files|
    ensures r.0.images == page.images + PostForms.Compressed(files[..PostForms.StallAt(files)])
  {
    var w := PostForms.AddFilesAsWritten<EditRequest>(page.images, files, false);
    PostForms.AsWrittenStopsAtStall<EditRequest>(page.images, files, false);
    (page.(images := w.0), w.2)
  }

  /** A batch of an undecodable HEIC file and a good PNG: as written, the page
      keeps its photos and the submit button stays disabled; the intended loop
      appends the PNG. */
  lemma StallKeepsSubmitDisabled(page: EditPage)
    ensures var files := [PostForms.Upload("image/heic", None), PostForms.Upload("image/png", Some("data:image/jpeg;base64,AA"))];
      && UploadPhotosAsWritten(page, files) == (page, false)
      && UploadPhotos(page, files).0.images == page.images + ["data:image/jpeg;base64,AA"]
  {
    var files := [PostForms.Upload("image/heic", None), PostForms.Upload("image/png", Some("data:image/jpeg;base64,AA"))];
    assert StartsWith("image/heic", "image/") && StartsWith("image/png", "image/");
    assert PostForms.StallAt(files) == 0;
    assert files[..0] == [] && page.images + [] == page.images;
    UploadAppendsCompressed(page, files);
    assert files[1..] == [files[1]] && files[1..][1..] == [];
    assert PostForms.Compressed(files) == ["data:image/jpeg;base64,AA"];
  }

  /** Picking a delivery method; any method but "other" clears the free-text description. */
  function ChooseDeliveryMethod(page: EditPage, choice: string): (r: EditPage)
    ensures r.form.deliveryMethod == choice
    ensures choice != OtherMethod ==> r.form.customDeliveryMethod == ""
    ensures choice == OtherMethod ==> r.form.customDeliveryMethod == page.form.customDeliveryMethod
    ensures r.images == page.images && r.price == page.price && r.status == page.status
  {
    var form := page.form.(deliveryMethod := choice);
    page.(form := if choice != OtherMethod then form.(customDeliveryMethod := "") else form)
  }

  const NoPhotoTitle: string := "사진을 업로드해주세요"

  /** The request body `onSubmit` builds. The seller, school and country come from
      the signed-in visitor; the location falls back to the visitor's school; the
      free-text delivery description is kept only for "other". */
  function Payload(page: EditPage, user: Option<User>): (p: ItemPayload)
    ensures p.images == page.images && p.price == page.price && p.status == page.status
    ensures user.Some? ==> p.sellerId == OrElse(user.value.id, page.form.sellerId)
    ensures user.Some? ==> p.school == user.value.school && p.country == user.value.country
    ensures user.None? ==> p.sellerId == page.form.sellerId && p.school == "" && p.country == ""
    ensures p.location == (if page.form.location != "" then page.form.location
                           else if user.Some? then user.value.school else "")
    ensures p.customDeliveryMethod != "" ==> page.form.deliveryMethod == OtherMethod
    ensures page.form.deliveryMethod == OtherMethod ==> p.customDeliveryMethod == page.form.customDeliveryMethod
  {
    var f := page.form;
    var userId := if user.Some? then user.value.id else "";
    var userSchool := if user.Some? then user.value.school else "";
    var userCountry := if user.Some? then user.value.country else "";
    ItemPayload(
      f.title, f.description, OrElse(userId, f.sellerId), page.images, page.price,
      userSchool, userCountry, OrElse(f.location, userSchool), f.deliveryMethod,
      if f.deliveryMethod == OtherMethod then f.customDeliveryMethod else "",
      f.openChatLink, f.availableFrom, f.availableTo, f.isAvailable, page.currency, page.status)
  }

  /** `onSubmit`: without a photo only a warning; otherwise the update request. */
  function Submit(page: EditPage, itemId: string, user: Option<User>): (r: seq<Effect<EditRequest>>)
    ensures |r| == 1 && NoLogin(r)
    ensures page.images == [] <==> NoRequest(r)
    ensures page.images == [] ==> r == [Toast(NoPhotoTitle, "최소 1장의 사진이 필요합니다.")]
    ensures page.images != [] ==> r == [Send(UpdateItem(itemId, Payload(page, user)))]
    ensures forall i :: 0 <= i < |r| && r[i].Send? ==> r[i].request.payload.images != []
  {
    if page.images == [] then [Toast(NoPhotoTitle, "최소 1장의 사진이 필요합니다.")]
    else
      var r := [Send(UpdateItem(itemId, Payload(page, user)))];
      assert r[0].Send?;
      r
  }

  /** The seller who opens the edit page and submits it untouched writes back the
      stored item, except for what the page takes from the visitor instead: the
      school and the country, a missing location or status, and a free-text
      delivery description that no longer goes with the method. */
  lemma UntouchedEditWritesBack(page: EditPage, it: Listing, u: User, currencies: seq<string>)
    requires |currencies| > 0 && it.sellerId == u.id && it.images != [] && it.currency in currencies
    ensures var loaded := Load(page, Some(it), Some(u), currencies).0;
      var r := Submit(loaded, "id", Some(u));
      && r == [Send(UpdateItem("id", Payload(loaded, Some(u))))]
      && var p := Payload(loaded, Some(u));
      && p.title == it.title && p.description == it.description && p.sellerId == it.sellerId
      && p.images == it.images && p.price == it.price && p.currency == it.currency
      && p.availableFrom == it.availableFrom && p.availableTo == it.availableTo
      && p.deliveryMethod == it.deliveryMethod && p.openChatLink == it.openChatLink
      && p.location == OrElse(it.location, u.school)
      && p.status == OrElse(it.status, Items.TradableLabel)
      && p.school == u.school && p.country == u.country
      && (p.customDeliveryMethod == it.customDeliveryMethod <==>
          it.deliveryMethod == OtherMethod || it.customDeliveryMethod == "")
  {
  }

  /** Whatever the form held before, choosing a method other than "other" means no
      free-text description is sent. */
  lemma OtherMethodOnly(page: EditPage, choice: string, itemId: string, user: Option<User>)
    requires choice != OtherMethod
    ensures Payload(ChooseDeliveryMethod(page, choice), user).customDeliveryMethod == ""
  {
  }

  /** The outcome of the update request. */
  datatype UpdateOutcome = Saved | Failed(message: string)

  const NoTokenText: string := "인증이 필요합니다. 다시 로그인해주세요."

  /** The failures the page reads as an expired sign-in. */
  predicate IsAuthError(message: string) {
    Contains(message, "401") || Contains(message, "Invalid token") || Contains(message, "Unauthorized")
  }

  /** The update mutation. Without a stored token it fails before any request with
      a message of its own; a saved item goes to its page; a failure that reads as
      an expired sign-in goes to sign-in; any other shows its message. */
  function Update(storage: map<string, string>, itemId: string, outcome: UpdateOutcome): (r: seq<Effect<EditRequest>>)
    ensures NoLogin(r) && NoRequest(r) && r != [] && r[0].Toast?
    ensures Stored(storage, TokenKey) && outcome.Saved? <==> r[|r| - 1] == Navigate(Path("/items/" + itemId))
    ensures !Stored(storage, TokenKey) ==> r == [Toast("상품 수정 실패", NoTokenText)]
    ensures Stored(storage, TokenKey) && outcome.Failed? ==>
      (r[|r| - 1] == Navigate(Path(LoginPage)) <==> IsAuthError(outcome.message))
  {
    NoTokenIsNotAuthError();
    var failure := if !Stored(storage, TokenKey) then Failed(NoTokenText) else outcome;
    match failure
    case Saved =>
      [Toast("상품 수정 완료", "성공적으로 수정되었습니다."), Navigate(Path("/items/" + itemId))]
    case Failed(msg) =>
      if IsAuthError(msg) then
        assert LoginPage[1] != ("/items/" + itemId)[1];
        [Toast("인증 오류", "로그인이 만료되었습니다. 다시 로그인해주세요."), Navigate(Path(LoginPage))]
      else [Toast("상품 수정 실패", OrElse(msg, "수정 중 오류가 발생했습니다."))]
  }

  /** The page's own missing-token message does not read as an expired sign-in, so
      a visitor without a token is not sent to sign-in, only warned. */
  lemma NoTokenIsNotAuthError()
    ensures !IsAuthError(NoTokenText)
  {
    assert forall i :: 0 <= i < |NoTokenText| ==> NoTokenText[i] in " ." || IsHangul(NoTokenText[i]);
    MissingCharExcludes(NoTokenText, "401", 0);
    MissingCharExcludes(NoTokenText, "Invalid token", 0);
    MissingCharExcludes(NoTokenText, "Unauthorized", 0);
  }
}

=== FILE: item_images.dfy ===
/**
  Edits of an item's photo list on the edit page: removing one photo, making
  one the cover (the first photo), and moving one by drag and drop.
*/
module ItemImages {
  import opened Base

  /** `images.filter((_, i) => i !== index)`: drops the element at `index`; an
      index outside the list drops nothing. */
  function RemoveAt<T>(s: seq<T>, index: int): (r: seq<T>)
    ensures 0 <= index < |s| ==> r == s[..index] + s[index + 1..]
    ensures !(0 <= index < |s|) ==> r == s
    decreases |s|
  {
    if s == [] then []
    else if index == 0 then s[1..]
    else [s[0]] + RemoveAt(s[1..], index - 1)
  }

  /** `splice(index, 0, x)`: puts `x` at position `index`. */
  function Insert<T>(s: seq<T>, index: int, x: T): (r: seq<T>)
    requires 0 <= index <= |s|
    ensures |r| == |s| + 1 && r[index] == x
    ensures RemoveAt(r, index) == s
  {
    var r := s[..index] + [x] + s[index..];
    assert r[..index] + r[index + 1..] == s;
    r
  }

  lemma MultisetSplit<T>(s: seq<T>, index: int)
    requires 0 <= index < |s|
    ensures multiset(s) == multiset(s[..index]) + multiset{s[index]} + multiset(s[index + 1..])
  {
    assert s == s[..index] + [s[index]] + s[index + 1..];
  }

  /** Removing an element in range shortens the list by one and loses exactly that element. */
  lemma RemoveAtCount<T>(s: seq<T>, index: int)
    requires 0 <= index < |s|
    ensures |RemoveAt(s, index)| == |s| - 1
    ensures multiset(RemoveAt(s, index)) + multiset{s[index]} == multiset(s)
  {
    MultisetSplit(s, index);
    assert RemoveAt(s, index) == s[..index] + s[index + 1..];
  }

  lemma RejoinSlices<T>(s: seq<T>, index: int)
    requires 0 <= index < |s|
    ensures var rest := s[..index] + s[index + 1..];
      rest[..index] + [s[index]] + rest[index..] == s
  {
    var rest := s[..index] + s[index + 1..];
    assert rest[..index] == s[..index];
    assert rest[index..] == s[index + 1..];
  }

  /** Putting a removed element back where it was restores the list. */
  lemma InsertRemoved<T>(s: seq<T>, index: int)
    requires 0 <= index < |s|
    ensures Insert(RemoveAt(s, index), index, s[index]) == s
  {
    var rest := RemoveAt(s, index);
    assert rest == s[..index] + s[index + 1..];
    RejoinSlices(s, index);
    assert Insert(rest, index, s[index]) == rest[..index] + [s[index]] + rest[index..];
  }

  /** `makePrimaryImage(index)`: the photo at `index` becomes the first, the
      others keep their order after it. */
  function MoveToFront<T>(s: seq<T>, index: int): (r: seq<T>)
    requires 0 <= index < |s|
    ensures |r| == |s| && r[0] == s[index]
    ensures r[1..] == s[..index] + s[index + 1..]
    ensures multiset(r) == multiset(s)
  {
    RemoveAtCount(s, index);
    [s[index]] + RemoveAt(s, index)
  }

  /** Making the cover photo the cover again changes nothing. */
  lemma MoveToFrontOfFirst<T>(s: seq<T>)
    requires |s| > 0
    ensures MoveToFront(s, 0) == s
  {
  }

  /** `handleDrop(dropIndex)` with `dragged` the index picked up by the drag
      start: nothing dragged, or a drop on the same place, leaves the list as
      it is; otherwise the photo is taken out and put back at `dropIndex`.
      The dragged index is cleared in every case. */
  function Drop<T>(s: seq<T>, dragged: Option<int>, dropIndex: int): (r: (seq<T>, Option<int>))
    requires dragged.Some? ==> 0 <= dragged.value < |s|
    requires 0 <= dropIndex < |s|
    ensures r.1.None?
    ensures dragged.None? || dragged.value == dropIndex ==> r.0 == s
    ensures |r.0| == |s| && multiset(r.0) == multiset(s)
    ensures dragged.Some? ==> r.0[dropIndex] == s[dragged.value]
    ensures dragged.Some? ==> RemoveAt(r.0, dropIndex) == RemoveAt(s, dragged.value)
  {
    if dragged.None? || dragged.value == dropIndex then (s, None)
    else
      var from := dragged.value;
      RemoveAtCount(s, from);
      var rest := RemoveAt(s, from);
      var r := Insert(rest, dropIndex, s[from]);
      assert r == rest[..dropIndex] + [s[from]] + rest[dropIndex..];
      assert multiset(r) == multiset(rest) + multiset{s[from]};
      (r, None)
  }

  /** Dragging the photo back from where it was dropped restores the list. */
  lemma DropUndone<T>(s: seq<T>, from: int, to: int)
    requires 0 <= from < |s| && 0 <= to < |s|
    ensures Drop(Drop(s, Some(from), to).0, Some(to), from).0 == s
  {
    if from != to {
      var r := Drop(s, Some(from), to).0;
      assert r == Insert(RemoveAt(s, from), to, s[from]);
      assert Drop(r, Some(to), from).0 == Insert(RemoveAt(r, to), from, r[to]);
      InsertRemoved(s, from);
    }
  }

  /** Dropping a photo on the first place is the same as making it the cover. */
  lemma DropOnFirstIsMoveToFront<T>(s: seq<T>, from: int)
    requires 0 < from < |s|
    ensures Drop(s, Some(from), 0).0 == MoveToFront(s, from)
  {
  }
}

=== FILE: items.dfy ===
/**
  What the item card and the item detail page derive from a listed item: its
  trading status, how long ago it was posted, and where it is. Time is an
  integer count of milliseconds; `now` is a parameter in place of the clock.
*/
module Items {
  import opened Base
  import opened Strings
  import opened Effects
  import AppRouter

  const CompletedLabel: string := "거래완료"
  const ExpiredLabel: string := "기간만료"
  const TradableLabel: string := "거래가능"

  /** The status a card or the detail page shows. */
  datatype ItemStatus = Tradable | Completed | Expired

  function Label(s: ItemStatus): string {
    match s
    case Tradable => TradableLabel
    case Completed => CompletedLabel
    case Expired => ExpiredLabel
  }

  /** `getItemStatus`: the stored labels for a completed or an expired trade win;
      any other stored text falls through to the date test, where a trading
      period that ended before `now` counts as expired. */
  function StatusOf(stored: string, availableTo: Option<int>, now: int): (r: ItemStatus)
    ensures r == Completed <==> stored == CompletedLabel
    ensures r == Expired <==>
      stored == ExpiredLabel || (stored != CompletedLabel && availableTo.Some? && now > availableTo.value)
  {
    if stored == CompletedLabel then Completed
    else if stored == ExpiredLabel then Expired
    else if availableTo.Some? && now > availableTo.value then Expired
    else Tradable
  }

  /** `isInactive`: the card greys out anything that cannot be traded now. */
  function Inactive(stored: string, availableTo: Option<int>, now: int): (r: bool)
    ensures r <==> stored == CompletedLabel || stored == ExpiredLabel || (availableTo.Some? && now > availableTo.value)
  {
    Label(StatusOf(stored, availableTo, now)) != TradableLabel
  }

  /** A stored text that is neither of the two recognised labels is read as if it
      were "거래가능": only the trading period decides. */
  lemma UnrecognisedStatusFallsThrough(stored: string, availableTo: Option<int>, now: int)
    requires stored != CompletedLabel && stored != ExpiredLabel
    ensures StatusOf(stored, availableTo, now) == StatusOf(TradableLabel, availableTo, now)
    ensures StatusOf(stored, availableTo, now) == Tradable <==> availableTo.None? || now <= availableTo.value
  {
  }

  /** The admin dialog's status select offers "거래기간만료" (the item edit
      page declares the same three labels in `statusOptions` but renders no
      status control and sends back the status it loaded). That text is not
      one of the recognised labels, so an item stored with it shows as
      tradable until its trading period ends. */
  lemma AdminExpiredOptionIsTradable(availableTo: Option<int>, now: int)
    ensures StatusOf("거래기간만료", availableTo, now) == StatusOf(TradableLabel, availableTo, now)
  {
    var s := "거래기간만료";
    assert s[2] != CompletedLabel[2];
    assert |s| != |ExpiredLabel|;
  }

  /** Once an item shows as expired it stays expired as time goes on; a
      completed item stays completed. */
  lemma StatusIsPermanent(stored: string, availableTo: Option<int>, now: int, later: int)
    requires now <= later
    ensures StatusOf(stored, availableTo, now) != Tradable ==>
      StatusOf(stored, availableTo, later) == StatusOf(stored, availableTo, now)
  {
  }

  /** Storing the label that is shown and deriving the status again gives the
      same status: the derivation is idempotent. */
  lemma StatusOfLabel(stored: string, availableTo: Option<int>, now: int)
    ensures var s := StatusOf(stored, availableTo, now);
      StatusOf(Label(s), availableTo, now) == s
  {
    assert TradableLabel[2] != CompletedLabel[2];
    assert TradableLabel[2] != ExpiredLabel[2];
    assert CompletedLabel[2] != ExpiredLabel[2];
  }

  const HourMs: int := 1000 * 60 * 60

  /** `Math.floor((now - created) / 3600000)`; Dafny's division by a positive
      number rounds down like `Math.floor`, also for a creation time in the
      future. */
  function HoursBetween(created: int, now: int): (h: int)
    ensures h * HourMs <= now - created < (h + 1) * HourMs
  {
    (now - created) / HourMs
  }

  /** What `formatTimeAgo` says. `NotANumber` is what a missing creation time
      becomes once it passes through `new Date(undefined)`. */
  datatype Ago = JustNow | HoursAgo(hours: nat) | DaysAgo(days: nat) | WeeksAgo(weeks: nat) | NotANumber

  /** `formatTimeAgo`: under an hour, whole hours under a day, whole days under
      a week, whole weeks after that. */
  function AgoOf(created: Option<int>, now: int): (r: Ago)
    ensures created.None? <==> r.NotANumber?
    ensures created.Some? ==> var e := now - created.value;
      && (r.JustNow? <==> e < HourMs)
      && (r.HoursAgo? <==> HourMs <= e < 24 * HourMs)
      && (r.DaysAgo? <==> 24 * HourMs <= e < 168 * HourMs)
      && (r.WeeksAgo? <==> 168 * HourMs <= e)
      && (r.HoursAgo? ==> r.hours * HourMs <= e < (r.hours + 1) * HourMs)
      && (r.DaysAgo? ==> 1 <= r.days <= 6 && r.days * 24 * HourMs <= e < (r.days + 1) * 24 * HourMs)
      && (r.WeeksAgo? ==> 1 <= r.weeks && r.weeks * 168 * HourMs <= e < (r.weeks + 1) * 168 * HourMs)
  {
    if created.None? then NotANumber
    else
      var h := HoursBetween(created.value, now);
      var e := now - created.value;
      if h < 1 then JustNow
      else if h < 24 then HoursAgo(h)
      else if h < 168 then DaysBucket(e, h); DaysAgo(h / 24)
      else WeeksBucket(e, h); WeeksAgo(h / 168)
  }

  /** An age of h whole hours, one to six days, lies within its day. */
  lemma DaysBucket(e: int, h: int)
    requires 24 <= h < 168 && h * HourMs <= e < (h + 1) * HourMs
    ensures var d := h / 24;
      && 24 * HourMs <= e < 168 * HourMs
      && 1 <= d <= 6 && d * 24 * HourMs <= e < (d + 1) * 24 * HourMs
  {
    var d := h / 24;
    assert d * 24 <= h < d * 24 + 24;
  }

  /** An age of h whole hours, at least a week, lies within its week. */
  lemma WeeksBucket(e: int, h: int)
    requires 168 <= h && h * HourMs <= e < (h + 1) * HourMs
    ensures var w := h / 168;
      && 168 * HourMs <= e
      && 1 <= w && w * 168 * HourMs <= e < (w + 1) * 168 * HourMs
  {
    var w := h / 168;
    assert w * 168 <= h < w * 168 + 168;
  }

  /** The text of each bucket. */
  function AgoText(a: Ago): (t: string)
    ensures |t| >= 3 && t[|t| - 1] == '전'
  {
    match a
    case JustNow => "방금 전"
    case HoursAgo(h) => NatToDecimal(h) + "시간 전"
    case DaysAgo(d) => NatToDecimal(d) + "일 전"
    case WeeksAgo(w) => NatToDecimal(w) + "주 전"
    case NotANumber => "NaN주 전"
  }

  /** The hours a bucket stands for at least: what a reader learns from the text. */
  function AgoHours(a: Ago): int {
    match a
    case JustNow => 0
    case HoursAgo(h) => h
    case DaysAgo(d) => 24 * d
    case WeeksAgo(w) => 168 * w
    case NotANumber => 0
  }

  /** A reader of the text never over-estimates the age, and is off by less than
      one unit of the bucket shown. */
  lemma AgoIsLowerBound(created: int, now: int)
    ensures var a := AgoOf(Some(created), now);
      AgoHours(a) * HourMs <= now - created || a.JustNow?
    ensures var a := AgoOf(Some(created), now);
      a.DaysAgo? ==> now - created < (AgoHours(a) + 24) * HourMs
    ensures var a := AgoOf(Some(created), now);
      a.WeeksAgo? ==> now - created < (AgoHours(a) + 168) * HourMs
  {
  }

  /** As time passes, the age shown never goes down. */
  lemma AgoNeverDecreases(created: int, now: int, later: int)
    requires now <= later
    ensures AgoHours(AgoOf(Some(created), now)) <= AgoHours(AgoOf(Some(created), later))
  {
    var h1, h2 := HoursBetween(created, now), HoursBetween(created, later);
    assert h1 <= h2;
    if 24 <= h1 < 168 && 24 <= h2 < 168 {
      assert h1 / 24 <= h2 / 24;
    } else if 168 <= h1 {
      assert h1 / 168 <= h2 / 168;
    } else if h1 < 168 <= h2 {
      assert 24 * (h1 / 24) <= h1 < 168 * (h2 / 168) + 1;
    }
  }

  lemma {:induction false} SuffixCancels(x: string, y: string, u: string)
    requires x + u == y + u
    ensures x == y
  {
    assert |x| == |y|;
    assert x == (x + u)[..|x|];
    assert y == (y + u)[..|y|];
  }

  /** Different buckets read differently: the text determines the bucket. */
  lemma {:induction false} AgoTextInjective(a: Ago, b: Ago)
    requires AgoText(a) == AgoText(b)
    ensures a == b
  {
    var t := AgoText(a);
    assert t == AgoText(b);
    match a
    case JustNow => assert t[0] == '방';
    case NotANumber => assert t[0] == 'N';
    case HoursAgo(h) =>
      assert t[|t| - 3] == '간' && IsDigit(t[0]);
      if b.HoursAgo? {
        SuffixCancels(NatToDecimal(h), NatToDecimal(b.hours), "시간 전");
        DecimalInjective(h, b.hours);
      }
    case DaysAgo(d) =>
      assert t[|t| - 3] == '일' && IsDigit(t[0]);
      if b.DaysAgo? {
        SuffixCancels(NatToDecimal(d), NatToDecimal(b.days), "일 전");
        DecimalInjective(d, b.days);
      }
    case WeeksAgo(w) =>
      assert t[|t| - 3] == '주' && IsDigit(t[0]);
      if b.WeeksAgo? {
        SuffixCancels(NatToDecimal(w), NatToDecimal(b.weeks), "주 전");
        DecimalInjective(w, b.weeks);
      }
  }

  /** The two card layouts: the search results' grid and the home feed's row. */
  datatype Variant = Grid | Row

  /** A creation date as a card receives it: absent (`undefined`), `null`, or a
      text with the time `new Date(text)` gives it, `None` when it does not
      parse (the empty text among them). */
  datatype Stamp = Undefined | Null | Text(text: string, parsed: Option<int>)

  /** The falsy dates, which the grid card's `item.createdAt || new Date()` replaces by now. */
  predicate Falsy(d: Stamp) {
    d.Undefined? || d.Null? || (d.Text? && d.text == "")
  }

  /** The card's age text. The grid layout reads a falsy date as "now"; the row
      layout passes the date to `new Date` as it is, where `undefined` gives an
      invalid date and `null` gives the epoch. */
  function CardAgo(variant: Variant, created: Stamp, now: int): (r: Ago)
    ensures variant.Grid? && Falsy(created) ==> r.JustNow?
    ensures created.Text? && !(variant.Grid? && created.text == "") ==> r == AgoOf(created.parsed, now)
    ensures variant.Row? && created.Undefined? ==> r.NotANumber?
    ensures variant.Row? && created.Null? ==> r == AgoOf(Some(0), now)
  {
    if variant.Grid? && Falsy(created) then AgoOf(Some(now), now)
    else
      match created
      case Undefined => AgoOf(None, now)
      case Null => AgoOf(Some(0), now)
      case Text(_, parsed) => AgoOf(parsed, now)
  }

  /** A row card whose date is `null` shows the age of the epoch: weeks, once a
      week has passed since 1970. */
  lemma NullRowDateIsEpoch(now: int)
    requires now >= 168 * HourMs
    ensures CardAgo(Row, Null, now).WeeksAgo?
  {
  }

  /** The card's location line: "country, school", or the country alone without a school. */
  function LocationLabel(country: string, school: string): (r: string)
    ensures StartsWith(r, country)
    ensures school == [] ==> r == country
    ensures school != [] ==> r[|country|..] == ", " + school
  {
    if school != [] then country + ", " + school else country
  }

  /** For one country, the location line tells the school apart. */
  lemma LocationLabelInjective(country: string, a: string, b: string)
    requires LocationLabel(country, a) == LocationLabel(country, b)
    ensures a == b
  {
    var r := LocationLabel(country, a);
    if a != [] && b != [] {
      assert ", " + a == ", " + b;
      assert a == (", " + a)[2..];
    }
  }

  /** The optional callback a card's owner may pass. */
  datatype CardCallback = ItemClicked

  /** `handleCardClick`: the callback, when there is one, then the item's page. */
  function CardClick(id: string, hasCallback: bool): (r: seq<Effect<CardCallback>>)
    ensures |r| == (if hasCallback then 2 else 1)
    ensures r[|r| - 1] == Navigate(Path("/items/" + id))
    ensures hasCallback ==> r[0] == Send(ItemClicked)
    ensures NoLogin(r)
  {
    (if hasCallback then [Send(ItemClicked)] else []) + [Navigate(Path("/items/" + id))]
  }

  /** A card click lands on the item's detail page, where the router hides the
      bottom bar, for every id that the router does not mistake for another page. */
  lemma CardClickOpensDetail(id: string, hasCallback: bool)
    requires id != "" && id != "create" && '/' !in id && !StartsWith(id, "edit")
    ensures var r := CardClick(id, hasCallback);
      r[|r| - 1].Navigate? && AppRouter.IsItemDetailPage(r[|r| - 1].route.path)
      && !AppRouter.ShowsBottomNav(r[|r| - 1].route.path)
  {
    AppRouter.NoBottomNavOnItemDetail(id);
  }
}

=== FILE: my_posts.dfy ===
/**
  The "my posts" page, written for `/my/posts`, a path the router does not
  serve although the "my" page links to it: the visitor's community posts, meeting
  posts and items merged into one list, newest first, with a colour badge per
  category and a destination per post. A post's `createdAt` is the time its
  stored creation date parses to, or `None` when the date is missing (null,
  undefined or ""); the page counts a missing date as time 0.
*/
module MyPosts {
  import opened Base
  import opened Strings
  import opened Effects

  /** The tag the page adds to every post it merges. */
  datatype PostType = CommunityPost | ItemPost

  /** What the page reads of a post. Items carry no category of their own. */
  datatype Post = Post(id: string, category: string, createdAt: Option<int>, postType: PostType)

  /** `{ ...post, postType }` over a whole list. */
  function Tag(posts: seq<Post>, t: PostType): (r: seq<Post>)
    ensures |r| == |posts|
    ensures forall i :: 0 <= i < |r| ==> r[i] == posts[i].(postType := t)
  {
    if posts == [] then [] else [posts[0].(postType := t)] + Tag(posts[1..], t)
  }

  /** The sort key: the creation time, 0 when missing. */
  function Time(p: Post): int {
    p.createdAt.GetOr(0)
  }

  /** Newest first: no post comes before a strictly newer one. */
  predicate Newest(s: seq<Post>) {
    forall i, j :: 0 <= i < j < |s| ==> Time(s[i]) >= Time(s[j])
  }

  /** Places `p` after every post at least as new, so that posts of equal time
      keep their order, as the stable `Array.prototype.sort` does. */
  function InsertByTime(p: Post, s: seq<Post>): (r: seq<Post>)
    ensures |r| == |s| + 1
    ensures multiset(r) == multiset(s) + multiset{p}
  {
    if s == [] then [p]
    else if Time(s[0]) >= Time(p) then
      assert s == [s[0]] + s[1..];
      [s[0]] + InsertByTime(p, s[1..])
    else [p] + s
  }

  /** No post of `s` is newer than `t`. */
  predicate NoneNewer(t: int, s: seq<Post>) {
    forall i :: 0 <= i < |s| ==> Time(s[i]) <= t
  }

  lemma {:induction false} InsertNoneNewer(t: int, p: Post, s: seq<Post>)
    requires NoneNewer(t, s) && Time(p) <= t
    ensures NoneNewer(t, InsertByTime(p, s))
    decreases |s|
  {
    if s != [] && Time(s[0]) >= Time(p) {
      InsertNoneNewer(t, p, s[1..]);
    }
  }

  lemma {:induction false} InsertKeepsNewest(p: Post, s: seq<Post>)
    requires Newest(s)
    ensures Newest(InsertByTime(p, s))
    decreases |s|
  {
    if s != [] {
      var r := InsertByTime(p, s);
      if Time(s[0]) >= Time(p) {
        InsertKeepsNewest(p, s[1..]);
        assert NoneNewer(Time(s[0]), s[1..]);
        InsertNoneNewer(Time(s[0]), p, s[1..]);
        assert r == [s[0]] + InsertByTime(p, s[1..]);
      } else {
        assert r == [p] + s;
      }
    }
  }

  /** `.sort((a, b) => dateB - dateA)`, as an insertion sort that takes the
      posts in order. */
  function SortByTime(s: seq<Post>): (r: seq<Post>)
    ensures |r| == |s|
    ensures multiset(r) == multiset(s)
  {
    if s == [] then []
    else
      assert s == s[..|s| - 1] + [s[|s| - 1]];
      InsertByTime(s[|s| - 1], SortByTime(s[..|s| - 1]))
  }

  /** The sorted list is newest first. */
  lemma {:induction false} SortIsNewest(s: seq<Post>)
    ensures Newest(SortByTime(s))
    decreases |s|
  {
    if s != [] {
      SortIsNewest(s[..|s| - 1]);
      InsertKeepsNewest(s[|s| - 1], SortByTime(s[..|s| - 1]));
    }
  }

  lemma {:induction false} InsertOldest(p: Post, s: seq<Post>)
    requires forall i :: 0 <= i < |s| ==> Time(s[i]) >= Time(p)
    ensures InsertByTime(p, s) == s + [p]
    decreases |s|
  {
    if s != [] {
      InsertOldest(p, s[1..]);
      assert s == [s[0]] + s[1..];
    }
  }

  /** A list already newest first is left as it is; so sorting twice is sorting once. */
  lemma {:induction false} SortNewestUnchanged(s: seq<Post>)
    requires Newest(s)
    ensures SortByTime(s) == s
    decreases |s|
  {
    if s != [] {
      var init := s[..|s| - 1];
      assert Newest(init);
      SortNewestUnchanged(init);
      InsertOldest(s[|s| - 1], init);
      assert init + [s[|s| - 1]] == s;
    }
  }

  lemma SortIdempotent(s: seq<Post>)
    ensures SortByTime(SortByTime(s)) == SortByTime(s)
  {
    SortIsNewest(s);
    SortNewestUnchanged(SortByTime(s));
  }

  /** `allPosts`: community and meeting posts tagged "community", items tagged
      "item", merged and sorted. */
  function AllPosts(community: seq<Post>, meeting: seq<Post>, items: seq<Post>): (r: seq<Post>)
    ensures |r| == |community| + |meeting| + |items|
    ensures multiset(r) == multiset(Tag(community, CommunityPost) + Tag(meeting, CommunityPost) + Tag(items, ItemPost))
  {
    SortByTime(Tag(community, CommunityPost) + Tag(meeting, CommunityPost) + Tag(items, ItemPost))
  }

  /** The merged list holds exactly the tagged posts of the three lists, newest
      first. */
  lemma AllPostsSound(community: seq<Post>, meeting: seq<Post>, items: seq<Post>)
    ensures Newest(AllPosts(community, meeting, items))
    ensures forall p :: p in AllPosts(community, meeting, items) <==>
      p in Tag(community, CommunityPost) || p in Tag(meeting, CommunityPost) || p in Tag(items, ItemPost)
  {
    var all := Tag(community, CommunityPost) + Tag(meeting, CommunityPost) + Tag(items, ItemPost);
    SortIsNewest(all);
    forall p
      ensures p in AllPosts(community, meeting, items) <==> p in all
    {
      assert p in AllPosts(community, meeting, items) <==> p in multiset(all);
    }
  }

  /** `getCategoryColor`: the badge colour classes. */
  function CategoryColor(category: string): (r: string)
    ensures category == "모임방" ==> r == "bg-blue-100 text-blue-800"
    ensures category == "자유게시판" || category == "이야기방" ==> r == "bg-red-100 text-red-800"
    ensures category == "물품 판매" || category == "물품" ==> r == "bg-gray-200 text-gray-800"
    ensures category !in {"모임방", "자유게시판", "이야기방", "물품 판매", "물품"} ==> r == DefaultColor
  {
    if category == "모임방" then "bg-blue-100 text-blue-800"
    else if category == "자유게시판" || category == "이야기방" then "bg-red-100 text-red-800"
    else if category == "물품 판매" || category == "물품" then "bg-gray-200 text-gray-800"
    else DefaultColor
  }

  const DefaultColor: string := "bg-gray-100 text-gray-800"

  /** The badge of a post: its category's colour, items under "물품 판매". */
  function BadgeColor(p: Post): string {
    CategoryColor(if p.postType == CommunityPost then p.category else "물품 판매")
  }

  /** Every item wears the grey item badge, whatever category it carries. */
  lemma ItemBadge(p: Post)
    requires p.postType == ItemPost
    ensures BadgeColor(p) == "bg-gray-200 text-gray-800" && BadgeColor(p) != DefaultColor
  {
    assert "bg-gray-200 text-gray-800"[8] != DefaultColor[8];
  }

  /** The page a click on a post opens: a meeting post its meeting page, any other
      community post the board's post page, an item its item page. */
  function PostRoute(p: Post): (r: string)
    ensures p.postType == ItemPost ==> r == "/items/" + p.id
    ensures p.postType == CommunityPost && p.category == "모임방" ==> r == "/meetings/" + p.id
    ensures p.postType == CommunityPost && p.category != "모임방" ==> r == "/community/post/" + p.id
  {
    if p.postType == CommunityPost then
      if p.category == "모임방" then "/meetings/" + p.id else "/community/post/" + p.id
    else "/items/" + p.id
  }

  /** The three destinations a post can have. */
  datatype Destination = MeetingPage | BoardPage | ItemPage

  function DestinationOf(p: Post): Destination {
    if p.postType == ItemPost then ItemPage
    else if p.category == "모임방" then MeetingPage
    else BoardPage
  }

  lemma {:induction false} PrefixCancels(x: string, y: string, u: string)
    requires u + x == u + y
    ensures x == y
  {
    assert x == (u + x)[|u|..];
    assert y == (u + y)[|u|..];
  }

  /** The address opened tells the destination and the id apart: two posts that
      open the same page are the same post of the same kind. */
  lemma PostRouteInjective(a: Post, b: Post)
    requires PostRoute(a) == PostRoute(b)
    ensures DestinationOf(a) == DestinationOf(b) && a.id == b.id
  {
    var r := PostRoute(a);
    assert r[1] == PostRoute(b)[1];
    if DestinationOf(a) == DestinationOf(b) {
      if DestinationOf(a) == ItemPage {
        PrefixCancels(a.id, b.id, "/items/");
      } else if DestinationOf(a) == MeetingPage {
        PrefixCancels(a.id, b.id, "/meetings/");
      } else {
        PrefixCancels(a.id, b.id, "/community/post/");
      }
    }
  }

  /** The session-storage keys of the saved scroll positions: a community post
      saves the board's, an item the home feed's, which the home page reads
      back when it mounts. */
  const CommunityScrollKey: string := "communityScrollPosition"
  const HomeScrollKey: string := "homeScrollPosition"

  function ScrollKey(p: Post): (k: string)
    ensures k == HomeScrollKey <==> p.postType.ItemPost?
  {
    assert CommunityScrollKey[0] != HomeScrollKey[0];
    if p.postType == CommunityPost then CommunityScrollKey else HomeScrollKey
  }

  /** `onClick` on a post: it saves the scroll position `window.scrollY` in
      session storage and opens the post's page. The opened address names the
      post: no other kind or id opens it. */
  function OpenPost(p: Post, scrollY: nat, session: map<string, string>): (r: (map<string, string>, seq<Effect<()>>))
    ensures r.0.Keys == session.Keys + {ScrollKey(p)}
    ensures forall k :: k in session && k != ScrollKey(p) ==> r.0[k] == session[k]
    ensures AllDigits(r.0[ScrollKey(p)]) && DecimalValue(r.0[ScrollKey(p)]) == scrollY
    ensures |r.1| == 1 && NoRequest(r.1) && NoLogin(r.1) && r.1[0] == Navigate(Path(PostRoute(p)))
    ensures forall q :: PostRoute(q) == r.1[0].route.path ==> DestinationOf(q) == DestinationOf(p) && q.id == p.id
  {
    RouteNamesPost(p);
    DecimalRoundTrip(scrollY);
    (session[ScrollKey(p) := NatToDecimal(scrollY)], [Navigate(Path(PostRoute(p)))])
  }

  lemma RouteNamesPost(p: Post)
    ensures forall q :: PostRoute(q) == PostRoute(p) ==> DestinationOf(q) == DestinationOf(p) && q.id == p.id
  {
    forall q | PostRoute(q) == PostRoute(p)
      ensures DestinationOf(q) == DestinationOf(p) && q.id == p.id
    {
      PostRouteInjective(q, p);
    }
  }

  /** What the page draws. `Blank` is the nothing it renders while the sign-in is
      loading or without a visitor. */
  datatype View = Blank | Spinner | ErrorNotice | PostList(posts: seq<Post>)

  /** The three lists' query states. */
  datatype QueryState = QueryState(loading: bool, error: bool, data: seq<Post>)

  /** The page's render: a spinner while any list loads, the error notice when
      any failed, and the merged list otherwise. */
  function Render(authLoading: bool, signedIn: bool, community: QueryState, meeting: QueryState, items: QueryState): (v: View)
    ensures authLoading || !signedIn <==> v == Blank
    ensures v == Spinner <==> !authLoading && signedIn && (community.loading || meeting.loading || items.loading)
    ensures v.PostList? ==> v.posts == AllPosts(community.data, meeting.data, items.data)
  {
    if authLoading || !signedIn then Blank
    else if community.loading || meeting.loading || items.loading then Spinner
    else if community.error || meeting.error || items.error then ErrorNotice
    else PostList(AllPosts(community.data, meeting.data, items.data))
  }

  /** The list is shown only when all three lists finished without error; one
      failed list hides the other two. */
  lemma ListOnlyWhenAllSucceed(authLoading: bool, signedIn: bool, community: QueryState, meeting: QueryState, items: QueryState)
    ensures Render(authLoading, signedIn, community, meeting, items).PostList? <==>
      !authLoading && signedIn &&
      !community.loading && !meeting.loading && !items.loading &&
      !community.error && !meeting.error && !items.error
  {
  }
}

=== FILE: nickname.dfy ===
/**
  The nickname step of sign-up, written for `/auth/nickname`, a path the
  router does not serve (App.tsx routes no path to this page). A visitor arrives from the
  identity provider with a token and a profile, picks a nickname, asks the
  server whether it is free, and moves on to the completion step. The page
  never signs anyone in: it keeps the token in local storage and forwards the
  pending account in the address of the next step.
*/
module Nickname {
  import opened Base
  import opened Strings
  import opened Users
  import opened Effects
  import opened Session

  /** The tri-state `isAvailable`: `null`, `true` or `false`. */
  datatype Availability = Unknown | Available | Unavailable

  datatype NicknameState = NicknameState(
    username: string,
    availability: Availability,
    message: string,
    token: Option<string>,
    userData: Option<User>,
    checking: bool,
    loading: bool)

  /** The requests this page sends. */
  datatype NicknameRequest =
    | CheckUsername(username: string)
    | UpdateUsername(token: string, username: string)

  /** The answer to an availability check: an ok response with its `available` flag
      and message, a refusal with its `error` text, or a failed fetch. */
  datatype CheckResponse = Answer(available: bool, text: string) | Refused(error: string) | CheckFailed

  /** The answer to the update request: the updated profile, a refusal with its
      `error` text, or an exception with its message. */
  datatype UpdateResponse = Updated(user: User) | UpdateRefused(error: string) | UpdateFailed(reason: string)

  /** The page's state after the mount effect: the page state, local storage and what was done. */
  datatype Arrival = Arrival(state: NicknameState, storage: map<string, string>, effects: seq<Effect<NicknameRequest>>)

  const Initial: NicknameState := NicknameState("", Unknown, "", None, None, false, false)

  const AvailableText: string := "사용 가능한 닉네임입니다"
  const BlankText: string := "닉네임을 입력해주세요."
  const FormatText: string := "한글, 영문, 숫자만 사용 가능하며 8자 이내여야 합니다."
  const RefusedText: string := "닉네임 확인에 실패했습니다."
  const CheckFailedText: string := "닉네임 확인 중 오류가 발생했습니다."

  /** A profile that already carries a name of its own, not the provider's
      "kakao_…" placeholder. */
  predicate HasChosenName(u: User) {
    u.username != "" && !StartsWith(u.username, "kakao_")
  }

  predicate HasToken(st: NicknameState) {
    st.token.Some? && st.token.value != ""
  }

  /** The mount effect. With both query parameters present it keeps the pair
      without signing in, stores the token, and prefills a chosen name as
      available; a profile that does not parse sends the visitor to sign-in.
      Without them it falls back to a stored token, or to sign-in. */
  function Arrive(storage: map<string, string>, tokenParam: string, param: UserParam): (r: Arrival)
    ensures NoLogin(r.effects) && NoRequest(r.effects)
    ensures r.storage.Keys == storage.Keys || r.storage.Keys == storage.Keys + {TokenKey}
    ensures forall k :: k in storage && k != TokenKey ==> k in r.storage && r.storage[k] == storage[k]
    ensures tokenParam != "" && param.Parsed? ==>
      TokenKey in r.storage && r.storage[TokenKey] == tokenParam && r.state.token == Some(tokenParam) && r.state.userData == Some(param.user)
    ensures r.state.availability.Available? <==> tokenParam != "" && param.Parsed? && HasChosenName(param.user)
    ensures r.state.availability.Available? ==>
      r.state.username == param.user.username && r.state.message == AvailableText
    ensures r.effects != [] <==> r.state.token.None?
    ensures r.effects != [] ==> r.effects == [Navigate(Path(LoginPage))]
    ensures r.effects != [] <==>
      (tokenParam != "" && param.Malformed?) || ((tokenParam == "" || param.Absent?) && !Stored(storage, TokenKey))
  {
    if tokenParam != "" && !param.Absent? then
      match param
      case Malformed => Arrival(Initial, storage, [Navigate(Path(LoginPage))])
      case Parsed(u) =>
        var st := Initial.(token := Some(tokenParam), userData := Some(u));
        var st' := if HasChosenName(u) then st.(username := u.username, availability := Available, message := AvailableText) else st;
        Arrival(st', storage[TokenKey := tokenParam], [])
    else if Stored(storage, TokenKey) then
      Arrival(Initial.(token := Some(storage[TokenKey])), storage, [])
    else
      Arrival(Initial, storage, [Navigate(Path(LoginPage))])
  }

  /** Any edit of the field forgets the last check. */
  function HandleUsernameChange(st: NicknameState, value: string): (r: NicknameState)
    ensures r.username == value && r.availability.Unknown? && r.message == ""
    ensures r.token == st.token && r.userData == st.userData && r.checking == st.checking && r.loading == st.loading
  {
    st.(username := value, availability := Unknown, message := "")
  }

  /** A character of the class `[가-힣a-zA-Z0-9]`. */
  predicate NicknameChar(c: char) {
    IsHangul(c) || IsAsciiUpper(c) || IsAsciiLower(c) || IsDigit(c)
  }

  /** The accepted nicknames: one to eight characters of that class. */
  predicate ValidNickname(s: string) {
    1 <= |s| <= 8 && forall i :: 0 <= i < |s| ==> NicknameChar(s[i])
  }

  /** The matcher of `[class]{min,max}$` at the front of `s`, one character per step. */
  function MatchRepeat(s: string, min: nat, max: nat): bool
    decreases |s|
  {
    if s == [] then min == 0
    else if max == 0 then false
    else NicknameChar(s[0]) && MatchRepeat(s[1..], if min > 0 then min - 1 else 0, max - 1)
  }

  /** `/^[가-힣a-zA-Z0-9]{1,8}$/.test(s)`. */
  function PatternTest(s: string): bool {
    MatchRepeat(s, 1, 8)
  }

  lemma {:induction false} MatchRepeatMeaning(s: string, min: nat, max: nat)
    ensures MatchRepeat(s, min, max) <==> min <= |s| <= max && forall i :: 0 <= i < |s| ==> NicknameChar(s[i])
    decreases |s|
  {
    if s != [] && max != 0 {
      MatchRepeatMeaning(s[1..], if min > 0 then min - 1 else 0, max - 1);
      assert forall i :: 1 <= i < |s| ==> s[i] == s[1..][i - 1];
    }
  }

  /** The regular expression accepts exactly the valid nicknames. */
  lemma PatternTestMeaning(s: string)
    ensures PatternTest(s) <==> ValidNickname(s)
  {
    MatchRepeatMeaning(s, 1, 8);
  }

  /** A valid nickname holds no white space, so it is never blank. */
  lemma ValidIsNotBlank(s: string)
    requires ValidNickname(s)
    ensures !IsBlank(s)
  {
    assert !IsSpace(s[0]);
  }

  /** `checkUsernameAvailability`: a blank or malformed name is marked unavailable
      on the spot; only a valid one is sent to the server. */
  function CheckAvailability(st: NicknameState): (r: (NicknameState, seq<Effect<NicknameRequest>>))
    ensures r.1 != [] <==> ValidNickname(st.username)
    ensures r.1 != [] ==> r.1 == [Send(CheckUsername(st.username))] && r.0 == st.(checking := true)
    ensures r.1 == [] ==> r.0.availability.Unavailable? && r.0.checking == st.checking
    ensures IsBlank(st.username) ==> r.0.message == BlankText
    ensures !IsBlank(st.username) && !ValidNickname(st.username) ==> r.0.message == FormatText
    ensures r.0.username == st.username && r.0.token == st.token && r.0.userData == st.userData
  {
    PatternTestMeaning(st.username);
    if IsBlank(st.username) then
      (st.(message := BlankText, availability := Unavailable), [])
    else if !PatternTest(st.username) then
      (st.(message := FormatText, availability := Unavailable), [])
    else
      (st.(checking := true), [Send(CheckUsername(st.username))])
  }

  /** Whether the check button can be pressed. */
  predicate CheckEnabled(st: NicknameState) {
    !st.checking && !IsBlank(st.username)
  }

  /** The response handler as written: the answer is applied to whatever name is
      in the field when it arrives. */
  function ApplyCheckResponse(st: NicknameState, resp: CheckResponse): (r: NicknameState)
    ensures !r.checking && r.username == st.username
    ensures r.availability.Available? <==> resp.Answer? && resp.available
    ensures resp.Refused? ==> r.message == OrElse(resp.error, RefusedText) && r.message != ""
    ensures resp.CheckFailed? ==> r.message == CheckFailedText
  {
    match resp
    case Answer(available, text) =>
      st.(availability := if available then Available else Unavailable, message := text, checking := false)
    case Refused(error) =>
      st.(availability := Unavailable, message := OrElse(error, RefusedText), checking := false)
    case CheckFailed =>
      st.(availability := Unavailable, message := CheckFailedText, checking := false)
  }

  /** The response handler with the check it needs: an answer about `checked` is
      applied only while the field still holds `checked`. */
  function ApplyCheckResponseFor(st: NicknameState, checked: string, resp: CheckResponse): (r: NicknameState)
    ensures !r.checking && r.username == st.username
    ensures st.username == checked ==> r == ApplyCheckResponse(st, resp)
    ensures st.username != checked ==> r == st.(checking := false)
    ensures r.availability.Available? ==> st.availability.Available? || (st.username == checked && resp.Answer? && resp.available)
  {
    if st.username == checked then ApplyCheckResponse(st, resp) else st.(checking := false)
  }

  /** `handleSubmit`: requires a confirmed name and a token; a chosen name that
      was not changed skips the update request and goes straight on. */
  function Submit(st: NicknameState): (r: (NicknameState, seq<Effect<NicknameRequest>>))
    ensures NoLogin(r.1) && r.1 != []
    ensures Requests(r.1) != [] <==>
      st.availability.Available? && HasToken(st) && !(st.userData.Some? && AlreadySet(st.userData.value, st.username))
    ensures Requests(r.1) != [] ==> r.1 == [Send(UpdateUsername(st.token.value, st.username))] && r.0 == st.(loading := true)
    ensures Requests(r.1) == [] ==> r.0 == st
    ensures !st.availability.Available? ==> r.1 == [Toast("닉네임 확인 필요", "사용 가능한 닉네임을 확인해주세요.")]
    ensures st.availability.Available? && !HasToken(st) ==>
      r.1 == [Toast("인증 오류", "로그인 정보를 찾을 수 없습니다."), Navigate(Path(LoginPage))]
    ensures st.availability.Available? && HasToken(st) && st.userData.Some? && AlreadySet(st.userData.value, st.username) ==>
      r.1 == [Navigate(WithCredentials(CompleteRegistrationPage, st.token.value, st.userData.value))]
  {
    if !st.availability.Available? then
      (st, [Toast("닉네임 확인 필요", "사용 가능한 닉네임을 확인해주세요.")])
    else if !HasToken(st) then
      (st, [Toast("인증 오류", "로그인 정보를 찾을 수 없습니다."), Navigate(Path(LoginPage))])
    else if st.userData.Some? && AlreadySet(st.userData.value, st.username) then
      (st, [Navigate(WithCredentials(CompleteRegistrationPage, st.token.value, st.userData.value))])
    else
      (st.(loading := true), [Send(UpdateUsername(st.token.value, st.username))])
  }

  /** The incoming profile already has the typed name as its own. */
  predicate AlreadySet(u: User, typed: string) {
    HasChosenName(u) && u.username == typed
  }

  /** The end of `handleSubmit` once the update request settles. */
  function ApplyUpdateResponse(st: NicknameState, token: string, resp: UpdateResponse): (r: (NicknameState, seq<Effect<NicknameRequest>>))
    ensures !r.0.loading && NoLogin(r.1) && NoRequest(r.1) && |r.1| == 1
    ensures resp.Updated? ==> r.1[0] == Navigate(WithCredentials(CompleteRegistrationPage, token, resp.user))
    ensures !resp.Updated? ==> r.1[0].Toast? && r.1[0].title == "닉네임 설정 실패" && r.1[0].description != ""
    ensures resp.UpdateRefused? ==> r.1[0].description == OrElse(resp.error, "닉네임 설정에 실패했습니다.")
  {
    match resp
    case Updated(u) => (st.(loading := false), [Navigate(WithCredentials(CompleteRegistrationPage, token, u))])
    case UpdateRefused(error) =>
      (st.(loading := false), [Toast("닉네임 설정 실패", OrElse(error, "닉네임 설정에 실패했습니다."))])
    case UpdateFailed(reason) =>
      (st.(loading := false), [Toast("닉네임 설정 실패", OrElse(reason, "다시 시도해주세요."))])
  }

  /** Whether the "다음" button can be pressed. */
  predicate SubmitEnabled(st: NicknameState) {
    st.availability.Available? && !st.loading
  }

  /** After any edit nothing can be submitted until a new check answers. */
  lemma EditBlocksSubmit(st: NicknameState, value: string)
    ensures !SubmitEnabled(HandleUsernameChange(st, value))
    ensures Submit(HandleUsernameChange(st, value)).1 == [Toast("닉네임 확인 필요", "사용 가능한 닉네임을 확인해주세요.")]
    ensures Requests(Submit(HandleUsernameChange(st, value)).1) == []
  {
  }

  /** A visitor whose profile already carries a chosen name can go on at once:
      the name is prefilled as available and submitting it sends no update
      request, only the forward to the completion step with the same pair. */
  lemma PrefilledNameSkipsUpdate(storage: map<string, string>, token: string, u: User)
    requires token != "" && HasChosenName(u)
    ensures var st := Arrive(storage, token, Parsed(u)).state;
      SubmitEnabled(st) && Submit(st).1 == [Navigate(WithCredentials(CompleteRegistrationPage, token, u))]
  {
  }

  /** A placeholder name is never prefilled, so the visitor must check a name
      before anything is sent. */
  lemma PlaceholderNameNeedsCheck(storage: map<string, string>, token: string, u: User)
    requires token != "" && !HasChosenName(u)
    ensures var st := Arrive(storage, token, Parsed(u)).state;
      !SubmitEnabled(st) && Requests(Submit(st).1) == []
  {
  }

  /** The page as a sequence of user actions and server answers, with a record of
      which name the server last confirmed as free. */
  datatype Event = Edit(value: string) | PressCheck | Respond(resp: CheckResponse)

  datatype Policy = AsWritten | Guarded

  datatype Page = Page(st: NicknameState, inFlight: Option<string>, confirmed: Option<string>)

  function Step(p: Page, e: Event, policy: Policy): Page {
    match e
    case Edit(v) => p.(st := HandleUsernameChange(p.st, v))
    case PressCheck =>
      if !CheckEnabled(p.st) then p
      else
        var (st', es) := CheckAvailability(p.st);
        p.(st := st', inFlight := if es != [] then Some(p.st.username) else p.inFlight)
    case Respond(resp) =>
      match p.inFlight
      case None => p
      case Some(checked) =>
        var st' := if policy.Guarded? then ApplyCheckResponseFor(p.st, checked, resp) else ApplyCheckResponse(p.st, resp);
        var confirmed' := if resp.Answer? && resp.available then Some(checked) else p.confirmed;
        Page(st', None, confirmed')
  }

  function Run(p: Page, es: seq<Event>, policy: Policy): Page
    decreases |es|
  {
    if es == [] then p else Run(Step(p, es[0], policy), es[1..], policy)
  }

  /** The field is marked available only for the name the server last confirmed,
      and never while an answer about some other name is awaited. */
  predicate Sound(p: Page) {
    && (p.st.availability.Available? ==> p.confirmed == Some(p.st.username))
    && (p.inFlight.Some? && p.inFlight.value != p.st.username ==> !p.st.availability.Available?)
  }

  /** The page as the mount effect leaves it. */
  function Start(a: Arrival): (p: Page)
    ensures Sound(p)
  {
    Page(a.state, None, if a.state.availability.Available? then Some(a.state.username) else None)
  }

  lemma GuardedStepSound(p: Page, e: Event)
    requires Sound(p)
    ensures Sound(Step(p, e, Guarded))
  {
  }

  /** With the guarded handler, no sequence of edits, checks and answers ever
      shows an unconfirmed name as available. */
  lemma {:induction false} GuardedRunSound(p: Page, es: seq<Event>)
    requires Sound(p)
    ensures Sound(Run(p, es, Guarded))
    decreases |es|
  {
    if es != [] {
      GuardedStepSound(p, es[0]);
      GuardedRunSound(Step(p, es[0], Guarded), es[1..]);
    }
  }

  /** Running two sequences of events one after the other is running their
      concatenation. */
  lemma {:induction false} RunAppend(p: Page, a: seq<Event>, b: seq<Event>, policy: Policy)
    ensures Run(p, a + b, policy) == Run(Run(p, a, policy), b, policy)
    decreases |a|
  {
    if a == [] {
      assert a + b == b;
    } else {
      assert (a + b)[0] == a[0] && (a + b)[1..] == a[1..] + b;
      RunAppend(Step(p, a[0], policy), a[1..], b, policy);
    }
  }

  lemma RunThree(p: Page, e1: Event, e2: Event, e3: Event, policy: Policy)
    ensures Run(p, [e1, e2, e3], policy) == Step(Step(Step(p, e1, policy), e2, policy), e3, policy)
  {
    var es := [e1, e2, e3];
    var p1 := Step(p, e1, policy);
    var p2 := Step(p1, e2, policy);
    assert es[1..] == [e2, e3] && es[1..][1..] == [e3] && [e3][1..] == [];
    assert Run(p2, [e3], policy) == Step(p2, e3, policy);
    assert Run(p1, [e2, e3], policy) == Run(p2, [e3], policy);
  }

  /** Pressing the check button with a valid name puts that name in flight. */
  lemma CheckPutsNameInFlight(st: NicknameState)
    requires ValidNickname(st.username) && !st.checking
    ensures Step(Page(st, None, None), PressCheck, AsWritten) == Page(st.(checking := true), Some(st.username), None)
  {
    ValidIsNotBlank(st.username);
  }

  /** A submit with a name marked available, a token and no incoming profile
      sends the update for that name. */
  lemma SubmitSendsUpdate(st: NicknameState)
    requires st.availability.Available? && HasToken(st) && st.userData.None?
    ensures Requests(Submit(st).1) == [UpdateUsername(st.token.value, st.username)]
  {
  }

  /** As written, an answer about a valid name `a` that arrives after the field
      was changed to some other `b` marks `b` available although `b` was never
      checked, and the submit then sends `b`. For instance `a` = "abc" and
      `b` = "abd". */
  lemma StaleAnswerAccepted(st: NicknameState, a: string, b: string)
    requires ValidNickname(a) && a != b
    requires st.username == a && st.availability.Unknown? && !st.checking && HasToken(st) && st.userData.None?
    ensures var p := Page(st, None, None);
      var q := Run(p, [PressCheck, Edit(b), Respond(Answer(true, AvailableText))], AsWritten);
      Sound(p) && !Sound(q) && q.st.username == b && q.confirmed == Some(a)
      && Requests(Submit(q.st).1) == [UpdateUsername(st.token.value, b)]
  {
    var p := Page(st, None, None);
    RunThree(p, PressCheck, Edit(b), Respond(Answer(true, AvailableText)), AsWritten);
    CheckPutsNameInFlight(st);
    var p2 := Page(HandleUsernameChange(st.(checking := true), b), Some(a), None);
    assert Step(Page(st.(checking := true), Some(a), None), Edit(b), AsWritten) == p2;
    var p3 := Page(ApplyCheckResponse(p2.st, Answer(true, AvailableText)), None, Some(a));
    assert Step(p2, Respond(Answer(true, AvailableText)), AsWritten) == p3;
    SubmitSendsUpdate(p3.st);
  }
}

=== FILE: post_forms.dfy ===
/**
  The four post forms of the community board: a new board post
  (`/community/create` or `/community-create`), an edited post
  (`/community/post/:id/edit`), a new meeting
  post (`/meetings/create`) and an edited meeting post (`/meetings/:id/edit`).
  Each checks its fields in a fixed order before it sends, shapes the request
  body, and turns a failed request into a message. The board pages also hold
  a photo upload handler with a five-photo cap, modelled below, although no
  element of either page calls it.
  The pages draw nothing without a signed-in visitor, so every submit here takes
  the visitor as a plain `User`.
*/
module PostForms {
  import opened Base
  import opened Strings
  import opened Users
  import opened Effects
  import ItemImages

  const BoardCategory: string := "자유게시판"
  const MeetingCategory: string := "모임방"

  /** The photo limit of a post. */
  const MaxImages: nat := 5

  /** The fields a post form holds. A field the form leaves undefined is "". */
  datatype PostForm = PostForm(
    title: string,
    content: string,
    category: string,
    country: string,
    school: string,
    semester: string,
    openChatLink: string)

  /** The body of a create or update request; `None` is a field sent as `undefined`. */
  datatype PostPayload = PostPayload(
    title: string,
    content: string,
    category: string,
    country: string,
    school: string,
    images: seq<string>,
    semester: Option<string>,
    openChatLink: Option<string>)

  /** The requests the forms send: a new board post, a new meeting post, and an
      update of a stored post (both kinds are updated at the same address). */
  datatype PostRequest =
    | CreateBoardPost(payload: PostPayload)
    | CreateMeetingPost(payload: PostPayload)
    | UpdatePost(postId: string, payload: PostPayload)

  /** The form before any typing: the page's category, the country "전체" and
      the visitor's school. */
  function Defaults(category: string, user: Option<User>): (f: PostForm)
    ensures f.title == "" && f.content == "" && f.category == category && f.country == "전체"
    ensures f.school == (if user.Some? then user.value.school else "")
  {
    PostForm("", "", category, "전체", if user.Some? then user.value.school else "", "", "")
  }

  // ---- Ordered required-field checks ----

  /** One required field: whether it is blank (`!value?.trim()`) and the warning
      shown when it is. */
  datatype Check = Check(blank: bool, title: string, description: string)

  predicate Filled(c: Check) {
    !c.blank
  }

  predicate AllFilled(checks: seq<Check>) {
    forall i :: 0 <= i < |checks| ==> Filled(checks[i])
  }

  function Warning(c: Check): Effect<PostRequest> {
    Toast(c.title, c.description)
  }

  /** The checks of `onSubmit`, in order: the warning of the first blank field,
      or nothing when every field is filled in. */
  function Validate(checks: seq<Check>): (r: Option<Effect<PostRequest>>)
    ensures r.None? <==> AllFilled(checks)
    ensures r.Some? ==> exists k :: 0 <= k < |checks| && !Filled(checks[k]) && r.value == Warning(checks[k]) && AllFilled(checks[..k])
  {
    if checks == [] then None
    else if !Filled(checks[0]) then
      assert AllFilled(checks[..0]);
      Some(Warning(checks[0]))
    else
      var r := Validate(checks[1..]);
      if r.Some? then
        var k :| 0 <= k < |checks[1..]| && !Filled(checks[1..][k]) && r.value == Warning(checks[1..][k]) && AllFilled(checks[1..][..k]);
        assert checks[..k + 1] == [checks[0]] + checks[1..][..k];
        r
      else
        assert checks == [checks[0]] + checks[1..];
        r
  }

  lemma ValidateStep(checks: seq<Check>)
    requires checks != []
    ensures Validate(checks) == if checks[0].blank then Some(Warning(checks[0])) else Validate(checks[1..])
  {
  }

  function TitleCheck(f: PostForm): Check { Check(IsBlank(f.title), "제목을 입력해주세요", "제목은 필수 항목입니다.") }
  function ContentCheck(f: PostForm): Check { Check(IsBlank(f.content), "내용을 입력해주세요", "내용은 필수 항목입니다.") }
  function CountryCheck(f: PostForm): Check { Check(IsBlank(f.country), "국가를 선택해주세요", "국가는 필수 항목입니다.") }

  /** Board posts need a title, a content and a country, in that order. */
  function BoardChecks(f: PostForm): seq<Check> {
    [TitleCheck(f), ContentCheck(f), CountryCheck(f)]
  }

  /** Meeting posts need a title and a content; the country may stay empty. */
  function MeetingChecks(f: PostForm): seq<Check> {
    [TitleCheck(f), ContentCheck(f)]
  }

  /** The board checks warn about the first blank of title, content and country. */
  lemma BoardChecksOrder(f: PostForm)
    ensures var r := Validate(BoardChecks(f));
      && (r.None? <==> !IsBlank(f.title) && !IsBlank(f.content) && !IsBlank(f.country))
      && (IsBlank(f.title) ==> r == Some(Toast("제목을 입력해주세요", "제목은 필수 항목입니다.")))
      && (!IsBlank(f.title) && IsBlank(f.content) ==> r == Some(Toast("내용을 입력해주세요", "내용은 필수 항목입니다.")))
      && (!IsBlank(f.title) && !IsBlank(f.content) && IsBlank(f.country) ==>
            r == Some(Toast("국가를 선택해주세요", "국가는 필수 항목입니다.")))
  {
    var cs := BoardChecks(f);
    ValidateStep(cs);
    ValidateStep(cs[1..]);
    ValidateStep(cs[2..]);
    assert cs[3..] == [];
  }

  /** The meeting checks warn about the first blank of title and content only. */
  lemma MeetingChecksOrder(f: PostForm)
    ensures var r := Validate(MeetingChecks(f));
      && (r.None? <==> !IsBlank(f.title) && !IsBlank(f.content))
      && (IsBlank(f.title) ==> r == Some(Toast("제목을 입력해주세요", "제목은 필수 항목입니다.")))
      && (!IsBlank(f.title) && IsBlank(f.content) ==> r == Some(Toast("내용을 입력해주세요", "내용은 필수 항목입니다.")))
  {
    var cs := MeetingChecks(f);
    ValidateStep(cs);
    ValidateStep(cs[1..]);
    assert cs[2..] == [];
  }

  /** `onSubmit`: the first warning, or the request. */
  function Submit(checks: seq<Check>, request: PostRequest): (r: seq<Effect<PostRequest>>)
    ensures |r| == 1 && NoLogin(r)
    ensures NoRequest(r) <==> !AllFilled(checks)
    ensures !NoRequest(r) ==> r == [Send(request)]
  {
    var v := Validate(checks);
    if v.Some? then [v.value]
    else
      var r := [Send(request)];
      assert r[0].Send?;
      r
  }

  // ---- Request bodies ----

  /** The new board post: the category is always the free board, no semester or
      chat link is sent, and an empty country or school falls back to the
      visitor's. */
  function BoardPayload(f: PostForm, user: User, images: seq<string>): (p: PostPayload)
    ensures p.category == BoardCategory && p.semester.None? && p.openChatLink.None?
    ensures p.title == f.title && p.content == f.content && p.images == images
    ensures p.country == (if f.country != "" then f.country else user.country)
    ensures p.school == (if f.school != "" then f.school else user.school)
  {
    PostPayload(f.title, f.content, BoardCategory, OrElse(f.country, user.country),
                OrElse(f.school, user.school), images, None, None)
  }

  /** An edited board post keeps the form's category; only a meeting post sends
      its semester and chat link. */
  function EditedPayload(f: PostForm, images: seq<string>): (p: PostPayload)
    ensures p.semester.Some? <==> f.category == MeetingCategory
    ensures p.openChatLink.Some? <==> f.category == MeetingCategory
    ensures p.semester.Some? ==> p.semester.value == f.semester
    ensures p.openChatLink.Some? ==> p.openChatLink.value == f.openChatLink
    ensures p.title == f.title && p.content == f.content && p.category == f.category
    ensures p.country == f.country && p.school == f.school && p.images == images
  {
    var meeting := f.category == MeetingCategory;
    PostPayload(f.title, f.content, f.category, f.country, f.school, images,
                if meeting then Some(f.semester) else None,
                if meeting then Some(f.openChatLink) else None)
  }

  /** A meeting post, new or edited: always a meeting, never with photos, and the
      school falls back to the visitor's. */
  function MeetingPayload(f: PostForm, user: User): (p: PostPayload)
    ensures p.category == MeetingCategory && p.images == []
    ensures p.semester == Some(f.semester) && p.openChatLink == Some(f.openChatLink)
    ensures p.title == f.title && p.content == f.content && p.country == f.country
    ensures p.school == (if f.school != "" then f.school else user.school)
  {
    PostPayload(f.title, f.content, MeetingCategory, OrElse(f.country, ""), OrElse(f.school, user.school),
                [], Some(f.semester), Some(f.openChatLink))
  }

  // ---- The four submits ----

  function SubmitBoardPost(f: PostForm, user: User, images: seq<string>): (r: seq<Effect<PostRequest>>)
    ensures !NoRequest(r) <==> !IsBlank(f.title) && !IsBlank(f.content) && !IsBlank(f.country)
    ensures !NoRequest(r) ==> r == [Send(CreateBoardPost(BoardPayload(f, user, images)))]
  {
    BoardChecksOrder(f);
    Submit(BoardChecks(f), CreateBoardPost(BoardPayload(f, user, images)))
  }

  function SubmitEditedPost(f: PostForm, postId: string, images: seq<string>): (r: seq<Effect<PostRequest>>)
    ensures !NoRequest(r) <==> !IsBlank(f.title) && !IsBlank(f.content) && !IsBlank(f.country)
    ensures !NoRequest(r) ==> r == [Send(UpdatePost(postId, EditedPayload(f, images)))]
  {
    BoardChecksOrder(f);
    Submit(BoardChecks(f), UpdatePost(postId, EditedPayload(f, images)))
  }

  /** The chat link message of the meeting form's schema, which rejects an empty
      link before `onSubmit` runs. */
  const NoChatLinkText: string := "오픈채팅 주소를 입력해주세요."

  /** The toast of the header button when `form.trigger()` finds a schema error. */
  function SchemaErrorToast(): Effect<PostRequest> {
    Toast("입력 오류", "필수 항목을 모두 입력해주세요.")
  }

  /** The new meeting post, sent from the header button: the schema's
      chat-link rule first (a message under the field and the input-error
      toast), then the title and content checks. */
  function SubmitMeetingPost(f: PostForm, user: User): (r: (Option<string>, seq<Effect<PostRequest>>))
    ensures r.0.Some? <==> f.openChatLink == ""
    ensures r.0.Some? ==> r.0.value == NoChatLinkText && r.1 == [SchemaErrorToast()]
    ensures !NoRequest(r.1) <==> f.openChatLink != "" && !IsBlank(f.title) && !IsBlank(f.content)
    ensures !NoRequest(r.1) ==> r.1 == [Send(CreateMeetingPost(MeetingPayload(f, user)))]
  {
    if f.openChatLink == "" then
      SchemaErrorSendsNothing();
      (Some(NoChatLinkText), [SchemaErrorToast()])
    else
      MeetingChecksOrder(f);
      (None, Submit(MeetingChecks(f), CreateMeetingPost(MeetingPayload(f, user))))
  }

  lemma SchemaErrorSendsNothing()
    ensures NoRequest([SchemaErrorToast()]) && NoLogin([SchemaErrorToast()])
  {
    var toast := [SchemaErrorToast()];
    assert !toast[0].Send? && !toast[0].LogIn?;
  }

  /** The edited meeting post: no chat-link rule, title and content checks only. */
  function SubmitEditedMeeting(f: PostForm, postId: string, user: User): (r: seq<Effect<PostRequest>>)
    ensures !NoRequest(r) <==> !IsBlank(f.title) && !IsBlank(f.content)
    ensures !NoRequest(r) ==> r == [Send(UpdatePost(postId, MeetingPayload(f, user)))]
  {
    MeetingChecksOrder(f);
    Submit(MeetingChecks(f), UpdatePost(postId, MeetingPayload(f, user)))
  }

  /** A meeting post sent from either meeting form carries a chat link the
      visitor typed or kept; a new one never carries an empty link. */
  lemma NewMeetingHasChatLink(f: PostForm, user: User)
    ensures var r := SubmitMeetingPost(f, user).1;
      forall i :: 0 <= i < |r| && r[i].Send? ==>
        r[i].request.payload.openChatLink.Some? && r[i].request.payload.openChatLink.value != ""
  {
    var r := SubmitMeetingPost(f, user).1;
    SentCarriesLink(r, f.openChatLink, MeetingPayload(f, user));
  }

  /** Effects that either send nothing or send exactly one new meeting post
      with a non-empty chat link. */
  lemma SentCarriesLink(r: seq<Effect<PostRequest>>, link: string, p: PostPayload)
    requires p.openChatLink == Some(link)
    requires !NoRequest(r) ==> link != "" && r == [Send(CreateMeetingPost(p))]
    ensures forall i :: 0 <= i < |r| && r[i].Send? ==>
      r[i].request.payload.openChatLink.Some? && r[i].request.payload.openChatLink.value != ""
  {
  }

  // ---- Photos ----

  /** A picked file: its MIME type and the compressed image, `None` when the
      image does not decode. */
  datatype Upload = Upload(mime: string, compressed: Option<string>)

  /** The toasts of the new-post page around one image file (`announce`): the
      compression starts, and then it ends in success or in failure. */
  function Announced<R>(announce: bool, outcome: seq<Effect<R>>): seq<Effect<R>> {
    if announce then [Toast("이미지 처리 중", "고화질 이미지를 압축하고 있습니다...")] + outcome else outcome
  }

  /** The per-file loop as its `catch` intends it: non-images are skipped
      silently, an image that does not decode is reported and skipped, and each
      compressed image is appended. The new-post page also announces each
      image file (`announce`). */
  function AddFiles<R>(images: seq<string>, files: seq<Upload>, announce: bool): (r: (seq<string>, seq<Effect<R>>))
    ensures images <= r.0 && |r.0| <= |images| + |files|
    ensures NoRequest(r.1) && NoLogin(r.1)
    decreases |files|
  {
    if files == [] then (images, [])
    else
      var f := files[0];
      var (now, said) :=
        if !StartsWith(f.mime, "image/") then (images, [])
        else if f.compressed.None? then (images, Announced<R>(announce, [Toast("이미지 처리 실패", "이미지를 처리하는데 실패했습니다.")]))
        else if announce then
          (images + [f.compressed.value], Announced<R>(announce, [Toast("이미지 추가 완료", "이미지가 성공적으로 추가되었습니다.")]))
        else (images + [f.compressed.value], []);
      var rest := AddFiles<R>(now, files[1..], announce);
      (rest.0, said + rest.1)
  }

  /** An image file that does not decode: `compressImage` resolves only from
      `img.onload` and never rejects, so awaiting it never returns. */
  predicate Stalls(f: Upload) {
    StartsWith(f.mime, "image/") && f.compressed.None?
  }

  /** The index of the first file the loop waits at for good, or the batch's size. */
  function StallAt(files: seq<Upload>): (k: nat)
    ensures k <= |files|
    ensures forall i :: 0 <= i < k ==> !Stalls(files[i])
    ensures k < |files| ==> Stalls(files[k])
  {
    if files == [] then 0
    else if Stalls(files[0]) then 0
    else 1 + StallAt(files[1..])
  }

  /** The per-file loop as written: it waits at the first image that does not
      decode, after that file's "processing" toast, and never reaches the files
      after it nor `setIsUploading(false)`. The flag in the result tells whether
      the loop finished. */
  function AddFilesAsWritten<R>(images: seq<string>, files: seq<Upload>, announce: bool): (r: (seq<string>, seq<Effect<R>>, bool))
    ensures images <= r.0
    ensures NoRequest(r.1) && NoLogin(r.1)
    decreases |files|
  {
    if files == [] then (images, [], true)
    else
      var f := files[0];
      if Stalls(f) then (images, Announced<R>(announce, []), false)
      else
        var (now, said) :=
          if !StartsWith(f.mime, "image/") then (images, [])
          else if announce then
            (images + [f.compressed.value], Announced<R>(announce, [Toast("이미지 추가 완료", "이미지가 성공적으로 추가되었습니다.")]))
          else (images + [f.compressed.value], []);
        var rest := AddFilesAsWritten<R>(now, files[1..], announce);
        (rest.0, said + rest.1, rest.2)
  }

  /** The loop as written finishes exactly when no image of the batch fails to
      decode, and its photos are those the intended loop adds from the files
      before the first such image. */
  lemma {:induction false} AsWrittenStopsAtStall<R>(images: seq<string>, files: seq<Upload>, announce: bool)
    ensures var r := AddFilesAsWritten<R>(images, files, announce);
      && (r.2 <==> StallAt(files) == |files|)
      && r.0 == images + Compressed(files[..StallAt(files)])
    decreases |files|
  {
    if files == [] {
      assert files[..0] == [];
    } else if Stalls(files[0]) {
      assert files[..0] == [];
    } else {
      var f := files[0];
      var head := Compressed([f]);
      var k := StallAt(files);
      assert k == 1 + StallAt(files[1..]);
      AddFilesAsWrittenHead<R>(images, files, announce);
      AsWrittenStopsAtStall<R>(images + head, files[1..], announce);
      var done := files[1..][..k - 1];
      assert files[..k] == [f] + done;
      CompressedAppend([f], done);
      assert images + head + Compressed(done) == images + Compressed(files[..k]);
    }
  }

  /** One step of the loop as written, before the first stall. */
  lemma AddFilesAsWrittenHead<R>(images: seq<string>, files: seq<Upload>, announce: bool)
    requires files != [] && !Stalls(files[0])
    ensures var r := AddFilesAsWritten<R>(images, files, announce);
      var rest := AddFilesAsWritten<R>(images + Compressed([files[0]]), files[1..], announce);
      r.0 == rest.0 && r.2 == rest.2
  {
    var f := files[0];
    assert [f][1..] == [];
    if StartsWith(f.mime, "image/") {
      assert Compressed([f]) == [f.compressed.value];
    } else {
      assert Compressed([f]) == [];
      assert images + [] == images;
    }
  }

  lemma {:induction false} CompressedAppend(a: seq<Upload>, b: seq<Upload>)
    ensures Compressed(a + b) == Compressed(a) + Compressed(b)
    decreases |a|
  {
    if a == [] {
      assert a + b == b;
    } else {
      assert (a + b)[0] == a[0] && (a + b)[1..] == a[1..] + b;
      CompressedAppend(a[1..], b);
    }
  }

  /** A batch of an undecodable image followed by a good one: the loop as
      written adds nothing and never finishes; the intended loop reports the
      first and adds the second. */
  lemma StallDropsLaterPhotos()
    ensures var files := [Upload("image/heic", None), Upload("image/png", Some("data:image/jpeg;base64,AA"))];
      && AddFilesAsWritten<()>([], files, false) == ([], [], false)
      && AddFiles<()>([], files, false).0 == ["data:image/jpeg;base64,AA"]
  {
    var files := [Upload("image/heic", None), Upload("image/png", Some("data:image/jpeg;base64,AA"))];
    assert StartsWith("image/heic", "image/") && StartsWith("image/png", "image/");
    assert files[1..] == [files[1]] && files[1..][1..] == [];
  }

  /** `handleImageUpload`: a batch that would take the post past five photos is
      refused whole. */
  function UploadImages(images: seq<string>, files: seq<Upload>, announce: bool): (r: (seq<string>, seq<Effect<PostRequest>>))
    ensures NoRequest(r.1) && NoLogin(r.1)
    ensures files == [] ==> r == (images, [])
    ensures files != [] && |images| + |files| > MaxImages ==>
      r == (images, [Toast("이미지 업로드 제한", "최대 5장까지만 업로드할 수 있습니다.")])
    ensures images <= r.0
  {
    if files == [] then (images, [])
    else if |images| + |files| > MaxImages then (images, [Toast("이미지 업로드 제한", "최대 5장까지만 업로드할 수 있습니다.")])
    else AddFiles<PostRequest>(images, files, announce)
  }

  /** Starting from at most five photos, no upload and no removal ever leaves
      more than five. */
  lemma UploadKeepsLimit(images: seq<string>, files: seq<Upload>, announce: bool, index: int)
    requires |images| <= MaxImages
    ensures |UploadImages(images, files, announce).0| <= MaxImages
    ensures |ItemImages.RemoveAt(images, index)| <= MaxImages
  {
  }

  /** One step of the loop, as far as the photo list is concerned. */
  lemma AddFilesHead<R>(images: seq<string>, files: seq<Upload>, announce: bool)
    requires files != []
    ensures AddFiles<R>(images, files, announce).0 == AddFiles<R>(images + Compressed([files[0]]), files[1..], announce).0
  {
    var f := files[0];
    assert [f][1..] == [];
    if StartsWith(f.mime, "image/") && f.compressed.Some? {
      assert Compressed([f]) == [f.compressed.value];
    } else {
      assert Compressed([f]) == [];
      assert images + [] == images;
    }
  }

  /** Every photo the batch adds is a compressed image file of the batch, in the
      batch's order. */
  lemma {:induction false} AddedAreCompressedImages<R>(images: seq<string>, files: seq<Upload>, announce: bool)
    ensures var added := AddFiles<R>(images, files, announce).0[|images|..];
      added == Compressed(files)
    decreases |files|
  {
    if files != [] {
      var head := Compressed([files[0]]);
      var now := images + head;
      AddFilesHead<R>(images, files, announce);
      AddedAreCompressedImages<R>(now, files[1..], announce);
      assert [files[0]][1..] == [];
      assert Compressed(files) == head + Compressed(files[1..]);
      var all := AddFiles<R>(now, files[1..], announce).0;
      assert all[|images|..] == now[|images|..] + all[|now|..];
      assert now[|images|..] == head;
    }
  }

  /** The compressed images of the batch's image files, in order. */
  function Compressed(files: seq<Upload>): seq<string> {
    if files == [] then []
    else
      (if StartsWith(files[0].mime, "image/") && files[0].compressed.Some? then [files[0].compressed.value] else [])
      + Compressed(files[1..])
  }

  // ---- Loading a stored post into an edit form ----

  /** A post as the server stores it. A missing text field is "". */
  datatype StoredPost = StoredPost(
    authorId: string,
    title: string,
    content: string,
    category: string,
    country: string,
    school: string,
    images: Option<seq<string>>,
    semester: Option<string>,
    openChatLink: Option<string>)

  /** The author check both edit pages run once the post arrives: anyone but the
      author is told off and sent to the post, and the form is left alone. */
  function AuthorGuard(post: StoredPost, user: Option<User>, postPage: string): (r: seq<Effect<PostRequest>>)
    ensures r == [] <==> user.Some? && user.value.id == post.authorId
    ensures r != [] ==> r == [Toast("권한 없음", "본인의 게시글만 수정할 수 있습니다."), Navigate(Path(postPage))]
  {
    if user.Some? && user.value.id == post.authorId then []
    else [Toast("권한 없음", "본인의 게시글만 수정할 수 있습니다."), Navigate(Path(postPage))]
  }

  /** The board edit page's effect: the author's form and photo list are filled
      from the stored post; missing photos, semester and chat link become empty. */
  function LoadBoardPost(f: PostForm, images: seq<string>, post: Option<StoredPost>, user: Option<User>, postId: string):
    (r: (PostForm, seq<string>, seq<Effect<PostRequest>>))
    ensures NoRequest(r.2) && NoLogin(r.2)
    ensures post.None? ==> r == (f, images, [])
    ensures post.Some? && r.2 != [] ==>
      r.0 == f && r.1 == images && r.2 == AuthorGuard(post.value, user, "/community/post/" + postId)
    ensures post.Some? && r.2 == [] ==>
      var p := post.value;
      && user.Some? && user.value.id == p.authorId
      && r.0 == PostForm(p.title, p.content, p.category, p.country, p.school,
                         p.semester.GetOr(""), p.openChatLink.GetOr(""))
      && r.1 == p.images.GetOr([])
  {
    if post.None? then (f, images, [])
    else
      var p := post.value;
      var guard := AuthorGuard(p, user, "/community/post/" + postId);
      if guard != [] then (f, images, guard)
      else (PostForm(p.title, p.content, p.category, p.country, p.school,
                     p.semester.GetOr(""), p.openChatLink.GetOr("")),
            p.images.GetOr([]), [])
  }

  /** The meeting edit page's effect: a missing country becomes "전체"; the photo
      list is not kept. */
  function LoadMeetingPost(f: PostForm, post: Option<StoredPost>, user: Option<User>, postId: string):
    (r: (PostForm, seq<Effect<PostRequest>>))
    ensures NoRequest(r.1) && NoLogin(r.1)
    ensures post.None? ==> r == (f, [])
    ensures post.Some? && r.1 != [] ==> r.0 == f && r.1 == AuthorGuard(post.value, user, "/meetings/" + postId)
    ensures post.Some? && r.1 == [] ==>
      var p := post.value;
      && user.Some? && user.value.id == p.authorId
      && r.0 == PostForm(p.title, p.content, p.category, if p.country != "" then p.country else "전체",
                         p.school, p.semester.GetOr(""), p.openChatLink.GetOr(""))
  {
    if post.None? then (f, [])
    else
      var p := post.value;
      var guard := AuthorGuard(p, user, "/meetings/" + postId);
      if guard != [] then (f, guard)
      else (PostForm(p.title, p.content, p.category, OrElse(p.country, "전체"), p.school,
                     p.semester.GetOr(""), p.openChatLink.GetOr("")), [])
  }

  /** The author who opens a filled-in board post and saves it untouched writes
      back the stored post: the same texts and photos, and the semester and chat
      link exactly when it is a meeting post. */
  lemma UntouchedBoardEditWritesBack(f: PostForm, images: seq<string>, p: StoredPost, u: User, postId: string)
    requires u.id == p.authorId
    requires !IsBlank(p.title) && !IsBlank(p.content) && !IsBlank(p.country)
    ensures var loaded := LoadBoardPost(f, images, Some(p), Some(u), postId);
      var r := SubmitEditedPost(loaded.0, postId, loaded.1);
      && r == [Send(UpdatePost(postId, EditedPayload(loaded.0, loaded.1)))]
      && var q := EditedPayload(loaded.0, loaded.1);
      && q.title == p.title && q.content == p.content && q.category == p.category
      && q.country == p.country && q.school == p.school && q.images == p.images.GetOr([])
      && (p.category == MeetingCategory ==> q.semester == Some(p.semester.GetOr("")) && q.openChatLink == Some(p.openChatLink.GetOr("")))
      && (p.category != MeetingCategory ==> q.semester.None? && q.openChatLink.None?)
  {
  }

  /** Someone other than the author never reaches a filled-in form: the form and
      photos stay as they were. */
  lemma NonAuthorKeepsForm(f: PostForm, images: seq<string>, p: StoredPost, user: Option<User>, postId: string)
    requires user.None? || user.value.id != p.authorId
    ensures var r := LoadBoardPost(f, images, Some(p), user, postId);
      r.0 == f && r.1 == images && r.2[|r.2| - 1] == Navigate(Path("/community/post/" + postId))
    ensures var r := LoadMeetingPost(f, Some(p), user, postId);
      r.0 == f && r.1[|r.1| - 1] == Navigate(Path("/meetings/" + postId))
  {
  }

  // ---- Failures ----

  const ExpiredText: string := "로그인이 만료되었습니다. 다시 로그인해주세요."

  /** The message a failed post request shows: an expired sign-in for a 401, the
      page's no-permission text for a 403, else the error's own text, and the
      page's fallback when the error has no text. */
  function PostErrorText(message: string, forbidden: string, fallback: string): (t: string)
    ensures message == "" ==> t == fallback
    ensures message != "" && Contains(message, "401") ==> t == ExpiredText
    ensures message != "" && !Contains(message, "401") && Contains(message, "403") ==> t == forbidden
    ensures message != "" && !Contains(message, "401") && !Contains(message, "403") ==> t == message
  {
    if message == "" then fallback
    else if Contains(message, "401") then ExpiredText
    else if Contains(message, "403") then forbidden
    else message
  }

  /** The failure toasts of the two create pages and of the two edit pages. */
  function CreateFailed(message: string): Effect<PostRequest> {
    Toast("게시글 작성 실패", PostErrorText(message, "권한이 없습니다. 다시 로그인해주세요.", "게시글을 작성하는데 실패했습니다."))
  }

  function EditFailed(message: string): Effect<PostRequest> {
    Toast("게시글 수정 실패", PostErrorText(message, "권한이 없습니다.", "게시글을 수정하는데 실패했습니다."))
  }

  /** The reader sees the server's own words exactly when they mention neither
      code; every failure shows some text. */
  lemma ErrorTextShowsMessage(message: string, forbidden: string, fallback: string)
    requires message != ""
    ensures PostErrorText(message, forbidden, fallback) == message <==>
      (!Contains(message, "401") && !Contains(message, "403")) || (Contains(message, "401") && message == ExpiredText)
        || (!Contains(message, "401") && Contains(message, "403") && message == forbidden)
    ensures fallback != "" && forbidden != "" ==> PostErrorText(message, forbidden, fallback) != ""
  {
  }

  /** Where each page goes after a successful request. */
  function AfterSave(request: PostRequest, meetingPage: bool): (r: Effect<PostRequest>)
    ensures r.Navigate?
    ensures request.CreateBoardPost? ==> r.route == Path("/community")
    ensures request.CreateMeetingPost? ==> r.route == Path("/meetings")
    ensures request.UpdatePost? ==> r.route == Path((if meetingPage then "/meetings/" else "/community/post/") + request.postId)
  {
    match request
    case CreateBoardPost(_) => Navigate(Path("/community"))
    case CreateMeetingPost(_) => Navigate(Path("/meetings"))
    case UpdatePost(id, _) => Navigate(Path((if meetingPage then "/meetings/" else "/community/post/") + id))
  }
}

=== FILE: session.dfy ===
/**
  The session store: the authentication provider's in-memory token and user,
  mirrored in the browser's local storage under the keys "token" and "user".
  Local storage is a map from keys to texts; the provider shares it with every
  other page, so keys it does not own must survive a sign-out.
  The analytics calls made on sign-in and on restore are fire-and-forget and
  have no effect on the session; they are not modelled.
*/
module Session {
  import opened Base
  import opened Strings
  import opened Users
  import opened Effects

  const TokenKey: string := "token"
  const UserKey: string := "user"

  datatype AuthState = AuthState(
    token: Option<string>,
    user: Option<User>,
    storage: map<string, string>,
    isLoading: bool,
    /** whether the global sign-out handler of the request layer is installed */
    logoutRegistered: bool)

  /** The provider as first rendered, before its mount effect runs. */
  function Mounted(storage: map<string, string>): AuthState {
    AuthState(None, None, storage, true, false)
  }

  /** Token and user are set and cleared together. */
  predicate Paired(s: AuthState) {
    s.token.None? <==> s.user.None?
  }

  predicate Signed(s: AuthState) {
    s.token.Some? && s.user.Some?
  }

  /** `localStorage.getItem(key)` is a non-empty text. */
  predicate Stored(storage: map<string, string>, key: string) {
    key in storage && storage[key] != ""
  }

  /** Both keys hold text but the user text does not parse: `JSON.parse` throws and
      the mount effect stops there. */
  predicate Corrupt(storage: map<string, string>) {
    Stored(storage, TokenKey) && Stored(storage, UserKey) && DecodeUser(storage[UserKey]).None?
  }

  /** The mount effect: restore the session when both keys hold text, then clear
      the loading flag and install the global sign-out handler. */
  function Init(s: AuthState): (r: AuthState)
    ensures r.storage == s.storage
    ensures Corrupt(s.storage) ==> r == s
    ensures !Corrupt(s.storage) ==> !r.isLoading && r.logoutRegistered
    ensures Stored(s.storage, TokenKey) && Stored(s.storage, UserKey) && !Corrupt(s.storage) ==>
      r.token == Some(s.storage[TokenKey]) && r.user.Some? && DecodeUser(s.storage[UserKey]) == r.user
    ensures !(Stored(s.storage, TokenKey) && Stored(s.storage, UserKey)) ==>
      r.token == s.token && r.user == s.user
    ensures Paired(s) ==> Paired(r)
  {
    if Stored(s.storage, TokenKey) && Stored(s.storage, UserKey) then
      match DecodeUser(s.storage[UserKey])
      case None => s
      case Some(u) =>
        s.(token := Some(s.storage[TokenKey]), user := Some(u), isLoading := false, logoutRegistered := true)
    else
      s.(isLoading := false, logoutRegistered := true)
  }

  /** A page load: a fresh provider over the given storage, after its mount effect. */
  function Reload(storage: map<string, string>): AuthState {
    Init(Mounted(storage))
  }

  /** `login(token, user)`: clear all of local storage, then write the new pair. */
  function Login(s: AuthState, t: string, u: User): (r: AuthState)
    ensures r.token == Some(t) && r.user == Some(u)
    ensures r.storage.Keys == {TokenKey, UserKey}
    ensures r.storage[TokenKey] == t && r.storage[UserKey] == EncodeUser(u)
    ensures r.isLoading == s.isLoading && r.logoutRegistered == s.logoutRegistered
    ensures Paired(r)
  {
    s.(token := Some(t), user := Some(u), storage := map[TokenKey := t, UserKey := EncodeUser(u)])
  }

  /** `logout()`: forget the pair in memory and in storage, then go to sign-in. */
  function Logout(s: AuthState): (r: (AuthState, seq<Effect<()>>))
    ensures r.0.token.None? && r.0.user.None?
    ensures r.0.storage.Keys == s.storage.Keys - {TokenKey, UserKey}
    ensures forall k :: k in r.0.storage ==> r.0.storage[k] == s.storage[k]
    ensures r.1 == [Navigate(Path(LoginPage))]
  {
    (s.(token := None, user := None, storage := s.storage - {TokenKey, UserKey}),
     [Navigate(Path(LoginPage))])
  }

  /** `updateUser(user)`: replace the cached profile, keep the token. */
  function UpdateUser(s: AuthState, u: User): (r: AuthState)
    ensures r.user == Some(u) && r.token == s.token
    ensures r.storage.Keys == s.storage.Keys + {UserKey}
    ensures DecodeUser(r.storage[UserKey]) == Some(u)
    ensures forall k :: k in s.storage && k != UserKey ==> r.storage[k] == s.storage[k]
    ensures Paired(s) ==> (Paired(r) <==> s.token.Some?)
  {
    DecodeEncode(u);
    s.(user := Some(u), storage := s.storage[UserKey := EncodeUser(u)])
  }

  /** `useRequireAuth`: once loading is over, a visitor without a user is sent to sign-in. */
  function RequireAuth(s: AuthState): (r: seq<Effect<()>>)
    ensures r != [] <==> !s.isLoading && s.user.None?
    ensures r != [] ==> r == [Navigate(Path(LoginPage))]
  {
    if !s.isLoading && s.user.None? then [Navigate(Path(LoginPage))] else []
  }

  /** Runs the sign-ins among a handler's effects against the store. */
  function Apply<R>(s: AuthState, es: seq<Effect<R>>): (r: AuthState)
    ensures NoLogin(es) ==> r == s
    decreases |es|
  {
    if es == [] then s
    else
      var s' := if es[0].LogIn? then Login(s, es[0].token, es[0].user) else s;
      Apply(s', es[1..])
  }

  /** After `login(t, u)` a page load restores exactly that session, provided the
      token is a non-empty text (an empty token is falsy and is not restored). */
  lemma ReloadAfterLogin(s: AuthState, t: string, u: User)
    ensures var r := Reload(Login(s, t, u).storage);
      (Signed(r) <==> t != "") && (t != "" ==> r.token == Some(t) && r.user == Some(u))
    ensures !Reload(Login(s, t, u).storage).isLoading
  {
    DecodeEncode(u);
  }

  /** A second sign-in leaves nothing of the first account: the state is the one a
      single sign-in with the second account gives, and a reload restores the second. */
  lemma SecondLoginReplacesFirst(s: AuthState, t1: string, u1: User, t2: string, u2: User)
    requires t2 != ""
    ensures Login(Login(s, t1, u1), t2, u2) == Login(s, t2, u2)
    ensures Reload(Login(Login(s, t1, u1), t2, u2).storage).user == Some(u2)
    ensures u1 != u2 ==> forall k :: k in Login(Login(s, t1, u1), t2, u2).storage ==>
      DecodeUser(Login(Login(s, t1, u1), t2, u2).storage[k]) != Some(u1) || k == TokenKey
  {
    DecodeEncode(u2);
  }

  /** After `logout()` a page load is anonymous, and only the two session keys
      were removed from storage. */
  lemma ReloadAfterLogout(s: AuthState)
    ensures var r := Reload(Logout(s).0.storage);
      r.token.None? && r.user.None? && !r.isLoading && r.logoutRegistered
    ensures RequireAuth(Reload(Logout(s).0.storage)) == [Navigate(Path(LoginPage))]
  {
    var st := Logout(s).0.storage;
    assert TokenKey !in st;
  }

  /** A token with no user (or the reverse) is never restored as a session. */
  lemma NoSessionFromFragment(storage: map<string, string>)
    requires Stored(storage, TokenKey) != Stored(storage, UserKey)
    ensures var r := Reload(storage); r.token.None? && r.user.None? && !r.isLoading
  {
  }

  /** Updating the profile of an anonymous visitor breaks the pairing: the store
      then holds a user without a token. */
  lemma UpdateUserWithoutSession(s: AuthState, u: User)
    requires s.token.None? && s.user.None?
    ensures !Paired(UpdateUser(s, u))
  {
  }
}

=== FILE: strings.dfy ===
/**
  Character classes and string operations of JavaScript that the pages rely on:
  `trim`, `startsWith`, `includes`, `split(c)[0]`, the `||` fallback on strings,
  and decimal rendering of whole numbers in template literals.
  A Dafny `char` is a Unicode scalar value. Every character class used here
  lies in the Basic Multilingual Plane, where one such value is one UTF-16
  code unit, as JavaScript counts. A character outside that plane (an emoji,
  say) is two units in JavaScript and one `char` here, so lengths and slices
  such as `substring(0, 2)` differ for it; such characters are not modelled.
*/
module Strings {

  /** ECMAScript WhiteSpace and LineTerminator: the class matched by the regular
      expression `\s` and removed by `String.prototype.trim`. */
  predicate IsSpace(c: char) {
    || c == '\t' || c == '\n' || c == '\U{000B}' || c == '\U{000C}' || c == '\r' || c == ' '
    || c == '\U{00A0}' || c == '\U{1680}' || ('\U{2000}' <= c <= '\U{200A}')
    || c == '\U{2028}' || c == '\U{2029}' || c == '\U{202F}' || c == '\U{205F}'
    || c == '\U{3000}' || c == '\U{FEFF}'
  }

  /** A precomposed Hangul syllable, the range `가-힣` of the source's regular expressions. */
  predicate IsHangul(c: char) {
    '가' <= c <= '힣'
  }

  predicate IsAsciiLower(c: char) { 'a' <= c <= 'z' }
  predicate IsAsciiUpper(c: char) { 'A' <= c <= 'Z' }
  predicate IsDigit(c: char) { '0' <= c <= '9' }

  predicate AllHangul(s: string) {
    forall i :: 0 <= i < |s| ==> IsHangul(s[i])
  }

  predicate AllSpace(s: string) {
    forall i :: 0 <= i < |s| ==> IsSpace(s[i])
  }

  /** Removes leading white space. */
  function TrimStart(s: string): (r: string)
    ensures |r| <= |s| && r == s[|s| - |r|..]
    ensures forall i :: 0 <= i < |s| - |r| ==> IsSpace(s[i])
    ensures r == [] || !IsSpace(r[0])
  {
    if |s| > 0 && IsSpace(s[0]) then TrimStart(s[1..]) else s
  }

  /** Removes trailing white space. */
  function TrimEnd(s: string): (r: string)
    ensures r <= s
    ensures forall i :: |r| <= i < |s| ==> IsSpace(s[i])
    ensures r == [] || !IsSpace(r[|r| - 1])
  {
    if |s| > 0 && IsSpace(s[|s| - 1]) then TrimEnd(s[..|s| - 1]) else s
  }

  /** `s.trim()`: the longest infix of `s` that starts and ends with a non-space;
      empty exactly when `s` is made of white space only. */
  function Trim(s: string): (r: string)
    ensures |r| <= |s|
    ensures r == [] <==> AllSpace(s)
    ensures r != [] ==> !IsSpace(r[0]) && !IsSpace(r[|r| - 1])
    ensures exists a, b :: 0 <= a <= b <= |s| && r == s[a..b] && AllSpace(s[..a]) && AllSpace(s[b..])
  {
    var t := TrimStart(s);
    var r := TrimEnd(t);
    TrimStartCut(s, t);
    TrimEndCut(t, r);
    TrimEmpty(s, t, r);
    SliceOfCuts(s, t, r);
    r
  }

  /** White space, then `r`, then white space: `r` is a slice of `s` with only
      white space around it. */
  lemma {:induction false} SliceOfCuts(s: string, t: string, r: string)
    requires |t| <= |s| && t == s[|s| - |t|..] && AllSpace(s[..|s| - |t|])
    requires |r| <= |t| && r == t[..|r|] && AllSpace(t[|r|..])
    ensures exists a, b :: 0 <= a <= b <= |s| && r == s[a..b] && AllSpace(s[..a]) && AllSpace(s[b..])
  {
    var a := |s| - |t|;
    var b := a + |r|;
    assert s[b..] == t[|r|..];
    assert r == s[a..b];
  }

  /** The white space `TrimStart` removes is a prefix of `s`. */
  lemma {:induction false} TrimStartCut(s: string, t: string)
    requires t == TrimStart(s)
    ensures t == s[|s| - |t|..] && AllSpace(s[..|s| - |t|])
  {
    var a := |s| - |t|;
    forall i | 0 <= i < a ensures IsSpace(s[..a][i]) {
      assert s[..a][i] == s[i];
    }
  }

  /** The white space `TrimEnd` removes is a suffix of `t`. */
  lemma {:induction false} TrimEndCut(t: string, r: string)
    requires r == TrimEnd(t)
    ensures r == t[..|r|] && AllSpace(t[|r|..])
  {
    forall i | 0 <= i < |t| - |r| ensures IsSpace(t[|r|..][i]) {
      assert t[|r|..][i] == t[|r| + i];
    }
  }

  /** Both trims together leave nothing exactly for an all-space text. */
  lemma {:induction false} TrimEmpty(s: string, t: string, r: string)
    requires t == TrimStart(s) && r == TrimEnd(t)
    ensures r == [] <==> AllSpace(s)
  {
    var a := |s| - |t|;
    if r == [] {
      assert t == [];
    } else {
      assert s[a] == t[0] == r[0];
    }
  }

  lemma TrimStartOfTrimmed(s: string)
    requires s == [] || !IsSpace(s[0])
    ensures TrimStart(s) == s
  {
  }

  lemma TrimEndOfTrimmed(s: string)
    requires s == [] || !IsSpace(s[|s| - 1])
    ensures TrimEnd(s) == s
  {
  }

  /** Trimming a trimmed text changes nothing. */
  lemma {:induction false} TrimIdempotent(s: string)
    ensures Trim(Trim(s)) == Trim(s)
  {
    TrimOfTrimmed(Trim(s));
  }

  /** A text with no white space at either end is its own trim. */
  lemma {:induction false} TrimOfTrimmed(t: string)
    requires t == [] || (!IsSpace(t[0]) && !IsSpace(t[|t| - 1]))
    ensures Trim(t) == t
  {
    TrimStartOfTrimmed(t);
    TrimEndOfTrimmed(t);
  }

  /** `!s.trim()`: the JavaScript test for a blank field. */
  predicate IsBlank(s: string) {
    Trim(s) == []
  }

  /** `s.startsWith(p)`. */
  predicate StartsWith(s: string, p: string) {
    p <= s
  }

  /** `sub` occurs in `s` at position `i`. */
  predicate OccursAt(s: string, sub: string, i: int) {
    0 <= i <= |s| - |sub| && sub == s[i..i + |sub|]
  }

  /** `s.includes(sub)`. */
  predicate Contains(s: string, sub: string) {
    exists i | 0 <= i <= |s| - |sub| :: OccursAt(s, sub, i)
  }

  /** A text that lacks one of the characters of `sub` does not contain `sub`. */
  lemma MissingCharExcludes(s: string, sub: string, k: nat)
    requires k < |sub| && sub[k] !in s
    ensures !Contains(s, sub)
  {
    forall i | 0 <= i <= |s| - |sub|
      ensures !OccursAt(s, sub, i)
    {
      assert s[i..i + |sub|][k] == s[i + k];
    }
  }

  /** `a || b` on strings: `a` unless it is empty. */
  function OrElse(a: string, b: string): (r: string)
    ensures r == a || r == b
    ensures r == [] <==> a == [] && b == []
  {
    if a != [] then a else b
  }

  /** `s.split(c)[0]`: the part of `s` before the first `c`, or all of `s`. */
  function BeforeFirst(s: string, c: char): (r: string)
    ensures r <= s && c !in r
    ensures |r| < |s| ==> s[|r|] == c
  {
    if s == [] || s[0] == c then [] else [s[0]] + BeforeFirst(s[1..], c)
  }

  /** The characters `toUpperCase` changes into ASCII capitals: the ASCII
      lower-case letters, and the ten characters outside ASCII whose full upper
      case (Unicode SpecialCasing) is made of ASCII capitals alone. */
  predicate ChangesCase(c: char) {
    IsAsciiLower(c) || c in "\U{0131}\U{017F}\U{00DF}\U{FB00}\U{FB01}\U{FB02}\U{FB03}\U{FB04}\U{FB05}\U{FB06}"
  }

  /** `c.toUpperCase()` for a character of `ChangesCase`: a–z to A–Z, ı to I,
      ſ to S, ß to SS, and the ligatures ﬀ ﬁ ﬂ ﬃ ﬄ ﬅ ﬆ to their letters. Any other
      character is kept. That is exact for ASCII capitals, digits and Hangul
      syllables. For the remaining characters JavaScript may change them, but
      both the kept character and its true upper case contain something that
      is neither an ASCII capital nor a Hangul syllable. */
  function UpperOf(c: char): (r: string)
    ensures |r| >= 1
    ensures !ChangesCase(c) ==> r == [c]
    ensures IsAsciiLower(c) ==> r == [(c as int - 32) as char] && IsAsciiUpper(r[0])
  {
    if IsAsciiLower(c) then [(c as int - 32) as char]
    else if c == '\U{0131}' then "I"
    else if c == '\U{017F}' then "S"
    else if c == '\U{00DF}' then "SS"
    else if c == '\U{FB00}' then "FF"
    else if c == '\U{FB01}' then "FI"
    else if c == '\U{FB02}' then "FL"
    else if c == '\U{FB03}' then "FFI"
    else if c == '\U{FB04}' then "FFL"
    else if c == '\U{FB05}' || c == '\U{FB06}' then "ST"
    else [c]
  }

  /** `s.toUpperCase()`, character by character. */
  function UpperCase(s: string): (r: string)
    ensures |r| >= |s|
    decreases |s|
  {
    if s == [] then [] else UpperOf(s[0]) + UpperCase(s[1..])
  }

  lemma {:induction false} UpperCaseAppend(a: string, b: string)
    ensures UpperCase(a + b) == UpperCase(a) + UpperCase(b)
    decreases |a|
  {
    if a == [] {
      assert a + b == b;
    } else {
      assert (a + b)[0] == a[0] && (a + b)[1..] == a[1..] + b;
      UpperCaseAppend(a[1..], b);
    }
  }

  /** A text of characters `toUpperCase` leaves alone is its own upper case. */
  lemma {:induction false} UpperCaseFixed(s: string)
    requires forall i :: 0 <= i < |s| ==> !ChangesCase(s[i])
    ensures UpperCase(s) == s
    decreases |s|
  {
    if s != [] {
      UpperCaseFixed(s[1..]);
      assert s == [s[0]] + s[1..];
    }
  }

  function DigitValue(c: char): int {
    c as int - '0' as int
  }

  function DigitChar(d: nat): (c: char)
    requires d < 10
    ensures IsDigit(c) && DigitValue(c) == d
  {
    ('0' as int + d) as char
  }

  predicate AllDigits(s: string) {
    forall i :: 0 <= i < |s| ==> IsDigit(s[i])
  }

  /** The decimal numeral of `n`, as a template literal `${n}` renders it. */
  function NatToDecimal(n: nat): (r: string)
    ensures |r| >= 1 && AllDigits(r)
    decreases n
  {
    if n < 10 then [DigitChar(n)] else NatToDecimal(n / 10) + [DigitChar(n % 10)]
  }

  /** The value of a string of decimal digits. */
  function DecimalValue(s: string): nat
    requires AllDigits(s)
  {
    if s == [] then 0 else DecimalValue(s[..|s| - 1]) * 10 + DigitValue(s[|s| - 1])
  }

  /** Reading back a rendered number gives the number. */
  lemma {:induction false} DecimalRoundTrip(n: nat)
    ensures DecimalValue(NatToDecimal(n)) == n
    decreases n
  {
    if n >= 10 {
      var d := NatToDecimal(n / 10);
      var r := NatToDecimal(n);
      assert r[..|r| - 1] == d;
      DecimalRoundTrip(n / 10);
    }
  }

  /** Distinct numbers render differently. */
  lemma DecimalInjective(m: nat, n: nat)
    requires NatToDecimal(m) == NatToDecimal(n)
    ensures m == n
  {
    DecimalRoundTrip(m);
    DecimalRoundTrip(n);
  }
}

=== FILE: users.dfy ===
/**
  The user profile the client caches, and its serialised form.

  The client writes the profile to local storage with `JSON.stringify` and reads
  it back with `JSON.parse`. Only two facts about that text matter to the
  session logic: it is never empty, and parsing gives back the profile that was
  written. The model therefore uses a small length-prefixed text encoding in
  place of JSON and proves exactly those two facts about it.
*/
module Users {
  import opened Base
  import opened Strings

  /** A profile as the server sends it. A field the server leaves out is the empty
      string: every use in the client goes through `||` or a truthiness test,
      which treat `undefined` and `""` alike. */
  datatype User = User(
    id: string,
    username: string,
    email: string,
    country: string,
    school: string,
    provider: string,
    needsAdditionalInfo: bool)

  /** The `user` query parameter of a sign-in redirect after
      `JSON.parse(decodeURIComponent(...))`: missing or empty, not a profile, or a profile. */
  datatype UserParam = Absent | Malformed | Parsed(user: User)

  /** One field: its length in decimal, a colon, then the text. */
  function EncodeField(s: string): string {
    NatToDecimal(|s|) + ":" + s
  }

  function EncodeFields(fs: seq<string>): string {
    if fs == [] then "" else EncodeField(fs[0]) + EncodeFields(fs[1..])
  }

  /** The serialised profile stored under the "user" key. */
  function EncodeUser(u: User): (r: string)
    ensures r != ""
  {
    EncodeFields([u.id, u.username, u.email, u.country, u.school, u.provider])
      + (if u.needsAdditionalInfo then "1" else "0")
  }

  /** Length of the run of decimal digits that starts `s`. */
  function DigitRun(s: string): (n: nat)
    ensures n <= |s|
    ensures forall i :: 0 <= i < n ==> IsDigit(s[i])
    ensures n < |s| ==> !IsDigit(s[n])
  {
    if s != [] && IsDigit(s[0]) then 1 + DigitRun(s[1..]) else 0
  }

  /** Reads one field from the front of `s`, giving the field and the rest. */
  function ReadField(s: string): Option<(string, string)> {
    var k := DigitRun(s);
    if k == 0 || k == |s| || s[k] != ':' then None
    else
      assert AllDigits(s[..k]);
      var n := DecimalValue(s[..k]);
      var rest := s[k + 1..];
      if n <= |rest| then Some((rest[..n], rest[n..])) else None
  }

  /** Reads `count` fields from the front of `s`. */
  function ReadFields(s: string, count: nat): Option<(seq<string>, string)>
    decreases count
  {
    if count == 0 then Some(([], s))
    else
      match ReadField(s)
      case None => None
      case Some((f, rest)) =>
        match ReadFields(rest, count - 1)
        case None => None
        case Some((fs, tail)) => Some(([f] + fs, tail))
  }

  /** `JSON.parse` of a stored profile: `None` when the text is not a profile. */
  function DecodeUser(s: string): Option<User> {
    match ReadFields(s, 6)
    case None => None
    case Some((fs, flag)) =>
      if |fs| != 6 then None
      else if flag == "1" then Some(User(fs[0], fs[1], fs[2], fs[3], fs[4], fs[5], true))
      else if flag == "0" then Some(User(fs[0], fs[1], fs[2], fs[3], fs[4], fs[5], false))
      else None
  }

  lemma {:induction false} DigitRunOfNumeral(d: string, u: string)
    requires AllDigits(d)
    requires u == [] || !IsDigit(u[0])
    ensures DigitRun(d + u) == |d|
    decreases |d|
  {
    if d != [] {
      assert (d + u)[1..] == d[1..] + u;
      DigitRunOfNumeral(d[1..], u);
    }
  }

  lemma ReadEncodedField(x: string, t: string)
    ensures ReadField(EncodeField(x) + t) == Some((x, t))
  {
    var d := NatToDecimal(|x|);
    var s := EncodeField(x) + t;
    assert s == d + (":" + x + t);
    DigitRunOfNumeral(d, ":" + x + t);
    assert s[..|d|] == d;
    DecimalRoundTrip(|x|);
    assert s[|d| + 1..] == x + t;
  }

  lemma {:induction false} ReadEncodedFields(fs: seq<string>, t: string)
    ensures ReadFields(EncodeFields(fs) + t, |fs|) == Some((fs, t))
    decreases |fs|
  {
    if fs != [] {
      var rest := EncodeFields(fs[1..]) + t;
      assert ReadField(EncodeFields(fs) + t) == Some((fs[0], rest)) by {
        assert EncodeFields(fs) + t == EncodeField(fs[0]) + rest;
        ReadEncodedField(fs[0], rest);
      }
      assert ReadFields(rest, |fs| - 1) == Some((fs[1..], t)) by {
        ReadEncodedFields(fs[1..], t);
      }
      assert [fs[0]] + fs[1..] == fs;
    } else {
      assert EncodeFields(fs) + t == t;
    }
  }

  /** Parsing the stored text of a profile gives the profile back. */
  lemma DecodeEncode(u: User)
    ensures DecodeUser(EncodeUser(u)) == Some(u)
  {
    var fs := [u.id, u.username, u.email, u.country, u.school, u.provider];
    ReadEncodedFields(fs, if u.needsAdditionalInfo then "1" else "0");
  }

  /** Distinct profiles are stored as distinct texts. */
  lemma EncodeInjective(u: User, v: User)
    requires EncodeUser(u) == EncodeUser(v)
    ensures u == v
  {
    DecodeEncode(u);
    DecodeEncode(v);
  }
}
